=== FILE: README.md ===
# es-changelog, modelled in Dafny

es-changelog builds a release changelog from the descriptions of merged pull
requests. Each description carries a version marker
(`<!-- es-changelog-version 1 -->`) and a `## Changelog` section. In that
section, `###` headings name categories and `- ` bullets are entries: they are
indented two spaces per level and may name their reporters in brackets.

The tool works in four steps:

1. It parses every description into a forest of categories and entries.
2. It concatenates the forests of all merge commits.
3. It merges the categories by case-insensitive title.
4. It prints the result as a Markdown list under a version heading and a date.

This project models that pipeline as pure functions over immutable datatypes,
and proves what each step promises.

| file | module | models |
|---|---|---|
| `text.dfy` | `Text` | JavaScript string operations the code relies on (`trim`, `split`, `join`, `replaceAll`, `repeat`), the JS `\s` and `\w` classes, and decimal digits |
| `types.dfy` | `Types` | `Entry`, `Category`, the four `ParseError`s and a `Result` |
| `outline.dfy` | `Outline` | the preorder outline of a forest: one node per heading and per entry, with its depth. It is the reference both the parser and the printer are stated against |
| `normalize.dfy` | `Normalize` | `normalizeBullets` |
| `version.dfy` | `Version` | `parseVersion` |
| `heading.dfy` | `Heading` | `parseCategory` |
| `bullet.dfy` | `Bullet` | `parseEntry` |
| `parser.dfy` | `Parser` | `parsePr`, with the descent along the last entries as a pure `Insert` |
| `categories.dfy` | `Categories` | `flattenCategories` |
| `format.dfy` | `Format` | `formatChangelog`, `formatCategories`, `formatEntry` |
| `changelog.dfy` | `Changelog` | the fold of `getChangelogEntry` over the merge commits, then flatten and format |

## How the regular expressions are modelled

Each regular expression is modelled in three parts:

- **An explicit matcher.** It has the greedy and backtracking choices of a JavaScript regex engine worked out case by case (`VersionAt`, `CategoryAt`, `MatchEntry`, `WrapAt`/`Scan`).
- **A shape predicate.** It says declaratively which strings the pattern accepts (`MarkerShape`, `HeadingShape`, `EntryShape`).
- **Soundness and completeness lemmas.** They connect the matcher with the shape.

An unanchored search takes the leftmost position where the anchored matcher succeeds (`FirstTrue`). The `g`/`m` replace of `normalizeBullets` is modelled on the joined text exactly as the engine scans it. It is then proved equal to a line-by-line rule (`JoinWrapped`).

## Where the code decides

- **Depth without a separating space (`parseEntry`, src/parser.ts:36-41).** When the description cannot start after a bullet and its spaces, the engine backtracks and reads the `-` as the first character of the description. That happens, for example, in `  -[x]`, where the description would have to start at `[`. The entry then has depth 0 even though a `-` follows the indentation. `MatchEntry` models this fallback, and `Bullet.ExampleBracketAfterBullet` proves that `  -[x]` parses to the description `-` with the reporter `x` at depth 0. `Bullet.ParseEntryResult` states the rule that does hold for every line: the depth is 0 or half the leading spaces before a `-`.
- **Version lookup (`parsePr`, src/parser.ts:59-79).** The version is looked up before `stripHtmlComments` runs and checked after it. `stripHtmlComments` is a parameter without effects here, so the order does not show.
- **A fourth error (`parsePr`, src/parser.ts:38).** `parsePr` also fails when an entry line is malformed: `parseEntry` throws, and nothing in `parsePr` catches it. The model has this as a fourth error, `MalformedEntry`.
- **A blank or all-blank section.** `normalizeBullets` of an empty or all-blank list returns `[""]`, because `"".split("\n")` is `[""]`. The reducer then skips that empty line.
- **Descriptions without a blank line (`getChangelogEntry`, src/index.ts:41-42).** For a commit body without a blank line, `indexOf` returns -1. The description is then the body without its first character.
- **Private entries (src/index.ts:59-61).** `getChangelogEntry` is modelled with private entries included. With the CLI's default (`--public` unset), `includePrivate` is true, so nothing is stripped.

## Model

| member | source | states |
|---|---|---|
| Text.TrimEmptyIffBlank | src/parser.ts:14 | a line trims to the empty string exactly when it is whitespace only |
| Text.SplitJoin | src/parser.ts:14-15 | splitting at `\n` gives back lines that were joined with `\n`, when no line holds a line break |
| Text.ReplaceAllAbsent | src/parser.ts:55 | rewriting `// -` changes nothing in a description that does not contain it |
| Text.DecimalRoundTrip | src/parser.ts:23 | `parseInt` of the decimal digits of a number gives the number back |
| Normalize.NormalizeBullets | src/parser.ts:13-16 | always at least one line, and no line holds `\n`; its content is stated by `Normalize.NormalizeIsJoinWrapped` and `Normalize.NormalizeProperties` |
| Normalize.NonBlank | src/parser.ts:14 | the filter keeps exactly the lines that are not whitespace only, and never adds any |
| Normalize.ScanIsJoinWrapped | src/parser.ts:15 | the global multiline replace over the joined lines equals the line-level rule: a line not starting with `#` absorbs the next one when that line's first non-blank character is neither `#` nor `-`, and the line break plus the indentation become one space |
| Normalize.JoinWrappedLines | src/parser.ts:15 | joined lines stay non-blank and free of line breaks |
| Normalize.JoinWrappedIdentity | src/parser.ts:15 | without a joinable pair, every line is kept unchanged |
| Normalize.NormalizeIsJoinWrapped | src/parser.ts:13-16 | for lines without embedded breaks, `normalizeBullets` is the line-level rule applied to the non-blank lines, and `[""]` when there are none |
| Normalize.NormalizeProperties | src/parser.ts:13-16 | no blank line survives; the result has no more lines than there were non-blank inputs; the non-blank lines come back unchanged and in order when no pair is joinable |
| Normalize.AbsorbedLineNotExtended | src/parser.ts:15 | `- a`, `b`, `c` becomes `- a b`, `c`: a line that absorbed its follower is not extended again in the same pass |
| Version.ParseVersion | src/parser.ts:18-24 | `parseVersion`: the anchored matcher at the leftmost marker position. What it returns is stated by `Version.ParseVersionSound` (the leftmost marker's decimal value), `Version.ParseVersionComplete` (any marker gives an answer) and `Version.ParseVersionNone` |
| Version.VersionAtSound | src/parser.ts:19 | whatever the anchored matcher accepts is a marker: `<!--`, spaces, the tag, spaces, digits, spaces, `-->`, read for the value of its digits |
| Version.VersionAtComplete | src/parser.ts:19 | every marker at a position is accepted there, with the value of its digits |
| Version.FirstMarkerIsLeftmost | src/parser.ts:19 | the search position holds a marker and no marker starts before it, or there is no marker at all |
| Version.ParseVersionSound | src/parser.ts:18-24 | a version found comes from the leftmost marker in the line and is the decimal value of its digits |
| Version.ParseVersionNone | src/parser.ts:20-22 | a line without any marker gives null |
| Version.ParseVersionComplete | src/parser.ts:18-24 | any marker makes `parseVersion` answer, and with no marker to its left the answer is that marker's number |
| Version.TemplateMarker | tests/parser.test.ts:12 | `<!-- es-changelog-version 1 -->` reads as 1 |
| Heading.ParseCategory | src/parser.ts:26-33 | `parseCategory`: the anchored matcher at the leftmost heading position, with no children. What it returns is stated by `Heading.ParseCategorySound`, `Heading.ParseCategoryComplete` and `Heading.CategoryParts` |
| Heading.CategoryAtSound | src/parser.ts:27 | whatever the anchored matcher returns is the emoji and title groups of a heading shape |
| Heading.CategoryAtComplete | src/parser.ts:27 | wherever a heading shape starts, the anchored matcher succeeds |
| Heading.CategoryAtParts | src/parser.ts:27 | the title is a non-empty run of word and space characters; the emoji holds neither |
| Heading.ParseCategorySound | src/parser.ts:26-33 | a category found is the leftmost heading shape of the line and has no children |
| Heading.ParseCategoryComplete | src/parser.ts:26-33 | a line holding a heading shape anywhere gives a category |
| Heading.CategoryParts | src/parser.ts:31-32 | the returned title is a non-empty run of word and whitespace characters, and the emoji holds neither |
| Heading.ParseCategoryUnbroken | src/parser.ts:26-33 | a category read from a line without a line break holds none in its emoji or its title |
| Heading.SymbolsOnlyNoCategory | src/parser.ts:28-30 | a line of symbols only gives null |
| Heading.HashLineCategory | src/parser.ts:109-113 | a line starting with `#` gives no category exactly when it holds no word or whitespace character |
| Heading.TemplateHeading | tests/parser.test.ts:307 | `### 🖼️ Art` gives emoji `🖼️` and title `Art` |
| Heading.ExampleUntrimmedTitle | src/parser.ts:27-32 | `### Art & Design` gives an empty emoji and the untrimmed title `Art ` |
| Bullet.TailAtSound | src/parser.ts:36 | the description and bracket part the matcher returns are accepted by the regex after the bullet: a description without `]`, then the end of the line or a bracketed list without `[` |
| Bullet.TailAtComplete | src/parser.ts:36 | wherever such a description starts, the tail matcher succeeds |
| Bullet.MatchEntrySound | src/parser.ts:36 | every match the engine model reports is a way for the whole regex to match the line |
| Bullet.MatchEntryComplete | src/parser.ts:36 | if the regex can match the line at all, the engine model reports a match |
| Bullet.ParseEntry | src/parser.ts:35-51 | a failure is the `Failed to parse entry` error naming the line; an entry comes without children |
| Bullet.ParseEntryResult | src/parser.ts:36-47 | for every line that parses, the description is trimmed and contains no `]`; the depth is 0, or the first non-space character is the bullet `-` and the depth is half the number of leading spaces, rounded down |
| Bullet.ExampleBracketAfterBullet | src/parser.ts:36-47 | `  -[x]` parses to the description `-` with the reporter `x` at depth 0, because the regex backtracks past the bullet when no description can start after it |
| Bullet.ParseEntryFails | src/parser.ts:36-39 | `parseEntry` throws exactly when the regex has no way to match the line |
| Bullet.ParseEntryUnbroken | src/parser.ts:35-51 | an entry read from a line without a line break holds none in its description or its reporters |
| Bullet.ReadMentions | src/parser.ts:46 | splitting a `, `-joined list of trimmed, comma-free names at commas and trimming each gives the names back |
| Bullet.ParsePlainAt | src/parser.ts:36-47 | a bulleted line whose text has no `]` gives that text, no mentions, and half the indentation as depth |
| Bullet.ParseListAt | src/parser.ts:36-47 | a bulleted line ending in `[names]` gives the trimmed description, the trimmed names and half the indentation as depth |
| Bullet.ParseUnbulletedAt | src/parser.ts:36-47 | a line without a bullet gives its text after the indentation, at depth 0 |
| Bullet.ParseBulletLine | src/parser.ts:35-51 | an entry written as a template bullet line (two spaces per level, `- `, description, optionally spaces and `[names]`) parses back to itself, at its depth |
| Bullet.ExampleNoBullet | tests/parser.test.ts:33-36 | `       No bullet` gives `No bullet` at depth 0 |
| Bullet.ExampleTopBullet | tests/parser.test.ts:37-40 | `- Some description` gives `Some description` at depth 0 |
| Bullet.ParseIndentedBullet | src/parser.ts:41 | a bullet after `n` spaces and a trimmed description parses to that description at depth `n / 2` rounded down, for every `n` (the test's ` - Oops` at depth 0 is `n = 1`) |
| Bullet.ExampleNested | tests/parser.test.ts:45-48 | `  - Blah` gives `Blah` at depth 1 |
| Bullet.ExampleReported | tests/parser.test.ts:49-52 | `  - Blah    [Foo, Bar]` gives `Blah` reported by `Foo` and `Bar`, at depth 1 |
| Bullet.ExampleTrailingText | src/parser.ts:36 | text after the closing bracket is dropped |
| Bullet.ExampleEmptyReporters | src/parser.ts:46 | `[]` gives one empty reporter |
| Bullet.ExampleUnopenedBracket | src/parser.ts:36-39 | a `]` with no `[` before it makes `parseEntry` throw |
| Parser.Insert | src/parser.ts:116-126 | the descent along the last entries, then the push: the top-level list keeps its length or grows by exactly one entry. Where the entry lands is stated by `Parser.InsertOutline` and `Parser.InsertSpine` |
| Parser.InsertOutline | src/parser.ts:116-126 | pushing an entry adds exactly one node at the end of the walk, at the requested depth capped by the length of the chain of last entries |
| Parser.InsertSpine | src/parser.ts:116-126 | after the push, the chain of last entries ends at the new entry |
| Parser.Classify | src/parser.ts:105-115 | a heading or an entry read from a line has no children; a rejected line fails with the error naming the end-trimmed line, indentation kept |
| Parser.ClassifyUnbroken | src/parser.ts:105-115 | a line without a line break yields a heading or entry without one |
| Parser.Apply | src/parser.ts:107-128 | a reducer step keeps the list non-empty and its first category in place |
| Parser.Build | src/parser.ts:100-137 | the reduce starts from the `Uncategorized` category, which stays first |
| Parser.BuildOutline | src/parser.ts:100-137 | the forest the reduce builds walks, after the seed heading, as the flat outline of the lines: headings in order, each bullet at its requested depth capped by the previous one |
| Parser.BuildFails | src/parser.ts:115 | the reduce fails exactly when some line is rejected, and then with the first such line's error |
| Parser.Fold | src/parser.ts:100-137 | the only error the reduce raises is a malformed entry |
| Parser.PrLines | src/parser.ts:55-57 | `// -` rewritten to `- //`, then trim and split at `\n`; the lines that `Parser.ParsePrNoVersion` and `Parser.ParsePrUnsupported` search for the marker |
| Parser.VersionIndexFirst | src/parser.ts:59-67 | the version index is the first line holding a marker |
| Parser.NonEmpty | src/parser.ts:71 | the filter keeps exactly the non-empty lines |
| Parser.Body | src/parser.ts:69-71 | the lines after the first marker, passed through `stripHtmlComments` as one text, split again and without empty lines; `Parser.ParsePrNoSection` states the search for the section in them |
| Parser.ChangelogIndex | src/parser.ts:81-86 | the section starts after the first line starting with `## Changelog` |
| Parser.SectionEnd | src/parser.ts:88-94 | the section runs up to the next line starting with `## `, or to the end |
| Parser.Section | src/parser.ts:81-98 | the lines between the `## Changelog` line and the next `## ` line, or none; `Parser.ChangelogIndex` and `Parser.SectionEnd` state the two bounds |
| Parser.NonEmptyCategories | src/parser.ts:138 | no category without entries survives |
| Parser.NonEmptyCategoriesOutline | src/parser.ts:138 | dropping the empty categories removes exactly the headings that no entry follows |
| Parser.ParsePr | src/parser.ts:53-139 | every category returned has at least one entry |
| Parser.ParseBody | src/parser.ts:81-138 | every category returned has an entry, and the only errors after the version check are the missing section and a malformed entry |
| Parser.ParsePrNoVersion | src/parser.ts:59-76 | `No changelog version found` exactly when no line holds a marker |
| Parser.ParsePrUnsupported | src/parser.ts:59-79 | `Unsupported changelog version: n` exactly when the first marker holds n and n is not 1 |
| Parser.ParsePrNoSection | src/parser.ts:69-86 | `No changelog section found` exactly when the version is 1 and no line after the marker starts with `## Changelog` |
| Parser.ParsePrMalformed | src/parser.ts:96-137 | with version 1 and a section, parsing fails exactly when a normalized section line is a malformed entry, with the first one's error |
| Parser.ParsePrOutline | src/parser.ts:96-138 | a successful parse is the seed heading and the section's flat outline, less the headings no entry follows |
| Parser.ParsePrUnbroken | src/parser.ts:53-139 | no title, emoji, description or reporter of a successful parse holds a line break |
| Categories.Merge | src/categories.ts:8-19 | one loop iteration: the list keeps its length or grows by exactly one category. Its content is stated by `Categories.MergeGrouped`, `Categories.MergeKeepsEntries` and `Categories.MergeNodes` |
| Categories.IndexOfKey | src/categories.ts:9-10 | the lookup finds the first category with the lower-cased title, or reports none |
| Categories.MergeGrouped | src/categories.ts:8-19 | one loop step on the grouped categories gives the grouping of the longer input |
| Categories.FlattenIsGrouped | src/categories.ts:3-22 | the result is the grouping by lower-cased title: one category per title, in order of first appearance, with the first one's emoji and title and the children of all of them in input order |
| Categories.FlattenKeys | src/categories.ts:6-21 | the lower-cased titles of the result are those of the input, in order of first appearance, and pairwise distinct |
| Categories.FlattenIdentity | src/categories.ts:17-21 | input whose titles are already distinct up to case comes back unchanged |
| Categories.FlattenIdempotent | src/categories.ts:3-22 | flattening twice is flattening once |
| Categories.MergeKeepsEntries | src/categories.ts:10-16 | one loop step adds the category's entries to the result and loses none |
| Categories.FlattenKeepsEntries | src/categories.ts:3-22 | the top-level entries of the result are those of the input, as a multiset |
| Categories.FlattenNonEmpty | src/categories.ts:12-17 | merging categories that have entries gives categories that have entries |
| Categories.Flatten | src/categories.ts:3-22 | the result is never longer than the input |
| Categories.MergeNodes | src/categories.ts:8-19 | every heading and entry node of the merged list is a node of the list before, or of the category merged in |
| Categories.FlattenNodes | src/categories.ts:3-22 | every heading and entry node of the result, with its depth, is a node of the input: merging only regroups what is there |
| Categories.FlattenUnbroken | src/categories.ts:3-22 | flattening categories without line breaks gives categories without line breaks |
| Format.FormatEntry | src/format.ts:32-41 | `formatEntry`: its output is stated by `Format.FormatEntryOutline` |
| Format.FormatCategories | src/format.ts:17-30 | `formatCategories`: its output is stated by `Format.FormatCategoriesOutline`, `Format.FormatCategoriesLines` and `Format.NoChanges` |
| Format.FormatChangelog | src/format.ts:6-15 | `formatChangelog`, with the date already written out: its output is stated by `Format.FormatChangelogLines` |
| Format.FormatEntryOutline | src/format.ts:32-41 | an entry prints as its subtree's outline, one line per node, children one level deeper |
| Format.FormatEachOutline | src/format.ts:39 | a list of entries prints as its outline |
| Format.FormatCategoryOutline | src/format.ts:20-28 | a category prints as its heading line followed by its entries' outline at depth 1 |
| Format.FormatCategoriesOutline | src/format.ts:17-30 | the categories print as the forest's outline joined with line breaks |
| Format.RenderUnbroken | src/format.ts:22-27 | a node whose texts hold no line break prints as one line |
| Format.FormatCategoriesLines | src/format.ts:17-41 | without line breaks in the texts, the output has one line per category and per entry node, in preorder |
| Format.NoChanges | src/format.ts:13-14 | the printed categories are empty exactly when there are no categories |
| Format.FormatChangelogLines | src/format.ts:6-15 | when the version, the date and every text under the categories are free of line breaks, the changelog's lines are `## version`, `Date: date`, then the category and entry lines, or `_No changes_` when there are no categories |
| Changelog.Description | src/index.ts:41-42 | never longer than the body; what it is, with and without a blank line, is stated by `Changelog.DescriptionAfterBlank` and `Changelog.DescriptionWithoutBlank` |
| Changelog.DescriptionAfterBlank | src/index.ts:41-42 | with a blank line, the description is what follows the first one |
| Changelog.DescriptionWithoutBlank | src/index.ts:41-42 | without a blank line, the description is the body less its first character |
| Changelog.Gather | src/index.ts:40-55 | suppressed errors print nothing, and there are never more report lines than commits |
| Changelog.GatherReports | src/index.ts:43-53 | there are as many report lines as commits whose description fails to parse, and suppressing the reports changes nothing else |
| Changelog.GatherReportLines | src/index.ts:43-53 | without suppression, the report lines are, in log order, one line per commit whose description fails, naming that commit's error, message and short hash, and none for a commit that parses |
| Changelog.GatherOutline | src/index.ts:43-45 | the gathered forest is the concatenation of the commits' forests, in log order, and every category has entries |
| Changelog.GatherUnbroken | src/index.ts:40-55 | no text of the gathered categories holds a line break |
| Changelog.ChangelogEntry | src/index.ts:31-64 | `getChangelogEntry`: the printed changelog and the report lines. They are stated by `Changelog.ChangelogLines` and `Changelog.GatherReportLines` |
| Changelog.ChangelogLines | src/index.ts:40-63 | for a version and a date without line breaks, and for any commits, the printed changelog's lines are the heading, the date and the merged forest's outline (or `_No changes_`); the merged titles are distinct up to case, every category has entries, and every gathered top-level entry is kept |

## Left out

- Git, the file system and the command line (src/git.ts, src/file.ts, `main`, `getVersionDate`). The commits reach `Changelog.Gather` as a list of `(message, body, hash)`, and the date reaches it as an already-formatted string.
- `formatDate` (src/format.ts:3-5): it reads a JavaScript `Date` in the local time zone.
- `stripHtmlComments`: its source is not part of this model. `parsePr` takes it as a function parameter, and nothing is assumed about it.
- `stripPrivateEntries` and `stripPrivateFromCategories`: their source is not part of this model. The changelog is modelled with private entries included, which is the CLI's default.
- `console.error` and `console.warn`. The warning for an entry deeper than the tree (src/parser.ts:120) is a no-op. The error lines of src/index.ts:48 are returned as a list of report lines.
- Errors other than `ParseError` rethrown in src/index.ts:50-52: the modelled code raises none.
- Unicode: a Dafny string is a sequence of Unicode code points, whereas a JavaScript string is a sequence of UTF-16 code units. Three things follow from this:
  - A JavaScript string can hold a lone surrogate, and a Dafny string cannot, so such strings are not modelled.
  - Lengths and positions count code points: `"### 🖼️ Art"` has length 10 here and 11 in JavaScript. The regexes are written without the `u` flag, so a negated class matches one UTF-16 unit. In `normalizeBullets` (src/parser.ts:15), `([^#\s-])` can therefore match the high half of a surrogate pair: on the lines `a` and `😀b`, the source's `$2` is that high surrogate, while the model's match takes the whole code point. The output is the same, because the low surrogate follows `$1 $2` untouched. The other negated classes either start a run that `.*` carries to the end of the line, or match runs that stop only at characters of the Basic Multilingual Plane, so they cover the same characters in both counts.
  - `Changelog.Description` on a body without a blank line drops the first code point. The source's `body.slice(1)` drops one UTF-16 unit, which leaves a lone low surrogate when the body starts with a character outside the Basic Multilingual Plane.
- Character classes: `\w` is ASCII `[A-Za-z0-9_]`, `\s` is the JavaScript whitespace set, and lower-casing is ASCII only.
- Carriage returns and U+2028/U+2029 inside lines. They change what `.`, `^` and `$` mean, so the line-level statements of `normalizeBullets` require lines without them.
- `parseInt` precision: a version is an unbounded natural number.
- Sparse arrays: the tests build some with holes, which print as an extra empty line. Sequences here are dense.
- Normalize.NormalizeIsJoinWrapped: stated only for lines without embedded line terminators. Those are the lines `parsePr` hands over after splitting at `\n`, except for `\r` and U+2028/U+2029.
- Format.FormatCategoriesLines: the line count holds only when no title, description or mention contains a line break. That premise is discharged for everything the parser produces: `Parser.ParsePrUnbroken`, `Changelog.GatherUnbroken` and `Categories.FlattenUnbroken` prove it.
- Changelog.ChangelogLines: assumes that the version and the date hold no line break. The version is the `to` argument of the command line and the date comes from `formatDate`; neither is modelled.
- Bullet.ParseBulletLine: the round trip covers the bullet lines of the template's shape (two spaces per level, `- `, then text). Other indentations are covered by `Bullet.ParsePlainAt`, `Bullet.ParseListAt` and `Bullet.ParseUnbulletedAt`.

=== FILE: bullet.dfy ===
/**
 `parseEntry`: the match of `^( *)(-?) *([^\]]+)(?:$|\[([^\[]*)])` against
 a bullet line, giving the indentation, the bullet, the description and the
 bracketed list of reporters.
 */
module Bullet {
  import opened Text
  import opened Types

  /**
   Where the groups of a match lie: the indentation is `s[..indent]`, the
   bullet (if any) is `s[indent]`, the description is `s[start..end]`, and
   when `close` is present the reporters are `s[end + 1..close]`, between
   `[` at `end` and `]` at `close`.
   */
  datatype Match = Match(indent: nat, bullet: bool, start: nat, end: nat, close: Option<nat>)

  /**
   The regex from the description on, for a description starting at `k`:
   `[^\]]+` followed by the end of the line or by `[`, non-`[` characters
   and `]`. The description first runs up to the first `]`; if that is the
   end of the line the match is done, otherwise it gives characters back
   until the last `[` before that `]`, and the reporters run up to the last
   `]` before the next `[`.
   */
  function TailAt(s: string, k: nat): Option<(nat, Option<nat>)>
    requires k <= |s|
  {
    var d := SkipWhile(s, k, IsNot(']'));
    if d == |s| then
      if d > k then Some((d, None)) else None
    else if d == k then None
    else
      match LastIndex(s, k + 1, d, '[')
      case None => None
      case Some(x) =>
        var y := SkipWhile(s, x + 1, IsNot('['));
        match LastIndex(s, x + 1, y, ']')
        case None => None
        case Some(z) => Some((x, Some(z)))
  }

  /** A description `s[k..x]` the tail of the regex accepts, closed as `close` says. */
  predicate TailShape(s: string, k: nat, x: nat, close: Option<nat>) {
    && k < x <= |s| && All(s, k, x, IsNot(']'))
    && (close.None? ==> x == |s|)
    && (close.Some? ==>
          && x < close.value < |s| && s[x] == '[' && s[close.value] == ']'
          && All(s, x + 1, close.value, IsNot('[')))
  }

  lemma TailAtSound(s: string, k: nat)
    requires k <= |s| && TailAt(s, k).Some?
    ensures TailShape(s, k, TailAt(s, k).value.0, TailAt(s, k).value.1)
  {
    var d := SkipWhile(s, k, IsNot(']'));
    if d < |s| {
      var x := LastIndex(s, k + 1, d, '[').value;
      var y := SkipWhile(s, x + 1, IsNot('['));
      var z := LastIndex(s, x + 1, y, ']').value;
      assert All(s, x + 1, z, IsNot('['));
    }
  }

  /**
   The tail succeeds from `k` whenever a description accepted by the regex
   starts at `k`.
   */
  lemma TailAtComplete(s: string, k: nat, x: nat, close: Option<nat>)
    requires TailShape(s, k, x, close)
    ensures TailAt(s, k).Some?
  {
    var d := SkipWhile(s, k, IsNot(']'));
    assert x <= d;
    if close.Some? {
      var z := close.value;
      assert d <= z;
      assert x < d;
      assert LastIndex(s, k + 1, d, '[').Some?;
      var x' := LastIndex(s, k + 1, d, '[').value;
      var y := SkipWhile(s, x' + 1, IsNot('['));
      assert d < y;
      assert LastIndex(s, x' + 1, y, ']').Some?;
    }
  }

  /** The start of the non-indent part: just after the bullet, if there is one. */
  function AfterBullet(m: Match): nat {
    m.indent + if m.bullet then 1 else 0
  }

  /** `m` is a way for the whole regex to match `s`. */
  predicate EntryShape(s: string, m: Match) {
    && m.indent <= AfterBullet(m) <= m.start <= |s|
    && All(s, 0, m.indent, Is(' '))
    && (m.bullet ==> m.indent < |s| && s[m.indent] == '-')
    && All(s, AfterBullet(m), m.start, Is(' '))
    && TailShape(s, m.start, m.end, m.close)
  }

  /**
   The match the regex engine finds. With a bullet: the spaces after it
   are first taken whole; failing that one of them is given back to the
   description; if there were none the bullet itself becomes the start of
   the description. Without a bullet the description starts after the
   indentation, or failing that at its last space.
   */
  function MatchEntry(s: string): Option<Match> {
    var a := SkipWhile(s, 0, Is(' '));
    if a < |s| && s[a] == '-' then BulletMatch(s, a, SkipWhile(s, a + 1, Is(' ')))
    else PlainMatch(s, a)
  }

  /** The match whose description starts at `k`, if the tail matches there. */
  function MatchFrom(s: string, indent: nat, bullet: bool, k: nat): (r: Option<Match>)
    requires k <= |s|
    ensures r.Some? <==> TailAt(s, k).Some?
    ensures r.Some? ==> r.value == Match(indent, bullet, k, TailAt(s, k).value.0, TailAt(s, k).value.1)
  {
    match TailAt(s, k)
    case Some((x, z)) => Some(Match(indent, bullet, k, x, z))
    case None => None
  }

  /** With the bullet at `a` and the spaces after it running to `c`. */
  function BulletMatch(s: string, a: nat, c: nat): Option<Match>
    requires a < c <= |s|
  {
    if TailAt(s, c).Some? then MatchFrom(s, a, true, c)
    else if c > a + 1 then MatchFrom(s, a, true, c - 1)
    else MatchFrom(s, a, false, a)
  }

  /** Without a bullet after the indentation `s[..a]`. */
  function PlainMatch(s: string, a: nat): Option<Match>
    requires a <= |s|
  {
    if TailAt(s, a).Some? then MatchFrom(s, a, false, a)
    else if a > 0 then MatchFrom(s, a - 1, false, a - 1)
    else None
  }

  /** A match whose tail the tail matcher accepts is a way for the regex to match. */
  lemma ShapeOfTail(s: string, m: Match)
    requires m.indent <= AfterBullet(m) <= m.start <= |s|
    requires All(s, 0, m.indent, Is(' ')) && (m.bullet ==> m.indent < |s| && s[m.indent] == '-')
    requires All(s, AfterBullet(m), m.start, Is(' '))
    requires TailAt(s, m.start) == Some((m.end, m.close))
    ensures EntryShape(s, m)
  {
    TailAtSound(s, m.start);
  }

  /** Which of the two engines' branches a line takes. */
  lemma MatchEntryBranch(s: string, a: nat)
    requires a == SkipWhile(s, 0, Is(' '))
    ensures a < |s| && s[a] == '-' ==> MatchEntry(s) == BulletMatch(s, a, SkipWhile(s, a + 1, Is(' ')))
    ensures !(a < |s| && s[a] == '-') ==> MatchEntry(s) == PlainMatch(s, a)
  {
  }

  /** Any match found after a bullet is a way for the regex to match. */
  lemma BulletMatchSound(s: string, a: nat, c: nat)
    requires a < c <= |s| && s[a] == '-' && All(s, 0, a, Is(' ')) && All(s, a + 1, c, Is(' '))
    requires BulletMatch(s, a, c).Some?
    ensures EntryShape(s, BulletMatch(s, a, c).value)
  {
    var k := if TailAt(s, c).Some? then c else if c > a + 1 then c - 1 else a;
    var m := MatchFrom(s, a, k != a, k).value;
    assert BulletMatch(s, a, c) == Some(m);
    assert All(s, AfterBullet(m), m.start, Is(' '));
    ShapeOfTail(s, m);
  }

  /** The engine's match when a bullet follows the indentation `s[..a]`. */
  lemma MatchEntryBulletSound(s: string, a: nat)
    requires a == SkipWhile(s, 0, Is(' ')) && a < |s| && s[a] == '-' && MatchEntry(s).Some?
    ensures EntryShape(s, MatchEntry(s).value)
  {
    MatchEntryBranch(s, a);
    BulletMatchSound(s, a, SkipWhile(s, a + 1, Is(' ')));
  }

  /** The engine's match when no bullet follows the indentation `s[..a]`. */
  lemma MatchEntryPlainSound(s: string, a: nat)
    requires a == SkipWhile(s, 0, Is(' ')) && !(a < |s| && s[a] == '-') && MatchEntry(s).Some?
    ensures EntryShape(s, MatchEntry(s).value)
  {
    assert MatchEntry(s) == PlainMatch(s, a);
    ShapeOfTail(s, MatchEntry(s).value);
  }

  /** Every match the engine reports is a way for the regex to match. */
  lemma MatchEntrySound(s: string)
    requires MatchEntry(s).Some?
    ensures EntryShape(s, MatchEntry(s).value)
  {
    var a := SkipWhile(s, 0, Is(' '));
    if a < |s| && s[a] == '-' {
      MatchEntryBulletSound(s, a);
    } else {
      MatchEntryPlainSound(s, a);
    }
  }

  /** Completeness when a bullet follows the indentation. */
  lemma MatchBulletComplete(s: string, m: Match, a: nat)
    requires EntryShape(s, m)
    requires a == SkipWhile(s, 0, Is(' ')) && a < |s| && s[a] == '-'
    ensures MatchEntry(s).Some?
  {
    var c := SkipWhile(s, a + 1, Is(' '));
    BulletStartBound(s, m, a, c);
    BulletTail(s, m, a, c);
    MatchEntryBranch(s, a);
  }

  /** One of the three places the engine tries after a bullet starts a tail. */
  lemma BulletTail(s: string, m: Match, a: nat, c: nat)
    requires TailShape(s, m.start, m.end, m.close) && m.start <= c <= m.end
    requires a < |s| && s[a] == '-' && a + 1 <= c <= |s| && All(s, a + 1, c, Is(' '))
    ensures TailAt(s, c).Some? || (c > a + 1 && TailAt(s, c - 1).Some?) || (c == a + 1 && TailAt(s, a).Some?)
  {
    if c < m.end {
      TailAtComplete(s, c, m.end, m.close);
    } else if c > a + 1 {
      assert Member(s[c - 1], Is(' '));
      TailAtFrom(s, m, c - 1);
    } else {
      TailAtFrom(s, m, a);
    }
  }

  /** With a bullet after the indentation `s[..a]`, a match starts its description within the spaces after the bullet. */
  lemma BulletStartBound(s: string, m: Match, a: nat, c: nat)
    requires EntryShape(s, m)
    requires a == SkipWhile(s, 0, Is(' ')) && a < |s| && s[a] == '-'
    requires c == SkipWhile(s, a + 1, Is(' '))
    ensures m.start <= c <= m.end
  {
    assert m.indent <= a;
    if m.bullet {
      assert m.indent == a;
    } else {
      assert m.start <= a;
    }
    if m.close.Some? {
      assert s[m.end] == '[';
    }
  }

  /** The tail matches from any earlier point of a description that is not a closing bracket. */
  lemma TailAtFrom(s: string, m: Match, k: nat)
    requires TailShape(s, m.start, m.end, m.close)
    requires k < m.end && m.end <= k + 1 && s[k] != ']'
    ensures TailAt(s, k).Some?
  {
    TailAtComplete(s, k, m.end, m.close);
  }

  /** Completeness when no bullet follows the indentation. */
  lemma MatchPlainComplete(s: string, m: Match, a: nat)
    requires EntryShape(s, m)
    requires a == SkipWhile(s, 0, Is(' ')) && !(a < |s| && s[a] == '-')
    ensures MatchEntry(s).Some?
  {
    assert m.indent <= a;
    assert !m.bullet;
    assert a <= m.end;
    if a < m.end {
      TailAtComplete(s, a, m.end, m.close);
    } else {
      TailAtComplete(s, a - 1, m.end, m.close);
    }
    MatchEntryBranch(s, a);
  }

  /** If the regex can match `s` at all, the engine reports a match. */
  lemma MatchEntryComplete(s: string, m: Match)
    requires EntryShape(s, m)
    ensures MatchEntry(s).Some?
  {
    var a := SkipWhile(s, 0, Is(' '));
    if a < |s| && s[a] == '-' {
      MatchBulletComplete(s, m, a);
    } else {
      MatchPlainComplete(s, m, a);
    }
  }

  /** `.map((m) => m.trim())`. */
  function TrimAll(parts: seq<string>): (r: seq<string>)
    ensures |r| == |parts|
  {
    if parts == [] then [] else [Trim(parts[0])] + TrimAll(parts[1..])
  }

  /** The reporters in brackets, split at commas and trimmed. */
  function Mentions(s: string, m: Match): (r: seq<string>)
    requires m.end < |s| || m.close.None?
    requires m.close.Some? ==> m.end < m.close.value <= |s|
  {
    match m.close
    case None => []
    case Some(z) => TrimAll(Split(s[m.end + 1..z], ','))
  }

  /** Nesting depth: half the indentation, and 0 without a bullet. */
  function Depth(m: Match): nat {
    if m.bullet then m.indent / 2 else 0
  }

  /** The groups of `m` lie inside `s`. */
  predicate Placed(s: string, m: Match) {
    m.start <= m.end <= |s| && (m.close.Some? ==> m.end < m.close.value <= |s|)
  }

  /** What a match yields: the trimmed description, the reporters, no children, and the depth. */
  function Read(line: string, m: Match): (r: (Entry, nat))
    requires Placed(line, m)
  {
    (Entry(Trim(line[m.start..m.end]), Mentions(line, m), []), Depth(m))
  }

  /**
   `parseEntry(line)`: the entry and its nesting depth, or the error the
   source throws when the regex does not match.
   */
  function ParseEntry(line: string): (r: Result<(Entry, nat)>)
    ensures r.Err? ==> r.error == MalformedEntry(line)
    ensures r.Ok? ==> r.value.0.children == []
  {
    match MatchEntry(line)
    case None => Err(MalformedEntry(line))
    case Some(m) =>
      MatchEntrySound(line);
      Ok(Read(line, m))
  }

  /** `parseEntry` throws exactly when the regex has no way to match the line. */
  lemma ParseEntryFails(line: string)
    ensures ParseEntry(line).Err? <==> forall m :: !EntryShape(line, m)
  {
    if MatchEntry(line).Some? {
      MatchEntrySound(line);
    } else {
      forall m | EntryShape(line, m)
        ensures false
      {
        MatchEntryComplete(line, m);
      }
    }
  }

  /** The description a match yields is trimmed and holds no `]`. */
  lemma MatchDescription(s: string, m: Match)
    requires EntryShape(s, m)
    ensures Trimmed(Trim(s[m.start..m.end])) && ']' !in Trim(s[m.start..m.end])
  {
    forall k | 0 <= k < m.end - m.start
      ensures s[m.start..m.end][k] != ']'
    {
      assert Member(s[m.start + k], IsNot(']'));
    }
    TrimExcludes(s[m.start..m.end], ']');
  }

  /** A match with a bullet has it right after the leading spaces of the line. */
  lemma MatchDepth(s: string, m: Match)
    requires EntryShape(s, m)
    ensures var a := SkipWhile(s, 0, Is(' '));
      Depth(m) == 0 || (a < |s| && s[a] == '-' && Depth(m) == a / 2)
  {
    if m.bullet {
      SkipWhileUnique(s, 0, m.indent, Is(' '));
    }
  }

  /**
   Every entry `parseEntry` returns has a trimmed description without `]`,
   and its depth is 0 or half the leading spaces of a line whose first
   non-space character is the bullet.
   */
  lemma ParseEntryResult(line: string)
    requires ParseEntry(line).Ok?
    ensures var (e, d) := ParseEntry(line).value;
      var a := SkipWhile(line, 0, Is(' '));
      && Trimmed(e.description) && ']' !in e.description
      && (d == 0 || (a < |line| && line[a] == '-' && d == a / 2))
  {
    var m := MatchEntry(line).value;
    ParseEntryOf(line, m);
    MatchEntrySound(line);
    MatchDescription(line, m);
    MatchDepth(line, m);
  }

  lemma {:induction false} TrimAllExcludes(parts: seq<string>, x: char)
    requires forall k :: 0 <= k < |parts| ==> x !in parts[k]
    ensures forall k :: 0 <= k < |TrimAll(parts)| ==> x !in TrimAll(parts)[k]
  {
    if parts != [] {
      TrimExcludes(parts[0], x);
      TrimAllExcludes(parts[1..], x);
      TrimAllCons(parts[0], parts[1..]);
      assert [parts[0]] + parts[1..] == parts;
    }
  }

  /** The reporters of a match on a line free of `x` are free of `x`. */
  lemma MentionsExclude(s: string, m: Match, x: char)
    requires x !in s && Placed(s, m)
    ensures forall k :: 0 <= k < |Mentions(s, m)| ==> x !in Mentions(s, m)[k]
  {
    if m.close.Some? {
      var list := s[m.end + 1..m.close.value];
      assert x !in list;
      SplitExcludes(list, ',', x);
      TrimAllExcludes(Split(list, ','), x);
    }
  }

  /** An entry read from a line without a line break holds none, in its description or its reporters. */
  lemma ParseEntryUnbroken(line: string)
    requires '\n' !in line && ParseEntry(line).Ok?
    ensures var e := ParseEntry(line).value.0;
      '\n' !in e.description && forall k :: 0 <= k < |e.mentions| ==> '\n' !in e.mentions[k]
  {
    var m := MatchEntry(line).value;
    ParseEntryOf(line, m);
    assert '\n' !in line[m.start..m.end];
    TrimExcludes(line[m.start..m.end], '\n');
    MentionsExclude(line, m, '\n');
  }

  // ---------------------------------------------------------------------
  // Partner: the bullet lines a description is written with parse back.

  /** Each string but the first, after `", "` is split at the commas: a space in front. */
  function Spaced(xs: seq<string>): (r: seq<string>)
    ensures |r| == |xs|
  {
    seq(|xs|, k requires 0 <= k < |xs| => " " + xs[k])
  }

  lemma {:induction false} SplitMentions(ms: seq<string>)
    requires |ms| >= 1
    requires forall k :: 0 <= k < |ms| ==> ',' !in ms[k]
    ensures Split(Join(ms, ", "), ',') == [ms[0]] + Spaced(ms[1..])
  {
    if |ms| == 1 {
      SplitNoSeparator(ms[0], ',');
    } else {
      var j := Join(ms[1..], ", ");
      SplitMentions(ms[1..]);
      assert Join(ms, ", ") == ms[0] + [','] + (" " + j);
      SplitAfterSeparator(ms[0], ',', " " + j);
      assert (" " + j)[1..] == j;
      assert Spaced(ms[1..]) == [" " + ms[1]] + Spaced(ms[1..][1..]);
    }
  }

  /** An entry that can be written on one bullet line and read back. */
  predicate Writable(e: Entry) {
    && e.description != [] && Trimmed(e.description) && ']' !in e.description
    && forall k :: 0 <= k < |e.mentions| ==>
         Trimmed(e.mentions[k]) && ',' !in e.mentions[k] && '[' !in e.mentions[k] && ']' !in e.mentions[k]
  }

  /** The reporters' part of a bullet line: `gap` spaces and the list in brackets, or nothing. */
  function Reporters(mentions: seq<string>, gap: nat): string {
    if mentions == [] then "" else Repeat(" ", gap) + "[" + Join(mentions, ", ") + "]"
  }

  /**
   A bullet line as the description template has them: two spaces per
   level, `- `, the description and the reporters, e.g. `  - Blah [Foo, Bar]`.
   */
  function BulletLine(e: Entry, depth: nat, gap: nat): string {
    Repeat("  ", depth) + "- " + e.description + Reporters(e.mentions, gap)
  }

  lemma {:induction false} RepeatSpaces(s: string, n: nat)
    requires forall k :: 0 <= k < |s| ==> s[k] == ' '
    ensures forall k :: 0 <= k < |Repeat(s, n)| ==> Repeat(s, n)[k] == ' '
  {
    if n > 0 {
      RepeatSpaces(s, n - 1);
    }
  }

  lemma {:induction false} TrimAllSpaced(xs: seq<string>)
    requires forall k :: 0 <= k < |xs| ==> Trimmed(xs[k])
    ensures TrimAll(Spaced(xs)) == xs
  {
    if xs != [] {
      assert Spaced(xs)[1..] == Spaced(xs[1..]);
      TrimLeading(xs[0]);
      TrimAllSpaced(xs[1..]);
    }
  }

  lemma TrimListed(ms: seq<string>, parts: seq<string>)
    requires |ms| >= 1 && forall k :: 0 <= k < |ms| ==> Trimmed(ms[k])
    requires parts == [ms[0]] + Spaced(ms[1..])
    ensures TrimAll(parts) == ms
  {
    var x, rest := ms[0], ms[1..];
    assert Trimmed(x) && forall k :: 0 <= k < |rest| ==> Trimmed(rest[k]);
    TrimAllCons(x, Spaced(rest));
    TrimKeeps(x);
    TrimAllSpaced(rest);
    assert [x] + rest == ms;
  }

  lemma TrimAllCons(x: string, ys: seq<string>)
    ensures TrimAll([x] + ys) == [Trim(x)] + TrimAll(ys)
  {
    assert ([x] + ys)[1..] == ys;
  }

  /** Reading the reporters back: split at the commas and trimmed, they are the list written. */
  lemma ReadMentions(ms: seq<string>)
    requires |ms| >= 1
    requires forall k :: 0 <= k < |ms| ==> Trimmed(ms[k]) && ',' !in ms[k]
    ensures TrimAll(Split(Join(ms, ", "), ',')) == ms
  {
    SplitMentions(ms);
    TrimListed(ms, Split(Join(ms, ", "), ','));
  }

  /** The tail of the regex on a description running to the end of the line. */
  lemma TailAtPlain(s: string, c: nat)
    requires c < |s| && forall k :: c <= k < |s| ==> s[k] != ']'
    ensures TailAt(s, c) == Some((|s|, None))
  {
    SkipWhileUnique(s, c, |s|, IsNot(']'));
  }

  /** The tail of the regex on a description `s[c..q]` followed by `[`, no brackets, and a final `]`. */
  lemma TailAtList(s: string, c: nat, q: nat)
    requires c < q < |s| - 1 && s[q] == '[' && s[|s| - 1] == ']'
    requires forall k :: c <= k < |s| - 1 ==> s[k] != ']'
    requires forall k :: q < k < |s| ==> s[k] != '['
    ensures TailAt(s, c) == Some((q, Some(|s| - 1)))
  {
    SkipWhileUnique(s, c, |s| - 1, IsNot(']'));
    assert LastIndex(s, c + 1, |s| - 1, '[') == Some(q);
    SkipWhileUnique(s, q + 1, |s|, IsNot('['));
    assert LastIndex(s, q + 1, |s|, ']') == Some(|s| - 1);
  }

  /** A line indented by `a` spaces, with a bullet and spaces up to a non-space at `c`, matches from `c`. */
  lemma MatchBulletAt(s: string, a: nat, c: nat)
    requires a < c < |s| && All(s, 0, a, Is(' ')) && s[a] == '-'
    requires All(s, a + 1, c, Is(' ')) && s[c] != ' '
    requires TailAt(s, c).Some?
    ensures MatchEntry(s) == Some(Match(a, true, c, TailAt(s, c).value.0, TailAt(s, c).value.1))
  {
    SkipWhileUnique(s, 0, a, Is(' '));
    SkipWhileUnique(s, a + 1, c, Is(' '));
  }

  /** Where the parts of a bullet line lie. */
  lemma BulletLineChars(e: Entry, depth: nat, gap: nat)
    requires Writable(e)
    ensures var s := BulletLine(e, depth, gap);
      var c := 2 * depth + 2;
      && |s| == c + |e.description| + |Reporters(e.mentions, gap)|
      && All(s, 0, 2 * depth, Is(' ')) && s[2 * depth] == '-' && All(s, 2 * depth + 1, 2 * depth + 2, Is(' '))
      && s[c..c + |e.description|] == e.description
      && s[c + |e.description|..] == Reporters(e.mentions, gap)
  {
    var d := e.description;
    var t := d + Reporters(e.mentions, gap);
    assert BulletLine(e, depth, gap) == Repeat("  ", depth) + "- " + t;
    BulletedChars(depth, t);
    assert t[..|d|] == d && t[|d|..] == Reporters(e.mentions, gap);
  }

  /** What `parseEntry` makes of the engine's match. */
  lemma ParseEntryOf(line: string, m: Match)
    requires MatchEntry(line) == Some(m)
    ensures Placed(line, m)
    ensures ParseEntry(line) == Ok(Read(line, m))
  {
    MatchEntrySound(line);
  }

  /** A match whose description runs to the end of the line reads as that description, unreported. */
  lemma ReadPlainAt(s: string, a: nat, c: nat)
    requires c <= |s|
    requires Trimmed(s[c..])
    ensures Read(s, Match(a, true, c, |s|, None)) == (Entry(s[c..], [], []), a / 2)
  {
    assert s[c..|s|] == s[c..];
    TrimKeeps(s[c..]);
  }

  /** `parseEntry` on a bulleted line whose description runs to the end of the line. */
  lemma ParsePlainAt(s: string, a: nat, c: nat)
    requires a < c < |s| && All(s, 0, a, Is(' ')) && s[a] == '-' && All(s, a + 1, c, Is(' '))
    requires s[c..] != [] && Trimmed(s[c..]) && ']' !in s[c..]
    ensures ParseEntry(s) == Ok((Entry(s[c..], [], []), a / 2))
  {
    assert s[c] == s[c..][0];
    forall k | c <= k < |s|
      ensures s[k] != ']'
    {
      assert s[k] == s[c..][k - c];
    }
    TailAtPlain(s, c);
    MatchBulletAt(s, a, c);
    ParseEntryOf(s, Match(a, true, c, |s|, None));
    ReadPlainAt(s, a, c);
  }

  /** The engine's match on a bulleted line with reporters in brackets at the end. */
  lemma MatchListAt(s: string, a: nat, c: nat, q: nat)
    requires a < c < q < |s| - 1 && All(s, 0, a, Is(' ')) && s[a] == '-' && All(s, a + 1, c, Is(' '))
    requires s[c] != ' ' && s[q] == '[' && s[|s| - 1] == ']'
    requires ']' !in s[c..|s| - 1] && '[' !in s[q + 1..]
    ensures MatchEntry(s) == Some(Match(a, true, c, q, Some(|s| - 1)))
  {
    forall k | c <= k < |s| - 1
      ensures s[k] != ']'
    {
      assert s[k] == s[c..|s| - 1][k - c];
    }
    forall k | q < k < |s|
      ensures s[k] != '['
    {
      assert s[k] == s[q + 1..][k - q - 1];
    }
    TailAtList(s, c, q);
    MatchBulletAt(s, a, c);
  }

  lemma ReadJoined(list: string, ms: seq<string>)
    requires list == Join(ms, ", ")
    requires ms != [] && forall k :: 0 <= k < |ms| ==> Trimmed(ms[k]) && ',' !in ms[k]
    ensures TrimAll(Split(list, ',')) == ms
  {
    ReadMentions(ms);
  }

  /** The reporters of a match are read from the text between its brackets alone. */
  lemma MentionsBetween(s: string, m: Match, list: string)
    requires m.close.Some? && m.end < m.close.value <= |s|
    requires s[m.end + 1..m.close.value] == list
    ensures Mentions(s, m) == TrimAll(Split(list, ','))
  {
  }

  lemma ReadListMentions(s: string, m: Match, ms: seq<string>)
    requires m.close.Some? && m.end < m.close.value <= |s|
    requires s[m.end + 1..m.close.value] == Join(ms, ", ")
    requires ms != [] && forall k :: 0 <= k < |ms| ==> Trimmed(ms[k]) && ',' !in ms[k]
    ensures Mentions(s, m) == ms
  {
    MentionsBetween(s, m, Join(ms, ", "));
    ReadJoined(Join(ms, ", "), ms);
  }

  /** Where the brackets of `u[j]` lie. */
  lemma Bracketed(u: string, j: string)
    ensures var s := u + "[" + j + "]";
      && |s| == |u| + |j| + 2 && s[..|u|] == u && s[|u|] == '[' && s[|u| + 1..|s| - 1] == j
      && s[|u| + 1..] == j + "]" && s[|s| - 1] == ']'
  {
  }

  lemma ReadBracketMentions(u: string, j: string, a: nat, c: nat, ms: seq<string>)
    requires c <= |u| && j == Join(ms, ", ")
    requires ms != [] && forall k :: 0 <= k < |ms| ==> Trimmed(ms[k]) && ',' !in ms[k]
    ensures var s := u + "[" + j + "]";
      Mentions(s, Match(a, true, c, |u|, Some(|s| - 1))) == ms
  {
    var s := u + "[" + j + "]";
    Bracketed(u, j);
    ReadListMentions(s, Match(a, true, c, |u|, Some(|s| - 1)), ms);
  }

  lemma ReadBracketDescription(u: string, j: string, c: nat, t: string, p: string)
    requires c <= |u| && u[c..] == t + p && Trimmed(t) && IsBlank(p)
    ensures var s := u + "[" + j + "]";
      Trim(s[c..|u|]) == t
  {
    var s := u + "[" + j + "]";
    Bracketed(u, j);
    assert s[c..|u|] == u[c..];
    TrimTrailing(t, p);
  }

  lemma ReadOf(s: string, a: nat, c: nat, q: nat, t: string, ms: seq<string>)
    requires c <= q < |s| - 1
    requires Trim(s[c..q]) == t
    requires Mentions(s, Match(a, true, c, q, Some(|s| - 1))) == ms
    ensures Read(s, Match(a, true, c, q, Some(|s| - 1))) == (Entry(t, ms, []), a / 2)
  {
  }

  /** A match with reporters reads as the trimmed description and the trimmed reporters. */
  lemma ReadListAt(u: string, j: string, a: nat, c: nat, t: string, p: string, ms: seq<string>)
    requires c <= |u| && u[c..] == t + p && Trimmed(t) && IsBlank(p)
    requires j == Join(ms, ", ")
    requires ms != [] && forall k :: 0 <= k < |ms| ==> Trimmed(ms[k]) && ',' !in ms[k]
    ensures var s := u + "[" + j + "]";
      Read(s, Match(a, true, c, |u|, Some(|s| - 1))) == (Entry(t, ms, []), a / 2)
  {
    var s := u + "[" + j + "]";
    ReadBracketDescription(u, j, c, t, p);
    ReadBracketMentions(u, j, a, c, ms);
    ReadOf(s, a, c, |u|, t, ms);
  }

  /** The engine's match on a bulleted line `u` followed by reporters `[j]`. */
  lemma MatchBracketed(u: string, j: string, a: nat, c: nat)
    requires a < c < |u| && All(u, 0, a, Is(' ')) && u[a] == '-' && All(u, a + 1, c, Is(' '))
    requires u[c] != ' ' && ']' !in u[c..] && '[' !in j && ']' !in j
    ensures var s := u + "[" + j + "]";
      MatchEntry(s) == Some(Match(a, true, c, |u|, Some(|s| - 1)))
  {
    var s := u + "[" + j + "]";
    Bracketed(u, j);
    assert s[c..|s| - 1] == u[c..] + "[" + j;
    assert s[|u| + 1..] == j + "]";
    MatchListAt(s, a, c, |u|);
  }

  /**
   `parseEntry` on a bulleted line `u` whose description `t` is followed
   by blanks `p`, then the reporters `ms` in brackets.
   */
  lemma ParseListAt(u: string, j: string, a: nat, c: nat, t: string, p: string, ms: seq<string>)
    requires a < c < |u| && All(u, 0, a, Is(' ')) && u[a] == '-' && All(u, a + 1, c, Is(' '))
    requires u[c..] == t + p && t != [] && Trimmed(t) && IsBlank(p) && ']' !in u[c..]
    requires j == Join(ms, ", ") && '[' !in j && ']' !in j
    requires ms != [] && forall k :: 0 <= k < |ms| ==> Trimmed(ms[k]) && ',' !in ms[k]
    ensures ParseEntry(u + "[" + j + "]") == Ok((Entry(t, ms, []), a / 2))
  {
    var s := u + "[" + j + "]";
    assert u[c] == u[c..][0] == t[0];
    MatchBracketed(u, j, a, c);
    ParseEntryOf(s, Match(a, true, c, |u|, Some(|s| - 1)));
    ReadListAt(u, j, a, c, t, p, ms);
  }

  lemma ParsePlainBullet(e: Entry, depth: nat)
    requires Writable(e) && e.mentions == []
    ensures ParseEntry(BulletLine(e, depth, 0)) == Ok((e.(children := []), depth))
  {
    var s := BulletLine(e, depth, 0);
    var c := 2 * depth + 2;
    BulletLineChars(e, depth, 0);
    ParsePlainAt(s, 2 * depth, c);
    assert s[c..] == e.description;
    assert (2 * depth) / 2 == depth;
    assert Entry(s[c..], [], []) == e.(children := []);
    assert ParseEntry(s) == Ok((e.(children := []), depth));
  }

  /** Where the parts of an indented, bulleted text lie. */
  lemma BulletedChars(depth: nat, t: string)
    ensures var u := Repeat("  ", depth) + "- " + t;
      && |u| == 2 * depth + 2 + |t|
      && All(u, 0, 2 * depth, Is(' ')) && u[2 * depth] == '-' && All(u, 2 * depth + 1, 2 * depth + 2, Is(' '))
      && u[2 * depth + 2..] == t
  {
    var u := Repeat("  ", depth) + "- " + t;
    RepeatSpaces("  ", depth);
    assert u[..2 * depth] == Repeat("  ", depth);
  }

  lemma ParseListBullet(e: Entry, depth: nat, gap: nat)
    requires Writable(e) && e.mentions != []
    ensures ParseEntry(BulletLine(e, depth, gap)) == Ok((e.(children := []), depth))
  {
    var d := e.description;
    var p := Repeat(" ", gap);
    var j := Join(e.mentions, ", ");
    var u := Repeat("  ", depth) + "- " + (d + p);
    var c := 2 * depth + 2;
    assert BulletLine(e, depth, gap) == u + "[" + j + "]";
    BulletedChars(depth, d + p);
    RepeatSpaces(" ", gap);
    JoinExcludes(e.mentions, ", ", '[');
    JoinExcludes(e.mentions, ", ", ']');
    assert ']' !in u[c..] by {
      assert u[c..] == d + p;
    }
    ParseListAt(u, j, 2 * depth, c, d, p, e.mentions);
    assert (2 * depth) / 2 == depth;
  }

  /**
   A writable entry, written as a bullet line at some depth, parses back
   to itself (without children) at that depth, however many spaces stand
   before the reporters.
   */
  lemma ParseBulletLine(e: Entry, depth: nat, gap: nat)
    requires Writable(e)
    ensures ParseEntry(BulletLine(e, depth, gap)) == Ok((e.(children := []), depth))
  {
    if e.mentions == [] {
      assert BulletLine(e, depth, gap) == BulletLine(e, depth, 0);
      ParsePlainBullet(e, depth);
    } else {
      ParseListBullet(e, depth, gap);
    }
  }

  /** `parseEntry` on a line without a bullet: the text after the indentation, at depth 0. */
  lemma ParseUnbulletedAt(s: string, a: nat)
    requires a < |s| && All(s, 0, a, Is(' ')) && s[a] != '-' && s[a] != ' '
    requires Trimmed(s[a..]) && ']' !in s[a..]
    ensures ParseEntry(s) == Ok((Entry(s[a..], [], []), 0))
  {
    forall k | a <= k < |s|
      ensures s[k] != ']'
    {
      assert s[k] == s[a..][k - a];
    }
    SkipWhileUnique(s, 0, a, Is(' '));
    TailAtPlain(s, a);
    ParseEntryOf(s, Match(a, false, a, |s|, None));
    ReadPlainAt(s, a, a);
  }

  /** A line indented past its text, with no bullet, stays at depth 0. */
  lemma ExampleNoBullet()
    ensures ParseEntry("       No bullet") == Ok((Entry("No bullet", [], []), 0))
  {
    var s := "       No bullet";
    assert s[7..] == "No bullet";
    ParseUnbulletedAt(s, 7);
  }

  lemma ExampleTopBullet()
    ensures ParseEntry("- Some description") == Ok((Entry("Some description", [], []), 0))
  {
    var s := "- Some description";
    assert s[2..] == "Some description";
    ParsePlainAt(s, 0, 2);
  }

  /**
   A bullet after `n` spaces: the depth is half the indentation, rounded
   down, so ` - Oops` is `Oops` at depth 0.
   */
  lemma ParseIndentedBullet(n: nat, d: string)
    requires d != [] && Trimmed(d) && ']' !in d
    ensures ParseEntry(Repeat(" ", n) + "- " + d) == Ok((Entry(d, [], []), n / 2))
  {
    var u := Repeat(" ", n) + "- " + d;
    IndentedChars(n, d);
    ParsePlainAt(u, n, n + 2);
  }

  /** Where the parts of a text bulleted after `n` spaces lie. */
  lemma IndentedChars(n: nat, t: string)
    ensures var u := Repeat(" ", n) + "- " + t;
      && |u| == n + 2 + |t|
      && All(u, 0, n, Is(' ')) && u[n] == '-' && All(u, n + 1, n + 2, Is(' '))
      && u[n + 2..] == t
  {
    var u := Repeat(" ", n) + "- " + t;
    RepeatSpaces(" ", n);
    assert u[..n] == Repeat(" ", n);
    assert u[n + 1] == ' ';
  }

  lemma ExampleNested()
    ensures ParseEntry("  - Blah") == Ok((Entry("Blah", [], []), 1))
  {
    var s := "  - Blah";
    assert s[4..] == "Blah";
    ParsePlainAt(s, 2, 4);
  }

  lemma ExampleReported()
    ensures ParseEntry("  - Blah    [Foo, Bar]") == Ok((Entry("Blah", ["Foo", "Bar"], []), 1))
  {
    var e := Entry("Blah", ["Foo", "Bar"], []);
    ReportedLine(e);
    ReportedWritable(e);
    ParseBulletLine(e, 1, 4);
  }

  lemma ReportedLine(e: Entry)
    requires e == Entry("Blah", ["Foo", "Bar"], [])
    ensures BulletLine(e, 1, 4) == "  - Blah    [Foo, Bar]"
  {
    assert Join(e.mentions, ", ") == "Foo, Bar";
    assert Repeat(" ", 4) == "    " && Repeat("  ", 1) == "  ";
  }

  lemma ReportedWritable(e: Entry)
    requires e == Entry("Blah", ["Foo", "Bar"], [])
    ensures Writable(e)
  {
    assert e.mentions[0] == "Foo" && e.mentions[1] == "Bar";
  }

  lemma TrailingTextTail()
    ensures TailAt("- a [x] tail", 2) == Some((4, Some(6)))
  {
    var s := "- a [x] tail";
    SkipWhileUnique(s, 2, 6, IsNot(']'));
    assert LastIndex(s, 3, 6, '[') == Some(4);
    SkipWhileUnique(s, 5, |s|, IsNot('['));
    assert LastIndex(s, 5, |s|, ']') == Some(6);
  }

  /** `parseEntry` given the engine's match and what its groups read as. */
  lemma ParseOfMatch(s: string, m: Match, t: string, ms: seq<string>)
    requires MatchEntry(s) == Some(m) && Placed(s, m)
    requires Trim(s[m.start..m.end]) == t && Mentions(s, m) == ms
    ensures ParseEntry(s) == Ok((Entry(t, ms, []), Depth(m)))
  {
    ParseEntryOf(s, m);
  }

  lemma TrailingTextMatch()
    ensures MatchEntry("- a [x] tail") == Some(Match(0, true, 2, 4, Some(6)))
  {
    TrailingTextTail();
    MatchBulletAt("- a [x] tail", 0, 2);
  }

  lemma TrailingTextDescription()
    ensures Trim("- a [x] tail"[2..4]) == "a"
  {
    assert "- a [x] tail"[2..4] == "a" + " ";
    TrimTrailing("a", " ");
  }

  lemma TrailingTextMentions()
    ensures Mentions("- a [x] tail", Match(0, true, 2, 4, Some(6))) == ["x"]
  {
    assert "- a [x] tail"[5..6] == "x" == Join(["x"], ", ");
    ReadListMentions("- a [x] tail", Match(0, true, 2, 4, Some(6)), ["x"]);
  }

  /** Text after the closing bracket is dropped. */
  lemma ExampleTrailingText()
    ensures ParseEntry("- a [x] tail") == Ok((Entry("a", ["x"], []), 0))
  {
    TrailingTextMatch();
    TrailingTextDescription();
    TrailingTextMentions();
    ParseOfMatch("- a [x] tail", Match(0, true, 2, 4, Some(6)), "a", ["x"]);
  }

  lemma EmptyReportersTail()
    ensures TailAt("- a []", 2) == Some((4, Some(5)))
  {
    var s := "- a []";
    SkipWhileUnique(s, 2, 5, IsNot(']'));
    assert LastIndex(s, 3, 5, '[') == Some(4);
    SkipWhileUnique(s, 5, |s|, IsNot('['));
    assert LastIndex(s, 5, |s|, ']') == Some(5);
  }

  lemma EmptyReportersMatch()
    ensures MatchEntry("- a []") == Some(Match(0, true, 2, 4, Some(5)))
  {
    EmptyReportersTail();
    MatchBulletAt("- a []", 0, 2);
  }

  lemma EmptyReportersDescription()
    ensures Trim("- a []"[2..4]) == "a"
  {
    assert "- a []"[2..4] == "a" + " ";
    TrimTrailing("a", " ");
  }

  lemma EmptyReportersMentions()
    ensures Mentions("- a []", Match(0, true, 2, 4, Some(5))) == [""]
  {
    assert "- a []"[5..5] == "" == Join([""], ", ");
    ReadListMentions("- a []", Match(0, true, 2, 4, Some(5)), [""]);
  }

  /** Empty brackets give one empty reporter. */
  lemma ExampleEmptyReporters()
    ensures ParseEntry("- a []") == Ok((Entry("a", [""], []), 0))
  {
    EmptyReportersMatch();
    EmptyReportersDescription();
    EmptyReportersMentions();
    ParseOfMatch("- a []", Match(0, true, 2, 4, Some(5)), "a", [""]);
  }

  /** A closing bracket with no opening one before it is rejected. */
  lemma ExampleUnopenedBracket()
    ensures ParseEntry("- a ]") == Err(MalformedEntry("- a ]"))
  {
    var s := "- a ]";
    SkipWhileUnique(s, 0, 0, Is(' '));
    SkipWhileUnique(s, 1, 2, Is(' '));
    SkipWhileUnique(s, 2, 4, IsNot(']'));
    SkipWhileUnique(s, 1, 4, IsNot(']'));
    assert LastIndex(s, 3, 4, '[').None?;
    assert LastIndex(s, 2, 4, '[').None?;
  }

  lemma BracketFirstTails()
    ensures TailAt("  -[x]", 3).None?
    ensures TailAt("  -[x]", 2) == Some((3, Some(5)))
  {
    var s := "  -[x]";
    SkipWhileUnique(s, 3, 5, IsNot(']'));
    assert LastIndex(s, 4, 5, '[').None?;
    SkipWhileUnique(s, 2, 5, IsNot(']'));
    assert LastIndex(s, 3, 5, '[') == Some(3);
    SkipWhileUnique(s, 4, |s|, IsNot('['));
    assert LastIndex(s, 4, |s|, ']') == Some(5);
  }

  lemma BracketFirstMatch()
    ensures MatchEntry("  -[x]") == Some(Match(2, false, 2, 3, Some(5)))
  {
    var s := "  -[x]";
    SkipWhileUnique(s, 0, 2, Is(' '));
    SkipWhileUnique(s, 3, 3, Is(' '));
    MatchEntryBranch(s, 2);
    BracketFirstTails();
  }

  lemma BracketFirstDescription()
    ensures Trim("  -[x]"[2..3]) == "-"
  {
    assert "  -[x]"[2..3] == "-";
    TrimKeeps("-");
  }

  lemma BracketFirstMentions()
    ensures Mentions("  -[x]", Match(2, false, 2, 3, Some(5))) == ["x"]
  {
    assert "  -[x]"[4..5] == "x" == Join(["x"], ", ");
    ReadListMentions("  -[x]", Match(2, false, 2, 3, Some(5)), ["x"]);
  }

  /**
   A bullet followed directly by `[`: no description can start after the
   bullet, so the engine reads the `-` as the description, and the entry
   sits at depth 0 although a bullet follows two spaces.
   */
  lemma ExampleBracketAfterBullet()
    ensures ParseEntry("  -[x]") == Ok((Entry("-", ["x"], []), 0))
  {
    BracketFirstMatch();
    BracketFirstDescription();
    BracketFirstMentions();
    ParseOfMatch("  -[x]", Match(2, false, 2, 3, Some(5)), "-", ["x"]);
  }
}

=== FILE: categories.dfy ===
/**
 `flattenCategories`: merge categories whose titles agree up to case, in
 the order titles first appear, keeping the first category's emoji and
 title and concatenating the entries in input order.
 */
module Categories {
  import opened Text
  import opened Types
  import opened Outline

  /** The map key: the title, lower-cased. */
  function Key(c: Category): string {
    Lower(c.title)
  }

  /** The position of the category with key `k`, or `|acc|` when there is none. */
  function IndexOfKey(acc: seq<Category>, k: string): (i: nat)
    ensures i <= |acc|
    ensures i < |acc| ==> Key(acc[i]) == k
    ensures forall j :: 0 <= j < i ==> Key(acc[j]) != k
  {
    if acc == [] then 0
    else if Key(acc[0]) == k then 0
    else 1 + IndexOfKey(acc[1..], k)
  }

  /**
   One iteration of the loop: a known key gets the category's entries
   appended to the stored ones (the stored emoji and title stay, and so
   does its place: a JavaScript `Map` keeps insertion order on update);
   a new key is appended.
   */
  function Merge(acc: seq<Category>, c: Category): (r: seq<Category>)
    ensures |r| == |acc| || |r| == |acc| + 1
  {
    var i := IndexOfKey(acc, Key(c));
    if i < |acc| then acc[i := acc[i].(children := acc[i].children + c.children)]
    else acc + [c]
  }

  /** `flattenCategories(categories)`: the loop, then `[...map.values()]`. */
  function Flatten(cats: seq<Category>): (r: seq<Category>)
    ensures |r| <= |cats|
  {
    if cats == [] then []
    else Merge(Flatten(cats[..|cats| - 1]), cats[|cats| - 1])
  }

  // ---------------------------------------------------------------------
  // Reference: group by key, without a map.

  /** The distinct keys, in order of first appearance. */
  function FirstKeys(cats: seq<Category>): seq<string> {
    if cats == [] then []
    else
      var ks := FirstKeys(cats[..|cats| - 1]);
      var k := Key(cats[|cats| - 1]);
      if k in ks then ks else ks + [k]
  }

  /** The first category with key `k`. */
  function FirstWith(cats: seq<Category>, k: string): Option<Category> {
    if cats == [] then None
    else
      var f := FirstWith(cats[..|cats| - 1], k);
      if f.Some? then f
      else if Key(cats[|cats| - 1]) == k then Some(cats[|cats| - 1])
      else None
  }

  /** The entries of all categories with key `k`, in input order. */
  function ChildrenOf(cats: seq<Category>, k: string): seq<Entry> {
    if cats == [] then []
    else
      var c := cats[|cats| - 1];
      ChildrenOf(cats[..|cats| - 1], k) + if Key(c) == k then c.children else []
  }

  /** All categories with key `k` as one: the first one's emoji and title, everyone's entries. */
  function Group(cats: seq<Category>, k: string): Category {
    match FirstWith(cats, k)
    case Some(f) => Category(f.emoji, f.title, ChildrenOf(cats, k))
    case None => Category("", "", [])
  }

  function Grouped(cats: seq<Category>): seq<Category> {
    var ks := FirstKeys(cats);
    seq(|ks|, i requires 0 <= i < |ks| => Group(cats, ks[i]))
  }

  // ---------------------------------------------------------------------
  // Facts about the reference.

  predicate DistinctKeys(ks: seq<string>) {
    forall i, j :: 0 <= i < j < |ks| ==> ks[i] != ks[j]
  }

  lemma Last(cats: seq<Category>, c: Category)
    ensures var s := cats + [c]; s[..|s| - 1] == cats && s[|s| - 1] == c
  {
    assert (cats + [c])[..|cats|] == cats;
  }

  lemma {:induction false} FirstKeysDistinct(cats: seq<Category>)
    ensures DistinctKeys(FirstKeys(cats))
  {
    if cats != [] {
      FirstKeysDistinct(cats[..|cats| - 1]);
    }
  }

  /** A key is among the first keys exactly when some category has it, and then the first such is found. */
  lemma {:induction false} FirstWithKey(cats: seq<Category>, k: string)
    ensures k in FirstKeys(cats) <==> FirstWith(cats, k).Some?
    ensures FirstWith(cats, k).Some? ==> Key(FirstWith(cats, k).value) == k
    ensures FirstWith(cats, k).None? ==> ChildrenOf(cats, k) == []
  {
    if cats != [] {
      FirstWithKey(cats[..|cats| - 1], k);
    }
  }

  /** Each group carries its key. */
  lemma GroupedKeys(cats: seq<Category>)
    ensures |Grouped(cats)| == |FirstKeys(cats)|
    ensures forall i :: 0 <= i < |FirstKeys(cats)| ==> Key(Grouped(cats)[i]) == FirstKeys(cats)[i]
  {
    var ks := FirstKeys(cats);
    forall i | 0 <= i < |ks|
      ensures Key(Grouped(cats)[i]) == ks[i]
    {
      FirstWithKey(cats, ks[i]);
    }
  }

  /** One more category adds its key at the end unless the key is already known. */
  lemma FirstKeysStep(cats: seq<Category>, c: Category)
    ensures FirstKeys(cats + [c]) == if Key(c) in FirstKeys(cats) then FirstKeys(cats) else FirstKeys(cats) + [Key(c)]
  {
    Last(cats, c);
  }

  /** One more category changes only the group of its own key, by adding its entries (or starting it). */
  lemma GroupStep(cats: seq<Category>, c: Category, k: string)
    ensures Key(c) != k ==> Group(cats + [c], k) == Group(cats, k)
    ensures Key(c) == k && FirstWith(cats, k).Some? ==>
      Group(cats + [c], k) == Group(cats, k).(children := Group(cats, k).children + c.children)
    ensures Key(c) == k && FirstWith(cats, k).None? ==> Group(cats + [c], k) == c
  {
    Last(cats, c);
    FirstWithKey(cats, k);
  }

  /** The merge step on a key that is already grouped. */
  lemma MergeGroupedKnown(cats: seq<Category>, c: Category, i: nat)
    requires i < |FirstKeys(cats)| && FirstKeys(cats)[i] == Key(c)
    requires IndexOfKey(Grouped(cats), Key(c)) == i
    ensures Merge(Grouped(cats), c) == Grouped(cats + [c])
  {
    var g := Grouped(cats);
    var ks := FirstKeys(cats);
    FirstKeysStep(cats, c);
    assert FirstKeys(cats + [c]) == ks;
    var g' := Grouped(cats + [c]);
    var m := Merge(g, c);
    assert m == g[i := g[i].(children := g[i].children + c.children)];
    FirstKeysDistinct(cats);
    forall j | 0 <= j < |ks|
      ensures m[j] == g'[j]
    {
      assert g[j] == Group(cats, ks[j]) && g'[j] == Group(cats + [c], ks[j]);
      if j == i {
        FirstWithKey(cats, ks[j]);
      } else {
        assert ks[j] != ks[i];
      }
      GroupStep(cats, c, ks[j]);
    }
  }

  /** The merge step on a new key. */
  lemma MergeGroupedNew(cats: seq<Category>, c: Category)
    requires Key(c) !in FirstKeys(cats)
    requires IndexOfKey(Grouped(cats), Key(c)) == |Grouped(cats)|
    ensures Merge(Grouped(cats), c) == Grouped(cats + [c])
  {
    var g := Grouped(cats);
    var ks := FirstKeys(cats);
    FirstKeysStep(cats, c);
    assert FirstKeys(cats + [c]) == ks + [Key(c)];
    var g' := Grouped(cats + [c]);
    var m := Merge(g, c);
    assert m == g + [c];
    forall j | 0 <= j < |ks|
      ensures m[j] == g'[j]
    {
      assert ks[j] != Key(c);
      GroupStep(cats, c, ks[j]);
    }
    FirstWithKey(cats, Key(c));
    GroupStep(cats, c, Key(c));
  }

  /** Adding one category to the input changes the groups as one merge step does. */
  lemma MergeGrouped(cats: seq<Category>, c: Category)
    ensures Merge(Grouped(cats), c) == Grouped(cats + [c])
  {
    var g := Grouped(cats);
    var ks := FirstKeys(cats);
    GroupedKeys(cats);
    FirstKeysDistinct(cats);
    var i := IndexOfKey(g, Key(c));
    if i < |g| {
      MergeGroupedKnown(cats, c, i);
    } else {
      assert Key(c) !in ks;
      MergeGroupedNew(cats, c);
    }
  }

  /**
   `flattenCategories` is grouping by lower-cased title: one category per
   distinct key, in order of first appearance, with the first category's
   emoji and title and the entries of all categories with that key, in
   input order.
   */
  lemma {:induction false} FlattenIsGrouped(cats: seq<Category>)
    ensures Flatten(cats) == Grouped(cats)
  {
    if cats != [] {
      var init := cats[..|cats| - 1];
      var c := cats[|cats| - 1];
      FlattenIsGrouped(init);
      assert cats == init + [c];
      MergeGrouped(init, c);
    }
  }

  /** The keys of a list of categories, in order. */
  function Keys(cats: seq<Category>): (ks: seq<string>)
    ensures |ks| == |cats|
  {
    seq(|cats|, i requires 0 <= i < |cats| => Key(cats[i]))
  }

  /** No two flattened categories share a title up to case, and they come in order of first appearance. */
  lemma FlattenKeys(cats: seq<Category>)
    ensures Keys(Flatten(cats)) == FirstKeys(cats)
    ensures DistinctKeys(Keys(Flatten(cats)))
  {
    FlattenIsGrouped(cats);
    GroupedKeys(cats);
    FirstKeysDistinct(cats);
  }

  /** Categories whose titles already differ up to case come back unchanged. */
  lemma {:induction false} FlattenIdentity(cats: seq<Category>)
    requires DistinctKeys(Keys(cats))
    ensures Flatten(cats) == cats
  {
    if cats != [] {
      var init := cats[..|cats| - 1];
      var c := cats[|cats| - 1];
      assert Keys(init) == Keys(cats)[..|cats| - 1];
      FlattenIdentity(init);
      forall j | 0 <= j < |init|
        ensures Key(init[j]) != Key(c)
      {
        assert Keys(cats)[j] == Key(init[j]);
        assert Keys(cats)[|cats| - 1] == Key(c);
      }
      assert init + [c] == cats;
    }
  }

  /** Flattening twice is flattening once. */
  lemma FlattenIdempotent(cats: seq<Category>)
    ensures Flatten(Flatten(cats)) == Flatten(cats)
  {
    FlattenKeys(cats);
    FlattenIdentity(Flatten(cats));
  }

  /** All top-level entries, category after category. */
  function AllEntries(cats: seq<Category>): seq<Entry> {
    if cats == [] then [] else cats[0].children + AllEntries(cats[1..])
  }

  lemma {:induction false} AllEntriesSplit(cats: seq<Category>, i: nat)
    requires i < |cats|
    ensures AllEntries(cats) == AllEntries(cats[..i]) + cats[i].children + AllEntries(cats[i + 1..])
  {
    if i > 0 {
      AllEntriesSplit(cats[1..], i - 1);
      assert cats[1..][..i - 1] == cats[..i][1..];
      assert cats[1..][i - 1 + 1..] == cats[i + 1..];
      assert cats[..i][0] == cats[0];
    } else {
      assert cats[..0] == [];
    }
  }

  lemma AllEntriesUpdate(cats: seq<Category>, i: nat, x: Category)
    requires i < |cats|
    ensures multiset(AllEntries(cats[i := x])) + multiset(cats[i].children)
         == multiset(AllEntries(cats)) + multiset(x.children)
  {
    var u := cats[i := x];
    AllEntriesSplit(cats, i);
    AllEntriesSplit(u, i);
    assert u[..i] == cats[..i] && u[i + 1..] == cats[i + 1..];
    var a := AllEntries(cats[..i]);
    var b := AllEntries(cats[i + 1..]);
    assert multiset(a + cats[i].children + b) == multiset(a) + multiset(cats[i].children) + multiset(b);
    assert multiset(a + x.children + b) == multiset(a) + multiset(x.children) + multiset(b);
  }

  lemma {:induction false} AllEntriesAppend(cats: seq<Category>, c: Category)
    ensures AllEntries(cats + [c]) == AllEntries(cats) + c.children
  {
    if cats == [] {
      assert [c][1..] == [];
    } else {
      assert (cats + [c])[1..] == cats[1..] + [c];
      AllEntriesAppend(cats[1..], c);
    }
  }

  lemma Cancel(a: multiset<Entry>, b: multiset<Entry>, c: multiset<Entry>)
    requires a + c == b + c
    ensures a == b
  {
    forall e
      ensures a[e] == b[e]
    {
      assert (a + c)[e] == (b + c)[e];
    }
  }

  /** A merge step adds the category's entries to the pool. */
  lemma MergeKeepsEntries(acc: seq<Category>, c: Category)
    ensures multiset(AllEntries(Merge(acc, c))) == multiset(AllEntries(acc)) + multiset(c.children)
  {
    var i := IndexOfKey(acc, Key(c));
    if i < |acc| {
      var x := acc[i].(children := acc[i].children + c.children);
      assert Merge(acc, c) == acc[i := x];
      AllEntriesUpdate(acc, i, x);
      assert multiset(x.children) == multiset(acc[i].children) + multiset(c.children);
      Cancel(multiset(AllEntries(acc[i := x])), multiset(AllEntries(acc)) + multiset(c.children),
        multiset(acc[i].children));
    } else {
      AllEntriesAppend(acc, c);
    }
  }

  /** Flattening loses and invents no top-level entry. */
  lemma {:induction false} FlattenKeepsEntries(cats: seq<Category>)
    ensures multiset(AllEntries(Flatten(cats))) == multiset(AllEntries(cats))
  {
    if cats != [] {
      var init := cats[..|cats| - 1];
      var c := cats[|cats| - 1];
      var f := Flatten(init);
      FlattenKeepsEntries(init);
      assert cats == init + [c];
      AllEntriesAppend(init, c);
      MergeKeepsEntries(f, c);
      calc {
        multiset(AllEntries(Flatten(cats)));
        multiset(AllEntries(Merge(f, c)));
        multiset(AllEntries(f)) + multiset(c.children);
        multiset(AllEntries(init)) + multiset(c.children);
        multiset(AllEntries(init) + c.children);
        multiset(AllEntries(cats));
      }
    }
  }

  /** Flattening categories that all have entries gives categories that all have entries. */
  lemma {:induction false} FlattenNonEmpty(cats: seq<Category>)
    requires forall k :: 0 <= k < |cats| ==> cats[k].children != []
    ensures forall k :: 0 <= k < |Flatten(cats)| ==> Flatten(cats)[k].children != []
  {
    if cats != [] {
      FlattenNonEmpty(cats[..|cats| - 1]);
    }
  }

  lemma FirstKeysNonEmpty(cats: seq<Category>)
    requires cats != []
    ensures |FirstKeys(cats)| > 0
  {
  }

  // ---------------------------------------------------------------------
  // Merging adds no heading and no entry node.

  lemma ForestSingle(c: Category)
    ensures ForestOutline([c]) == [Head(c.emoji, c.title)] + EntriesOutline(c.children, 0)
  {
    assert [c][1..] == [];
  }

  /** The walk of a category whose entries are extended: the old walk, then the new entries' walk. */
  lemma ExtendedOutline(y: Category, x: Category, more: seq<Entry>)
    requires x == Category(y.emoji, y.title, y.children + more)
    ensures ForestOutline([x]) == ForestOutline([y]) + EntriesOutline(more, 0)
  {
    var h := Head(y.emoji, y.title);
    ForestSingle(y);
    ForestSingle(x);
    EntriesOutlineConcat(y.children, more, 0);
    Regroup3(h, EntriesOutline(y.children, 0), EntriesOutline(more, 0));
  }

  lemma Regroup3(h: Node, a: seq<Node>, b: seq<Node>)
    ensures [h] + (a + b) == [h] + a + b
  {
  }

  /** A known key: the walk around the updated category is unchanged. */
  lemma MergeKnownNodes(acc: seq<Category>, c: Category, i: nat)
    requires i < |acc|
    ensures var x := acc[i].(children := acc[i].children + c.children);
      forall n :: n in ForestOutline(acc[i := x]) ==> n in ForestOutline(acc) || n in ForestOutline([c])
  {
    var a, y, b := acc[..i], acc[i], acc[i + 1..];
    var x := y.(children := y.children + c.children);
    assert acc == a + [y] + b;
    assert acc[i := x] == a + [x] + b;
    ForestOutlineConcat(a + [y], b);
    ForestOutlineConcat(a, [y]);
    ForestOutlineConcat(a + [x], b);
    ForestOutlineConcat(a, [x]);
    ExtendedOutline(y, x, c.children);
    ForestSingle(c);
  }

  /** Every node of the merged walk is a node of the walk before, or of the merged category's. */
  lemma MergeNodes(acc: seq<Category>, c: Category)
    ensures forall n :: n in ForestOutline(Merge(acc, c)) ==> n in ForestOutline(acc) || n in ForestOutline([c])
  {
    var i := IndexOfKey(acc, Key(c));
    if i < |acc| {
      MergeKnownNodes(acc, c, i);
    } else {
      ForestOutlineConcat(acc, [c]);
    }
  }

  /**
   Every heading and entry node of the flattened categories, with its
   depth, is a node of the input: merging only regroups what is there.
   */
  lemma {:induction false} FlattenNodes(cats: seq<Category>)
    ensures forall n :: n in ForestOutline(Flatten(cats)) ==> n in ForestOutline(cats)
  {
    if cats != [] {
      var init, c := cats[..|cats| - 1], cats[|cats| - 1];
      FlattenNodes(init);
      MergeNodes(Flatten(init), c);
      assert init + [c] == cats;
      ForestOutlineConcat(init, [c]);
    }
  }

  /** Flattening keeps the categories free of line breaks. */
  lemma FlattenUnbroken(cats: seq<Category>)
    requires ForestUnbroken(cats)
    ensures ForestUnbroken(Flatten(cats))
  {
    var out := ForestOutline(Flatten(cats));
    FlattenNodes(cats);
    forall k | 0 <= k < |out|
      ensures Unbroken(out[k])
    {
      assert out[k] in ForestOutline(cats);
    }
  }
}

=== FILE: changelog.dfy ===
/**
 `getChangelogEntry` without git: the bodies of the merge commits are
 parsed one by one, the categories of those that parse are gathered, the
 failures are reported, and the merged categories are printed.
 */
module Changelog {
  import opened Text
  import opened Types
  import opened Outline
  import opened Parser
  import opened Categories
  import opened Format

  /** The part of a merge commit the changelog reads. */
  datatype Commit = Commit(message: string, body: string, hash: string)

  /** Which positions of `body` start a blank line, `"\n\n"`. */
  function BlankMarks(body: string): (m: seq<bool>)
    ensures |m| == |body| + 1
  {
    seq(|body| + 1, k requires 0 <= k <= |body| => HasAt(body, k, "\n\n"))
  }

  /**
   `body.slice(body.indexOf("\n\n") + 2)`: what follows the first blank
   line. Without one, `indexOf` gives -1 and the slice starts at 1.
   */
  function Description(body: string): (r: string)
    ensures |r| <= |body|
  {
    var i := FirstTrue(BlankMarks(body), 0);
    if i <= |body| then
      assert BlankMarks(body)[i];
      body[i + 2..]
    else if body == [] then ""
    else body[1..]
  }

  /** With a blank line, the description is what follows the first one. */
  lemma DescriptionAfterBlank(body: string, i: nat)
    requires i <= |body| && HasAt(body, i, "\n\n")
    requires forall j :: 0 <= j < i ==> !HasAt(body, j, "\n\n")
    ensures Description(body) == body[i + 2..]
  {
    assert BlankMarks(body)[i];
  }

  /** Without a blank line, the description is the body less its first character. */
  lemma DescriptionWithoutBlank(body: string)
    requires forall j :: 0 <= j <= |body| ==> !HasAt(body, j, "\n\n")
    ensures Description(body) == if body == [] then "" else body[1..]
  {
  }

  /** The line printed for a commit whose description fails to parse. */
  function ReportLine(e: ParseError, c: Commit): string {
    e.Message() + ": " + c.message + " (" + c.hash[..Min(7, |c.hash|)] + ")"
  }

  /** What the loop gathers: the categories and the error lines printed on the way. */
  datatype Gathered = Gathered(cats: seq<Category>, reports: seq<string>)

  /**
   The `reduce` over the merge commits, in log order: the categories of a
   description that parses are appended; one that fails adds an error
   line unless errors are suppressed.
   */
  function Gather(commits: seq<Commit>, strip: string -> string, suppress: bool): (r: Gathered)
    ensures suppress ==> r.reports == []
    ensures |r.reports| <= |commits|
  {
    if commits == [] then Gathered([], [])
    else
      var g := Gather(commits[..|commits| - 1], strip, suppress);
      var c := commits[|commits| - 1];
      match ParsePr(Description(c.body), strip)
      case Ok(cats) => g.(cats := g.cats + cats)
      case Err(e) => if suppress then g else g.(reports := g.reports + [ReportLine(e, c)])
  }

  /** `getChangelogEntry(from, to, true, suppress)` once the log is read and the date written out. */
  function ChangelogEntry(to: string, date: string, commits: seq<Commit>, strip: string -> string, suppress: bool): (r: (string, seq<string>))
  {
    var g := Gather(commits, strip, suppress);
    (FormatChangelog(to, date, Flatten(g.cats)), g.reports)
  }

  // ---------------------------------------------------------------------
  // Reference: commit by commit.

  /** The categories a commit contributes: those of its description, or none. */
  function Contribution(c: Commit, strip: string -> string): seq<Category> {
    match ParsePr(Description(c.body), strip)
    case Ok(cats) => cats
    case Err(_) => []
  }

  /** Whether a commit's description fails to parse. */
  predicate Fails(c: Commit, strip: string -> string) {
    ParsePr(Description(c.body), strip).Err?
  }

  /** How many commits fail to parse. */
  function FailCount(commits: seq<Commit>, strip: string -> string): (n: nat)
    ensures n <= |commits|
  {
    if commits == [] then 0
    else FailCount(commits[..|commits| - 1], strip) + if Fails(commits[|commits| - 1], strip) then 1 else 0
  }

  /**
   Every failing commit is reported once, in order, unless errors are
   suppressed, and suppressing them changes nothing else.
   */
  lemma {:induction false} GatherReports(commits: seq<Commit>, strip: string -> string)
    ensures Gather(commits, strip, true).cats == Gather(commits, strip, false).cats
    ensures |Gather(commits, strip, false).reports| == FailCount(commits, strip)
  {
    if commits != [] {
      GatherReports(commits[..|commits| - 1], strip);
    }
  }

  /** The lines a commit is reported with: one naming its error if its description fails, none otherwise. */
  function Report(c: Commit, strip: string -> string): (r: seq<string>)
    ensures |r| == if Fails(c, strip) then 1 else 0
  {
    match ParsePr(Description(c.body), strip)
    case Ok(_) => []
    case Err(e) => [ReportLine(e, c)]
  }

  /** The report lines commit by commit, from the first commit of the log to the last. */
  function Reports(commits: seq<Commit>, strip: string -> string): seq<string> {
    if commits == [] then [] else Report(commits[0], strip) + Reports(commits[1..], strip)
  }

  lemma ReportsCons(x: Commit, ys: seq<Commit>, strip: string -> string)
    ensures Reports([x] + ys, strip) == Report(x, strip) + Reports(ys, strip)
  {
    assert ([x] + ys)[1..] == ys;
  }

  lemma {:induction false} ReportsAppend(commits: seq<Commit>, c: Commit, strip: string -> string)
    ensures Reports(commits + [c], strip) == Reports(commits, strip) + Report(c, strip)
  {
    if commits == [] {
      assert [] + [c] == [c] + [];
      ReportsCons(c, [], strip);
    } else {
      var x, rest := commits[0], commits[1..];
      assert commits == [x] + rest;
      assert commits + [c] == [x] + (rest + [c]);
      ReportsAppend(rest, c, strip);
      ReportsCons(x, rest + [c], strip);
      ReportsCons(x, rest, strip);
      Regroup3(Report(x, strip), Reports(rest, strip), Report(c, strip));
    }
  }

  lemma Regroup3(a: seq<string>, b: seq<string>, c: seq<string>)
    ensures a + (b + c) == (a + b) + c
  {
  }

  /** The report lines of a log are those of all but its last commit, then the last commit's. */
  lemma ReportsLast(commits: seq<Commit>, strip: string -> string)
    requires commits != []
    ensures Reports(commits, strip)
      == Reports(commits[..|commits| - 1], strip) + Report(commits[|commits| - 1], strip)
  {
    SplitLast(commits);
    ReportsAppend(commits[..|commits| - 1], commits[|commits| - 1], strip);
  }

  lemma SplitLast(commits: seq<Commit>)
    requires commits != []
    ensures commits[..|commits| - 1] + [commits[|commits| - 1]] == commits
  {
  }

  /** Without suppression, one more commit appends its report lines. */
  lemma GatherReportStep(commits: seq<Commit>, strip: string -> string)
    requires commits != []
    ensures Gather(commits, strip, false).reports
      == Gather(commits[..|commits| - 1], strip, false).reports + Report(commits[|commits| - 1], strip)
  {
  }

  /**
   Without suppression, the report lines are each failing commit's line,
   one per failing commit, in log order.
   */
  lemma {:induction false} GatherReportLines(commits: seq<Commit>, strip: string -> string)
    ensures Gather(commits, strip, false).reports == Reports(commits, strip)
  {
    if commits != [] {
      GatherReportLines(commits[..|commits| - 1], strip);
      GatherReportStep(commits, strip);
      ReportsLast(commits, strip);
    }
  }

  /** One more commit appends its contribution to the gathered categories. */
  lemma GatherStep(commits: seq<Commit>, strip: string -> string, suppress: bool)
    requires commits != []
    ensures Gather(commits, strip, suppress).cats
      == Gather(commits[..|commits| - 1], strip, suppress).cats + Contribution(commits[|commits| - 1], strip)
  {
  }

  /** A commit contributes only categories with entries. */
  lemma ContributionNonEmpty(c: Commit, strip: string -> string)
    ensures forall k :: 0 <= k < |Contribution(c, strip)| ==> Contribution(c, strip)[k].children != []
  {
  }

  /**
   The gathered categories hold, commit after commit, the outline of each
   commit's contribution; none of them is without entries.
   */
  lemma {:induction false} GatherOutline(commits: seq<Commit>, strip: string -> string, suppress: bool)
    ensures var cats := Gather(commits, strip, suppress).cats;
      && (forall k :: 0 <= k < |cats| ==> cats[k].children != [])
      && (commits != [] ==>
            ForestOutline(cats)
            == ForestOutline(Gather(commits[..|commits| - 1], strip, suppress).cats)
               + ForestOutline(Contribution(commits[|commits| - 1], strip)))
  {
    if commits != [] {
      var init := Gather(commits[..|commits| - 1], strip, suppress).cats;
      var last := Contribution(commits[|commits| - 1], strip);
      GatherOutline(commits[..|commits| - 1], strip, suppress);
      GatherStep(commits, strip, suppress);
      ContributionNonEmpty(commits[|commits| - 1], strip);
      ForestOutlineConcat(init, last);
      NonEmptyConcat(init, last);
    }
  }

  lemma NonEmptyConcat(a: seq<Category>, b: seq<Category>)
    requires forall k :: 0 <= k < |a| ==> a[k].children != []
    requires forall k :: 0 <= k < |b| ==> b[k].children != []
    ensures forall k :: 0 <= k < |a + b| ==> (a + b)[k].children != []
  {
    forall k | |a| <= k < |a + b| ensures (a + b)[k].children != [] {
      assert (a + b)[k] == b[k - |a|];
    }
  }

  /** A commit contributes categories without line breaks. */
  lemma ContributionUnbroken(c: Commit, strip: string -> string)
    ensures ForestUnbroken(Contribution(c, strip))
  {
    if ParsePr(Description(c.body), strip).Ok? {
      ParsePrUnbroken(Description(c.body), strip);
    }
  }

  /** No text of the gathered categories holds a line break. */
  lemma {:induction false} GatherUnbroken(commits: seq<Commit>, strip: string -> string, suppress: bool)
    ensures ForestUnbroken(Gather(commits, strip, suppress).cats)
  {
    if commits != [] {
      var init := commits[..|commits| - 1];
      var c := commits[|commits| - 1];
      GatherUnbroken(init, strip, suppress);
      ContributionUnbroken(c, strip);
      GatherOutline(commits, strip, suppress);
      AllUnbrokenConcat(ForestOutline(Gather(init, strip, suppress).cats), ForestOutline(Contribution(c, strip)));
    }
  }

  /**
   The changelog's lines: the version heading, the date, then one line
   per merged category and per entry, or `_No changes_` when no commit
   contributed anything. The merged categories carry distinct titles up to
   case, all have entries, and hold every gathered entry.
   */
  lemma ChangelogLines(to: string, date: string, commits: seq<Commit>, strip: string -> string, suppress: bool)
    requires '\n' !in to && '\n' !in date
    ensures var gathered := Gather(commits, strip, suppress).cats;
      var merged := Flatten(gathered);
      && Split(ChangelogEntry(to, date, commits, strip, suppress).0, '\n')
         == ["## " + to, "Date: " + date]
            + (if gathered == [] then ["_No changes_"] else RenderAll(ForestOutline(merged)))
      && DistinctKeys(Keys(merged))
      && (forall k :: 0 <= k < |merged| ==> merged[k].children != [])
      && multiset(AllEntries(merged)) == multiset(AllEntries(gathered))
  {
    var gathered := Gather(commits, strip, suppress).cats;
    var merged := Flatten(gathered);
    GatherUnbroken(commits, strip, suppress);
    FlattenUnbroken(gathered);
    FormatChangelogLines(to, date, merged);
    FlattenKeys(gathered);
    FlattenKeepsEntries(gathered);
    GatherOutline(commits, strip, suppress);
    FlattenNonEmpty(gathered);
    assert merged == [] <==> gathered == [] by {
      if gathered != [] {
        FlattenKeys(gathered);
        assert |FirstKeys(gathered)| > 0 by { FirstKeysNonEmpty(gathered); }
      }
    }
  }
}

=== FILE: format.dfy ===
/**
 `formatChangelog`, `formatCategories` and `formatEntry`: a changelog
 printed as a Markdown bullet list, one line per category and per entry.
 */
module Format {
  import opened Text
  import opened Types
  import opened Outline

  /** The line of a category: `- `, the emoji and a space if there is one, the title. */
  function CategoryLine(emoji: string, title: string): string {
    "- " + (if emoji != "" then emoji + " " else "") + title
  }

  /** Each mention with an `@` in front. */
  function Handles(mentions: seq<string>): (r: seq<string>)
    ensures |r| == |mentions|
  {
    seq(|mentions|, i requires 0 <= i < |mentions| => "@" + mentions[i])
  }

  /** The line of an entry: two spaces per level, `- `, the description, then who reported it. */
  function EntryLine(description: string, mentions: seq<string>, depth: nat): string {
    Repeat("  ", depth) + "- " + description
    + if |mentions| > 0 then " (Reported by " + Join(Handles(mentions), ", ") + ")" else ""
  }

  /** `formatEntry(entry, depth)`: the entry's line, then its children one level deeper. */
  function FormatEntry(e: Entry, depth: nat): string
    decreases e
  {
    Join([EntryLine(e.description, e.mentions, depth)] + FormatEach(e.children, depth + 1), "\n")
  }

  /** `entries.map((e) => formatEntry(e, depth))`. */
  function FormatEach(es: seq<Entry>, depth: nat): (r: seq<string>)
    ensures |r| == |es|
    decreases es
  {
    if es == [] then [] else [FormatEntry(es[0], depth)] + FormatEach(es[1..], depth)
  }

  /** One category: its line, then its entries at depth 1. */
  function FormatCategory(c: Category): string {
    Join([CategoryLine(c.emoji, c.title)] + FormatEach(c.children, 1), "\n")
  }

  /** `formatCategories(categories)`: the categories, one after the other. */
  function FormatCategories(cats: seq<Category>): string {
    Join(seq(|cats|, i requires 0 <= i < |cats| => FormatCategory(cats[i])), "\n")
  }

  /**
   `formatChangelog(version, date, categories)`, with the date already
   written out: a version heading, the date, and the changes or
   `_No changes_` when there are none.
   */
  function FormatChangelog(version: string, date: string, cats: seq<Category>): string {
    var changes := FormatCategories(cats);
    "## " + version + "\nDate: " + date + "\n" + if changes == "" then "_No changes_" else changes
  }

  // ---------------------------------------------------------------------
  // Reference: print the outline node by node.

  /** The line of one outline node; an entry at outline depth `d` is printed at depth `d + 1`. */
  function Render(n: Node): string {
    match n
    case Head(emoji, title) => CategoryLine(emoji, title)
    case Item(description, mentions, depth) => EntryLine(description, mentions, depth + 1)
  }

  function RenderAll(nodes: seq<Node>): (r: seq<string>)
    ensures |r| == |nodes|
  {
    seq(|nodes|, i requires 0 <= i < |nodes| => Render(nodes[i]))
  }

  lemma RenderAllAppend(a: seq<Node>, b: seq<Node>)
    ensures RenderAll(a + b) == RenderAll(a) + RenderAll(b)
  {
    assert forall i :: 0 <= i < |a + b| ==> RenderAll(a + b)[i] == (RenderAll(a) + RenderAll(b))[i];
  }

  lemma EntriesOutlineCons(es: seq<Entry>, depth: nat)
    requires es != []
    ensures EntriesOutline(es, depth) == EntriesOutline([es[0]], depth) + EntriesOutline(es[1..], depth)
  {
    assert [es[0]][1..] == [];
  }

  /** An entry prints as its subtree's outline, node by node. */
  lemma {:induction false} FormatEntryOutline(e: Entry, d: nat)
    ensures FormatEntry(e, d + 1) == Join(RenderAll(EntriesOutline([e], d)), "\n")
    decreases e
  {
    SingleRender(e, d);
    if e.children != [] {
      FormatEachOutline(e.children, d + 1);
      FormatInner(e, d);
    }
  }

  /** The walk of one entry renders as its line, then its children's walk. */
  lemma SingleRender(e: Entry, d: nat)
    ensures RenderAll(EntriesOutline([e], d))
      == [EntryLine(e.description, e.mentions, d + 1)] + RenderAll(EntriesOutline(e.children, d + 1))
    ensures e.children == [] ==> FormatEntry(e, d + 1) == EntryLine(e.description, e.mentions, d + 1)
  {
    var sub := EntriesOutline(e.children, d + 1);
    assert [e][1..] == [];
    assert EntriesOutline([e], d) == [Item(e.description, e.mentions, d)] + sub;
    RenderAllAppend([Item(e.description, e.mentions, d)], sub);
    if e.children == [] {
      assert FormatEach(e.children, d + 2) == [];
    }
  }

  /** The step of `FormatEntryOutline` for an entry with children, given the children's result. */
  lemma FormatInner(e: Entry, d: nat)
    requires e.children != []
    requires Join(FormatEach(e.children, d + 2), "\n") == Join(RenderAll(EntriesOutline(e.children, d + 1)), "\n")
    requires RenderAll(EntriesOutline([e], d))
      == [EntryLine(e.description, e.mentions, d + 1)] + RenderAll(EntriesOutline(e.children, d + 1))
    ensures FormatEntry(e, d + 1) == Join(RenderAll(EntriesOutline([e], d)), "\n")
  {
    var line := EntryLine(e.description, e.mentions, d + 1);
    JoinAppend([line], FormatEach(e.children, d + 2), "\n");
    JoinAppend([line], RenderAll(EntriesOutline(e.children, d + 1)), "\n");
  }

  /** A non-empty list of entries prints as its outline, node by node. */
  lemma {:induction false} FormatEachOutline(es: seq<Entry>, d: nat)
    requires es != []
    ensures Join(FormatEach(es, d + 1), "\n") == Join(RenderAll(EntriesOutline(es, d)), "\n")
    decreases es
  {
    FormatEntryOutline(es[0], d);
    EntriesOutlineCons(es, d);
    if es[1..] == [] {
      assert EntriesOutline(es[1..], d) == [];
      assert EntriesOutline(es, d) == EntriesOutline([es[0]], d);
    } else {
      FormatEachOutline(es[1..], d);
      JoinAppend([FormatEntry(es[0], d + 1)], FormatEach(es[1..], d + 1), "\n");
      RenderAllAppend(EntriesOutline([es[0]], d), EntriesOutline(es[1..], d));
      JoinAppend(RenderAll(EntriesOutline([es[0]], d)), RenderAll(EntriesOutline(es[1..], d)), "\n");
    }
  }

  /** A category prints as its heading node followed by its entries' outline. */
  lemma FormatCategoryOutline(c: Category)
    ensures FormatCategory(c) == Join(RenderAll([Head(c.emoji, c.title)] + EntriesOutline(c.children, 0)), "\n")
  {
    var line := CategoryLine(c.emoji, c.title);
    var sub := EntriesOutline(c.children, 0);
    RenderAllAppend([Head(c.emoji, c.title)], sub);
    if c.children == [] {
      assert FormatEach(c.children, 1) == [];
    } else {
      FormatEachOutline(c.children, 0);
      JoinAppend([line], FormatEach(c.children, 1), "\n");
      JoinAppend([line], RenderAll(sub), "\n");
    }
  }

  /**
   `formatCategories` prints the forest's outline, one node per line:
   each category's line followed by its entries in document order, every
   entry indented two spaces per level below its category.
   */
  lemma {:induction false} FormatCategoriesOutline(cats: seq<Category>)
    ensures FormatCategories(cats) == Join(RenderAll(ForestOutline(cats)), "\n")
  {
    if cats != [] {
      var parts := seq(|cats|, i requires 0 <= i < |cats| => FormatCategory(cats[i]));
      var rest := cats[1..];
      assert parts[1..] == seq(|rest|, i requires 0 <= i < |rest| => FormatCategory(rest[i]));
      FormatCategoriesOutline(rest);
      FormatCategoryOutline(cats[0]);
      var head := [Head(cats[0].emoji, cats[0].title)] + EntriesOutline(cats[0].children, 0);
      assert ForestOutline(cats) == head + ForestOutline(rest);
      if rest == [] {
        assert ForestOutline(rest) == [];
        assert ForestOutline(cats) == head;
      } else {
        JoinAppend([parts[0]], parts[1..], "\n");
        assert [parts[0]] + parts[1..] == parts;
        RenderAllAppend(head, ForestOutline(rest));
        JoinAppend(RenderAll(head), RenderAll(ForestOutline(rest)), "\n");
      }
    }
  }

  lemma {:induction false} IndentUnbroken(n: nat)
    ensures '\n' !in Repeat("  ", n)
  {
    if n > 0 {
      IndentUnbroken(n - 1);
    }
  }

  /** An unbroken node prints as exactly one line. */
  lemma RenderUnbroken(n: Node)
    requires Unbroken(n)
    ensures '\n' !in Render(n)
  {
    if n.Item? {
      IndentUnbroken(n.depth + 1);
      var hs := Handles(n.mentions);
      forall k | 0 <= k < |hs|
        ensures '\n' !in hs[k]
      {
        assert hs[k] == "@" + n.mentions[k];
      }
      JoinExcludes(hs, ", ", '\n');
    }
  }

  /**
   Splitting the printed categories at line breaks gives back one line per
   outline node, in order: a heading line per category and an entry line
   per entry, as long as no text holds a line break of its own.
   */
  lemma FormatCategoriesLines(cats: seq<Category>)
    requires cats != [] && ForestUnbroken(cats)
    ensures Split(FormatCategories(cats), '\n') == RenderAll(ForestOutline(cats))
    ensures |Split(FormatCategories(cats), '\n')| == |cats| + ForestSize(cats)
  {
    var nodes := ForestOutline(cats);
    FormatCategoriesOutline(cats);
    forall k | 0 <= k < |nodes|
      ensures '\n' !in RenderAll(nodes)[k]
    {
      RenderUnbroken(nodes[k]);
    }
    SplitJoin(RenderAll(nodes), '\n');
    ForestOutlineSize(cats);
  }

  /** The printed categories are empty exactly when there are no categories: a category line is never empty. */
  lemma NoChanges(cats: seq<Category>)
    ensures FormatCategories(cats) == "" <==> cats == []
  {
    if cats != [] {
      var parts := seq(|cats|, i requires 0 <= i < |cats| => FormatCategory(cats[i]));
      var first := [CategoryLine(cats[0].emoji, cats[0].title)] + FormatEach(cats[0].children, 1);
      JoinStarts(first, "\n");
      JoinStarts(parts, "\n");
    }
  }

  /** Two lines without a line break in front of some text split off as two pieces. */
  lemma SplitTwoLines(h1: string, h2: string, tail: string)
    requires '\n' !in h1 && '\n' !in h2
    ensures Split(h1 + "\n" + h2 + "\n" + tail, '\n') == [h1, h2] + Split(tail, '\n')
  {
    assert h1 + "\n" + h2 + "\n" + tail == h1 + ['\n'] + (h2 + ['\n'] + tail);
    SplitAfterSeparator(h1, '\n', h2 + ['\n'] + tail);
    SplitAfterSeparator(h2, '\n', tail);
  }

  /** The part of the changelog after the date. */
  lemma ChangesLines(cats: seq<Category>)
    requires ForestUnbroken(cats)
    ensures var changes := FormatCategories(cats);
      Split(if changes == "" then "_No changes_" else changes, '\n')
      == if cats == [] then ["_No changes_"] else RenderAll(ForestOutline(cats))
  {
    NoChanges(cats);
    if cats == [] {
      SplitNoSeparator("_No changes_", '\n');
    } else {
      FormatCategoriesLines(cats);
    }
  }

  /**
   The changelog's lines: the version heading, the date, then the
   category and entry lines, or `_No changes_` when there are no
   categories.
   */
  lemma FormatChangelogLines(version: string, date: string, cats: seq<Category>)
    requires '\n' !in version && '\n' !in date && ForestUnbroken(cats)
    ensures Split(FormatChangelog(version, date, cats), '\n')
         == ["## " + version, "Date: " + date]
            + if cats == [] then ["_No changes_"] else RenderAll(ForestOutline(cats))
  {
    var changes := FormatCategories(cats);
    var tail := if changes == "" then "_No changes_" else changes;
    assert FormatChangelog(version, date, cats) == ("## " + version) + "\n" + ("Date: " + date) + "\n" + tail;
    SplitTwoLines("## " + version, "Date: " + date, tail);
    ChangesLines(cats);
  }
}

=== FILE: heading.dfy ===
/**
 `parseCategory`: the leftmost match of `\s*#+\s*([^\w\s]*)\s*([\w\s]+)`
 in a heading line; the first group is the emoji, the second the title.
 */
module Heading {
  import opened Text
  import opened Types

  /**
   The regex anchored at `p`, with its backtracking worked out. The leading
   spaces and the run of `#` are always taken whole. The title group needs
   one word-or-space character after the emoji: a word character right after
   the spaces following the emoji, otherwise the last of those spaces, and
   failing that the last of the spaces before the emoji (the emoji group
   then being empty). Giving back symbols never helps, since a symbol can
   start neither the spaces nor the title.
   */
  function CategoryAt(s: string, p: nat): Option<(string, string)>
    requires p <= |s|
  {
    var g := SkipWhile(s, p, Space);
    if g == |s| || s[g] != '#' then None
    else
      var h := SkipWhile(s, g, Is('#'));
      var h2 := SkipWhile(s, h, Space);
      var e := SkipWhile(s, h2, Symbol);
      var e2 := SkipWhile(s, e, Space);
      if e2 < |s| && IsWord(s[e2]) then Some((s[h2..e], s[e2..SkipWhile(s, e2, WordOrSpace)]))
      else if e2 > e then Some((s[h2..e], s[e2 - 1..e2]))
      else if h2 > h then Some(("", s[h2 - 1..h2]))
      else None
  }

  /**
   A heading occupies `s[p..l]`: spaces, `#`s up to `h`, spaces, the emoji
   `s[i..j]` (no word or space character), spaces, and the title `s[k..l]`
   (word and space characters, at least one, running as far as it can).
   */
  predicate HeadingShape(s: string, p: nat, g: nat, h: nat, i: nat, j: nat, k: nat, l: nat) {
    && p <= g < h <= i <= j <= k < l <= |s|
    && All(s, p, g, Space) && All(s, g, h, Is('#')) && All(s, h, i, Space)
    && All(s, i, j, Symbol) && All(s, j, k, Space) && All(s, k, l, WordOrSpace)
    && (l == |s| || !Member(s[l], WordOrSpace))
  }

  /** Whatever the anchored matcher returns is a heading shape's emoji and title. */
  lemma CategoryAtSound(s: string, p: nat)
    requires p <= |s| && CategoryAt(s, p).Some?
    ensures exists g: nat, h: nat, i: nat, j: nat, k: nat, l: nat ::
      && HeadingShape(s, p, g, h, i, j, k, l)
      && CategoryAt(s, p) == Some((s[i..j], s[k..l]))
  {
    var g := SkipWhile(s, p, Space);
    var h := SkipWhile(s, g, Is('#'));
    var h2 := SkipWhile(s, h, Space);
    var e := SkipWhile(s, h2, Symbol);
    var e2 := SkipWhile(s, e, Space);
    if e2 < |s| && IsWord(s[e2]) {
      var l := SkipWhile(s, e2, WordOrSpace);
      assert HeadingShape(s, p, g, h, h2, e, e2, l);
    } else if e2 > e {
      assert HeadingShape(s, p, g, h, h2, e, e2 - 1, e2);
    } else {
      assert h2 < |s| && IsWord(s[h2]) ==> e == h2 && e2 == e;
      assert s[h2 - 1..h2 - 1] == "";
      assert HeadingShape(s, p, g, h, h2 - 1, h2 - 1, h2 - 1, h2);
    }
  }

  /**
   The title the anchored matcher returns is a non-empty run of word and
   space characters and its emoji holds neither.
   */
  lemma CategoryAtParts(s: string, p: nat)
    requires p <= |s| && CategoryAt(s, p).Some?
    ensures var (emoji, title) := CategoryAt(s, p).value;
      && |title| > 0
      && (forall x :: 0 <= x < |title| ==> IsWord(title[x]) || IsSpace(title[x]))
      && (forall x :: 0 <= x < |emoji| ==> !IsWord(emoji[x]) && !IsSpace(emoji[x]))
  {
    var g := SkipWhile(s, p, Space);
    var h := SkipWhile(s, g, Is('#'));
    var h2 := SkipWhile(s, h, Space);
    var e := SkipWhile(s, h2, Symbol);
    var e2 := SkipWhile(s, e, Space);
    var (emoji, title) := CategoryAt(s, p).value;
    forall x | 0 <= x < |emoji|
      ensures !IsWord(emoji[x]) && !IsSpace(emoji[x])
    {
      assert Member(s[h2 + x], Symbol);
    }
    if e2 < |s| && IsWord(s[e2]) {
      var l := SkipWhile(s, e2, WordOrSpace);
      forall x | 0 <= x < |title|
        ensures IsWord(title[x]) || IsSpace(title[x])
      {
        assert Member(s[e2 + x], WordOrSpace);
      }
    }
  }

  /** Wherever a heading shape starts, the anchored matcher succeeds. */
  lemma CategoryAtComplete(s: string, p: nat, g: nat, h: nat, i: nat, j: nat, k: nat, l: nat)
    requires HeadingShape(s, p, g, h, i, j, k, l)
    ensures CategoryAt(s, p).Some?
  {
    SkipWhileUnique(s, p, g, Space);
    var hh := SkipWhile(s, g, Is('#'));
    assert Member(s[k], WordOrSpace);
    assert k >= hh;
    var h2 := SkipWhile(s, hh, Space);
    var e := SkipWhile(s, h2, Symbol);
    if h2 == hh {
      assert e <= k;
    }
  }

  /** Which positions of `s` start a heading. */
  function HeadingMarks(s: string): (m: seq<bool>)
    ensures |m| == |s| + 1
  {
    seq(|s| + 1, p requires 0 <= p <= |s| => CategoryAt(s, p).Some?)
  }

  /** `parseCategory(line)`: the leftmost heading in the line, or None. */
  function ParseCategory(line: string): Option<Category> {
    var p := FirstTrue(HeadingMarks(line), 0);
    if p <= |line| then
      match CategoryAt(line, p)
      case Some((emoji, title)) => Some(Category(emoji, title, []))
      case None => None
    else None
  }

  /** The anchored matcher's emoji and title are pieces of the line, so they hold no character it lacks. */
  lemma CategoryAtExcludes(s: string, p: nat, x: char)
    requires p <= |s| && x !in s && CategoryAt(s, p).Some?
    ensures x !in CategoryAt(s, p).value.0 && x !in CategoryAt(s, p).value.1
  {
  }

  /** A category read from a line without a line break holds none, in its emoji or its title. */
  lemma ParseCategoryUnbroken(line: string)
    requires '\n' !in line && ParseCategory(line).Some?
    ensures '\n' !in ParseCategory(line).value.emoji && '\n' !in ParseCategory(line).value.title
  {
    CategoryAtExcludes(line, FirstTrue(HeadingMarks(line), 0), '\n');
  }

  /**
   A category from `parseCategory` is the leftmost heading shape of the
   line: no shape starts before it, and it has no entries yet.
   */
  lemma ParseCategorySound(line: string)
    requires ParseCategory(line).Some?
    ensures var c := ParseCategory(line).value;
      && c.children == []
      && exists p: nat, g: nat, h: nat, i: nat, j: nat, k: nat, l: nat ::
           && HeadingShape(line, p, g, h, i, j, k, l)
           && c.emoji == line[i..j] && c.title == line[k..l]
           && forall q :: 0 <= q < p ==> CategoryAt(line, q).None?
  {
    var m := HeadingMarks(line);
    var p := FirstTrue(m, 0);
    forall q | 0 <= q < p
      ensures CategoryAt(line, q).None?
    {
      assert !m[q];
    }
    CategoryAtSound(line, p);
  }

  /** A line holding a heading shape anywhere gives a category. */
  lemma ParseCategoryComplete(line: string, p: nat, g: nat, h: nat, i: nat, j: nat, k: nat, l: nat)
    requires HeadingShape(line, p, g, h, i, j, k, l)
    ensures ParseCategory(line).Some?
  {
    CategoryAtComplete(line, p, g, h, i, j, k, l);
    var m := HeadingMarks(line);
    assert m[p];
  }

  /**
   A title is a non-empty run of word and space characters and an emoji
   holds neither.
   */
  lemma CategoryParts(line: string)
    requires ParseCategory(line).Some?
    ensures var c := ParseCategory(line).value;
      && |c.title| > 0
      && (forall x :: 0 <= x < |c.title| ==> IsWord(c.title[x]) || IsSpace(c.title[x]))
      && (forall x :: 0 <= x < |c.emoji| ==> !IsWord(c.emoji[x]) && !IsSpace(c.emoji[x]))
  {
    CategoryAtParts(line, FirstTrue(HeadingMarks(line), 0));
  }

  /** A line made only of symbols holds no heading. */
  lemma SymbolsOnlyNoCategory(line: string)
    requires All(line, 0, |line|, Symbol)
    ensures ParseCategory(line).None?
  {
    var p := FirstTrue(HeadingMarks(line), 0);
    if p <= |line| {
      CategoryAtSound(line, p);
    }
  }

  /**
   For a line that starts with `#` (the only lines the parser hands over),
   `parseCategory` fails exactly when every character is a symbol: no
   letter, digit, underscore or whitespace anywhere.
   */
  lemma HashLineCategory(line: string)
    requires StartsWith(line, "#")
    ensures ParseCategory(line).None? <==> All(line, 0, |line|, Symbol)
  {
    assert line[0] == '#' by { assert line[..1][0] == line[0]; }
    if All(line, 0, |line|, Symbol) {
      SymbolsOnlyNoCategory(line);
    } else {
      var h := SkipWhile(line, 0, Is('#'));
      var h2 := SkipWhile(line, h, Space);
      var e := SkipWhile(line, h2, Symbol);
      var x :| 0 <= x < |line| && !Member(line[x], Symbol);
      assert CategoryAt(line, 0).Some? by {
        SkipWhileUnique(line, 0, 0, Space);
        assert x >= h;
        if h2 == h {
          assert e <= x;
        }
      }
      assert HeadingMarks(line)[0];
    }
  }

  /** The anchored matcher, given where each of its runs ends, when a word character follows the emoji's spaces. */
  lemma CategoryAtRuns(s: string, p: nat, g: nat, h: nat, h2: nat, e: nat, e2: nat, l: nat)
    requires p <= g < h <= h2 <= e <= e2 < l <= |s| && s[g] == '#' && IsWord(s[e2])
    requires SkipWhile(s, p, Space) == g && SkipWhile(s, g, Is('#')) == h && SkipWhile(s, h, Space) == h2
    requires SkipWhile(s, h2, Symbol) == e && SkipWhile(s, e, Space) == e2 && SkipWhile(s, e2, WordOrSpace) == l
    ensures CategoryAt(s, p) == Some((s[h2..e], s[e2..l]))
  {
  }

  /** The first heading a line holds is at its start when one starts there. */
  lemma CategoryAtStart(line: string)
    requires CategoryAt(line, 0).Some?
    ensures ParseCategory(line) == Some(Category(CategoryAt(line, 0).value.0, CategoryAt(line, 0).value.1, []))
  {
    assert HeadingMarks(line)[0];
  }

  /** The heading of a category section in the description template. */
  lemma TemplateHeading()
    ensures ParseCategory("### 🖼️ Art") == Some(Category("🖼️", "Art", []))
  {
    TemplateHeadingRuns();
    CategoryAtRuns("### 🖼️ Art", 0, 0, 3, 4, 6, 7, 10);
    CategoryAtStart("### 🖼️ Art");
  }

  lemma TemplateHeadingRuns()
    ensures var s := "### 🖼️ Art";
      && |s| == 10 && s[0] == '#' && IsWord(s[7]) && s[4..6] == "🖼️" && s[7..10] == "Art"
      && SkipWhile(s, 0, Space) == 0 && SkipWhile(s, 0, Is('#')) == 3 && SkipWhile(s, 3, Space) == 4
      && SkipWhile(s, 4, Symbol) == 6 && SkipWhile(s, 6, Space) == 7 && SkipWhile(s, 7, WordOrSpace) == 10
  {
    var s := "### 🖼️ Art";
    SkipWhileUnique(s, 0, 0, Space);
    SkipWhileUnique(s, 0, 3, Is('#'));
    SkipWhileUnique(s, 3, 4, Space);
    SkipWhileUnique(s, 4, 6, Symbol);
    SkipWhileUnique(s, 6, 7, Space);
    SkipWhileUnique(s, 7, 10, WordOrSpace);
  }

  /** The title is taken as matched, trailing space included, and stops at the first symbol. */
  lemma ExampleUntrimmedTitle()
    ensures ParseCategory("### Art & Design") == Some(Category("", "Art ", []))
  {
    UntrimmedTitleRuns();
    CategoryAtRuns("### Art & Design", 0, 0, 3, 4, 4, 4, 8);
    CategoryAtStart("### Art & Design");
  }

  lemma UntrimmedTitleRuns()
    ensures var s := "### Art & Design";
      && |s| == 16 && s[0] == '#' && IsWord(s[4]) && s[4..4] == "" && s[4..8] == "Art "
      && SkipWhile(s, 0, Space) == 0 && SkipWhile(s, 0, Is('#')) == 3 && SkipWhile(s, 3, Space) == 4
      && SkipWhile(s, 4, Symbol) == 4 && SkipWhile(s, 4, Space) == 4 && SkipWhile(s, 4, WordOrSpace) == 8
  {
    var s := "### Art & Design";
    SkipWhileUnique(s, 0, 0, Space);
    SkipWhileUnique(s, 0, 3, Is('#'));
    SkipWhileUnique(s, 3, 4, Space);
    SkipWhileUnique(s, 4, 4, Symbol);
    SkipWhileUnique(s, 4, 4, Space);
    SkipWhileUnique(s, 4, 8, WordOrSpace);
  }
}

=== FILE: normalize.dfy ===
/**
 `normalizeBullets`: drop blank lines, then undo soft wrapping with one
 global, multiline pass of the regex `^([^#].*)$\s*([^#\s-])` replaced by
 `"$1 $2"`. The pass is modelled on the joined text exactly as the regex
 engine runs it; `NormalizeIsJoinWrapped` then restates it line by line.
 */
module Normalize {
  import opened Text
  import opened Types

  /** `lines.filter((l) => l.trim() !== "")`. */
  function NonBlank(lines: seq<string>): (r: seq<string>)
    ensures |r| <= |lines|
    ensures forall k :: 0 <= k < |r| ==> !IsBlank(r[k])
    ensures forall l :: l in r <==> l in lines && !IsBlank(l)
  {
    if lines == [] then []
    else if IsBlank(lines[0]) then NonBlank(lines[1..])
    else [lines[0]] + NonBlank(lines[1..])
  }

  /**
   One attempt of the regex at the start of `s`, which is a line start.
   `[^#]` takes `s[0]`; `.*` can only stop at the first line terminator `q`
   (where `$` holds); `\s*` can only stop before the first non-space `r`,
   which must be neither `#` nor `-`. Returns `(q, r)`: `$1 == s[..q]` and
   `$2 == s[r]`.
   */
  function WrapAt(s: string): (w: Option<(nat, nat)>)
    requires |s| > 0
    ensures w.Some? ==> 1 <= w.value.0 <= w.value.1 < |s|
  {
    if s[0] == '#' then None
    else
      var q := SkipWhile(s, 1, NotLineEnd);
      var r := SkipWhile(s, q, Space);
      if r < |s| && s[r] != '#' && s[r] != '-' then Some((q, r)) else None
  }

  /**
   The global replace over the rest `s` of the text; `atLineStart` says
   whether `^` holds at its first position (start of text, or just after a
   line terminator). After a match the scan resumes after `$2`.
   */
  function Scan(s: string, atLineStart: bool): string
    decreases |s|
  {
    if s == [] then []
    else if atLineStart && WrapAt(s).Some? then
      var q := WrapAt(s).value.0;
      var r := WrapAt(s).value.1;
      s[..q] + " " + [s[r]] + Scan(s[r + 1..], false)
    else [s[0]] + Scan(s[1..], IsLineTerminator(s[0]))
  }

  /** The scan at a line start where the regex matches. */
  lemma ScanMatchStep(s: string)
    requires |s| > 0 && WrapAt(s).Some?
    ensures var (q, r) := WrapAt(s).value;
      Scan(s, true) == s[..q] + " " + [s[r]] + Scan(s[r + 1..], false)
  {
  }

  /** The scan where the regex does not match copies one character. */
  lemma ScanCopyStep(s: string, atLineStart: bool)
    requires |s| > 0 && (atLineStart ==> WrapAt(s).None?)
    ensures Scan(s, atLineStart) == [s[0]] + Scan(s[1..], IsLineTerminator(s[0]))
  {
  }

  /** `normalizeBullets(lines)`. */
  function NormalizeBullets(lines: seq<string>): (r: seq<string>)
    ensures |r| >= 1
    ensures forall k :: 0 <= k < |r| ==> '\n' !in r[k]
  {
    Split(Scan(Join(NonBlank(lines), "\n"), true), '\n')
  }

  // ---------------------------------------------------------------------
  // The same pass, line by line.

  /** The line below `a` is pulled up onto it. */
  predicate Joinable(a: string, b: string) {
    && |a| > 0 && a[0] != '#'
    && var t := TrimStart(b); |t| > 0 && t[0] != '#' && t[0] != '-'
  }

  /**
   Line-level reading of the pass: a line joins its follower (with one space
   replacing the line break and the follower's indentation) when Joinable,
   and a line that was pulled up is never extended in turn.
   */
  function JoinWrapped(lines: seq<string>): (r: seq<string>)
    ensures |r| <= |lines|
    ensures |lines| > 0 ==> |r| > 0
  {
    if |lines| < 2 then lines
    else if Joinable(lines[0], lines[1]) then [lines[0] + " " + TrimStart(lines[1])] + JoinWrapped(lines[2..])
    else [lines[0]] + JoinWrapped(lines[1..])
  }

  predicate NoJoinablePair(lines: seq<string>) {
    forall k :: 0 <= k < |lines| - 1 ==> !Joinable(lines[k], lines[k + 1])
  }

  predicate AllOneLine(lines: seq<string>) {
    forall k :: 0 <= k < |lines| ==> OneLine(lines[k])
  }

  predicate AllNonBlank(lines: seq<string>) {
    forall k :: 0 <= k < |lines| ==> !IsBlank(lines[k])
  }

  /** A line joined onto a non-blank line is non-blank and has no line break. */
  lemma JoinedLine(a: string, b: string)
    requires !IsBlank(a) && OneLine(a) && OneLine(b)
    ensures !IsBlank(a + " " + TrimStart(b)) && OneLine(a + " " + TrimStart(b))
  {
    var t := TrimStart(b);
    var j := a + " " + t;
    forall k | 0 <= k < |j| ensures !IsLineTerminator(j[k]) {
      if k < |a| {
        assert j[k] == a[k];
      } else if k > |a| {
        assert j[k] == b[|b| - |t| + k - |a| - 1];
      }
    }
    var i :| 0 <= i < |a| && !IsSpace(a[i]);
    assert j[i] == a[i];
  }

  /** A non-blank single line in front of such lines keeps them such. */
  lemma ConsLines(x: string, ls: seq<string>)
    requires !IsBlank(x) && OneLine(x) && AllNonBlank(ls) && AllOneLine(ls)
    ensures AllNonBlank([x] + ls) && AllOneLine([x] + ls)
  {
    forall k | 0 <= k < |[x] + ls| ensures !IsBlank(([x] + ls)[k]) && OneLine(([x] + ls)[k]) {
      if k > 0 {
        assert ([x] + ls)[k] == ls[k - 1];
      }
    }
  }

  /** Joining keeps lines non-blank and free of line breaks. */
  lemma {:induction false} JoinWrappedLines(lines: seq<string>)
    requires AllNonBlank(lines) && AllOneLine(lines)
    ensures AllNonBlank(JoinWrapped(lines)) && AllOneLine(JoinWrapped(lines))
    decreases |lines|
  {
    if |lines| >= 2 {
      assert !IsBlank(lines[0]) && OneLine(lines[0]) && OneLine(lines[1]);
      if Joinable(lines[0], lines[1]) {
        JoinWrappedLines(lines[2..]);
        JoinedLine(lines[0], lines[1]);
        ConsLines(lines[0] + " " + TrimStart(lines[1]), JoinWrapped(lines[2..]));
      } else {
        JoinWrappedLines(lines[1..]);
        ConsLines(lines[0], JoinWrapped(lines[1..]));
      }
    }
  }

  /** When nothing is joinable the pass keeps every line. */
  lemma {:induction false} JoinWrappedIdentity(lines: seq<string>)
    requires NoJoinablePair(lines)
    ensures JoinWrapped(lines) == lines
    decreases |lines|
  {
    if |lines| >= 2 {
      assert !Joinable(lines[0], lines[1]);
      JoinWrappedIdentity(lines[1..]);
      assert [lines[0]] + lines[1..] == lines;
    }
  }

  // ---------------------------------------------------------------------
  // The regex pass on joined lines equals the line-level pass.

  /** Text without line terminators passes the scan unchanged once off a line start. */
  lemma {:induction false} ScanPlain(u: string)
    requires OneLine(u)
    ensures Scan(u, false) == u
    decreases |u|
  {
    if u != [] {
      ScanPlain(u[1..]);
      assert [u[0]] + u[1..] == u;
    }
  }

  /** The scan copies the rest of a line and resumes at the next line start. */
  lemma {:induction false} ScanToNextLine(u: string, w: string)
    requires OneLine(u)
    ensures Scan(u + "\n" + w, false) == u + "\n" + Scan(w, true)
    decreases |u|
  {
    var s := u + "\n" + w;
    if u == [] {
      assert s[1..] == w;
    } else {
      assert s[1..] == u[1..] + "\n" + w;
      ScanToNextLine(u[1..], w);
      assert [u[0]] + u[1..] == u;
    }
  }

  /** A single line never matches: there is no following line to pull up. */
  lemma ScanSingleLine(a: string)
    requires |a| > 0 && OneLine(a)
    ensures Scan(a, true) == a
  {
    if a[0] != '#' {
      var q := SkipWhile(a, 1, NotLineEnd);
      SkipWhileUnique(a, 1, |a|, NotLineEnd);
      assert q == |a|;
    }
    ScanPlain(a[1..]);
    assert [a[0]] + a[1..] == a;
  }

  /** `.*` from the second character stops at the end of the first line. */
  lemma FirstLineEnd(a: string, x: string)
    requires |a| > 0 && OneLine(a)
    ensures SkipWhile(a + "\n" + x, 1, NotLineEnd) == |a|
  {
    var s := a + "\n" + x;
    forall i | 1 <= i < |a|
      ensures Member(s[i], NotLineEnd)
    {
      assert s[i] == a[i];
    }
    assert s[|a|] == '\n';
    SkipWhileUnique(s, 1, |a|, NotLineEnd);
  }

  /** The indentation of a non-blank line ends at its first non-space, where `TrimStart` begins. */
  lemma Indentation(b: string)
    requires !IsBlank(b)
    ensures var k := |b| - |TrimStart(b)|;
      && k < |b| && All(b, 0, k, Space) && !IsSpace(b[k]) && TrimStart(b)[0] == b[k]
  {
    var k := SkipWhile(b, 0, Space);
    assert k < |b|;
  }

  /** Where the line `b` lies in `a + "\n" + (b + w)`. */
  lemma NextLineChars(a: string, b: string, w: string)
    ensures var s := a + "\n" + (b + w);
      && s[|a|] == '\n' && forall j :: 0 <= j < |b| ==> s[|a| + 1 + j] == b[j]
  {
  }

  /** From the line break, `\s*` stops at the first non-space of the next line `b`. */
  lemma NextLineIndent(a: string, b: string, w: string)
    requires !IsBlank(b)
    ensures var s := a + "\n" + (b + w);
      && |TrimStart(b)| > 0
      && SkipWhile(s, |a|, Space) == |a| + 1 + (|b| - |TrimStart(b)|)
      && s[|a| + 1 + (|b| - |TrimStart(b)|)] == TrimStart(b)[0]
  {
    var s := a + "\n" + (b + w);
    var k := |b| - |TrimStart(b)|;
    Indentation(b);
    NextLineChars(a, b, w);
    forall i | |a| <= i < |a| + 1 + k
      ensures Member(s[i], Space)
    {
      if i > |a| {
        assert s[i] == b[i - |a| - 1];
      }
    }
    SkipWhileUnique(s, |a|, |a| + 1 + k, Space);
  }

  /** A Joinable pair is a regex match with `$1 == a` and `$2` the first non-space of `b`. */
  lemma WrapAtJoinable(a: string, b: string, w: string)
    requires |a| > 0 && OneLine(a) && !IsBlank(b) && Joinable(a, b)
    ensures WrapAt(a + "\n" + (b + w)) == Some((|a|, |a| + 1 + (|b| - |TrimStart(b)|)))
  {
    FirstLineEnd(a, b + w);
    NextLineIndent(a, b, w);
  }

  /** A pair that is not Joinable is not a regex match. */
  lemma WrapAtNotJoinable(a: string, b: string, w: string)
    requires |a| > 0 && OneLine(a) && !IsBlank(b) && !Joinable(a, b)
    ensures WrapAt(a + "\n" + (b + w)).None?
  {
    FirstLineEnd(a, b + w);
    NextLineIndent(a, b, w);
  }

  lemma ConsSlice(b: string, k: nat)
    requires k < |b|
    ensures [b[k]] + b[k + 1..] == b[k..]
  {
  }

  /** A match at a line start replaces `$1`, the break and the indentation by `$1 + " " + $2`. */
  lemma ScanMatchAt(a: string, t: string, r: nat)
    requires WrapAt(a + "\n" + t) == Some((|a|, r))
    ensures r >= |a| + 1
    ensures Scan(a + "\n" + t, true) == a + " " + [t[r - |a| - 1]] + Scan(t[r - |a|..], false)
  {
    var s := a + "\n" + t;
    ScanMatchStep(s);
    assert s[..|a|] == a;
    assert s[r] == t[r - |a| - 1];
    assert s[r + 1..] == t[r - |a|..];
  }

  lemma OneLineSuffix(b: string, k: nat)
    requires OneLine(b) && k <= |b|
    ensures OneLine(b[k..])
  {
    forall i | 0 <= i < |b[k..]|
      ensures !IsLineTerminator(b[k..][i])
    {
      assert b[k..][i] == b[k + i];
    }
  }

  lemma Regroup(x: string, a: string, c: char, y: string, b: string, k: nat, z: string)
    requires k < |b| && c == b[k]
    requires x == a + " " + [c] + y && y == b[k + 1..] + z
    ensures x == a + " " + b[k..] + z
  {
    assert [b[k]] + b[k + 1..] == b[k..];
  }

  /** When the last line is pulled up, the scan copies the rest of it after `$2`, the character `b[k]`. */
  lemma ScanJoinedLast(a: string, b: string, k: nat)
    requires OneLine(b) && k < |b|
    requires WrapAt(a + "\n" + b) == Some((|a|, |a| + 1 + k))
    ensures Scan(a + "\n" + b, true) == a + " " + b[k..]
  {
    var x := Scan(a + "\n" + b, true);
    var y := Scan(b[k + 1..], false);
    ScanMatchAt(a, b, |a| + 1 + k);
    OneLineSuffix(b, k + 1);
    ScanPlain(b[k + 1..]);
    Regroup(x, a, b[k], y, b, k, "");
  }

  /**
   When a line followed by more is pulled up, the scan copies the rest of
   it after `$2`, the character `b[k]`, and restarts on the next line.
   */
  lemma ScanJoinedMore(a: string, b: string, w: string, k: nat)
    requires OneLine(b) && k < |b|
    requires WrapAt(a + "\n" + (b + "\n" + w)) == Some((|a|, |a| + 1 + k))
    ensures Scan(a + "\n" + (b + "\n" + w), true) == a + " " + b[k..] + "\n" + Scan(w, true)
  {
    var t := b + "\n" + w;
    var x := Scan(a + "\n" + t, true);
    var y := Scan(t[k + 1..], false);
    ScanMatchAt(a, t, |a| + 1 + k);
    assert t[k] == b[k];
    assert t[k + 1..] == b[k + 1..] + "\n" + w;
    OneLineSuffix(b, k + 1);
    ScanToNextLine(b[k + 1..], w);
    Regroup(x, a, b[k], y, b, k, "\n" + Scan(w, true));
  }

  /** When the second line stays, the scan copies the first and restarts on the second. */
  lemma ScanUnjoinedPair(a: string, t: string)
    requires |a| > 0 && OneLine(a)
    requires WrapAt(a + "\n" + t).None?
    ensures Scan(a + "\n" + t, true) == a + "\n" + Scan(t, true)
  {
    var s := a + "\n" + t;
    ScanCopyStep(s, true);
    assert s[0] == a[0] && !IsLineTerminator(a[0]);
    assert s[1..] == a[1..] + "\n" + t;
    assert Scan(s, true) == [a[0]] + Scan(a[1..] + "\n" + t, false);
    ScanToNextLine(a[1..], t);
    assert [a[0]] + (a[1..] + "\n" + Scan(t, true)) == a + "\n" + Scan(t, true);
  }

  /** The pass over the last two lines. */
  lemma ScanLastPair(a: string, b: string)
    requires |a| > 0 && OneLine(a) && OneLine(b) && !IsBlank(b)
    ensures Joinable(a, b) ==> Scan(a + "\n" + (b + ""), true) == a + " " + TrimStart(b)
    ensures !Joinable(a, b) ==> Scan(a + "\n" + (b + ""), true) == a + "\n" + b
  {
    assert b + "" == b;
    if Joinable(a, b) {
      var k := |b| - |TrimStart(b)|;
      WrapAtJoinable(a, b, "");
      ScanJoinedLast(a, b, k);
    } else {
      WrapAtNotJoinable(a, b, "");
      ScanUnjoinedPair(a, b);
      ScanSingleLine(b);
    }
  }

  /** The pass over two lines followed by more text `w`. */
  lemma ScanPairThenMore(a: string, b: string, w: string)
    requires |a| > 0 && OneLine(a) && OneLine(b) && !IsBlank(b)
    ensures Joinable(a, b) ==>
      Scan(a + "\n" + (b + ("\n" + w)), true) == a + " " + TrimStart(b) + "\n" + Scan(w, true)
    ensures !Joinable(a, b) ==>
      Scan(a + "\n" + (b + ("\n" + w)), true) == a + "\n" + Scan(b + ("\n" + w), true)
  {
    if Joinable(a, b) {
      var k := |b| - |TrimStart(b)|;
      WrapAtJoinable(a, b, "\n" + w);
      assert b + ("\n" + w) == b + "\n" + w;
      ScanJoinedMore(a, b, w, k);
    } else {
      WrapAtNotJoinable(a, b, "\n" + w);
      ScanUnjoinedPair(a, b + ("\n" + w));
    }
  }

  lemma JoinCons(x: string, ls: seq<string>, sep: string)
    requires ls != []
    ensures Join([x] + ls, sep) == x + sep + Join(ls, sep)
  {
    assert ([x] + ls)[1..] == ls;
  }

  /** The pass over exactly two lines. */
  lemma ScanTwoLines(lines: seq<string>)
    requires |lines| == 2
    requires |lines[0]| > 0 && OneLine(lines[0]) && OneLine(lines[1]) && !IsBlank(lines[1])
    ensures Scan(Join(lines, "\n"), true) == Join(JoinWrapped(lines), "\n")
  {
    var a := lines[0];
    var b := lines[1];
    assert lines[1..] == [b];
    assert Join(lines, "\n") == a + "\n" + (b + "");
    ScanLastPair(a, b);
    assert lines[2..] == [];
    if !Joinable(a, b) {
      assert JoinWrapped(lines) == [a] + JoinWrapped([b]);
    }
  }

  /** How three lines or more are joined by newlines, around the second one. */
  lemma JoinThree(a: string, b: string, rest: seq<string>)
    requires rest != []
    ensures Join([b] + rest, "\n") == b + ("\n" + Join(rest, "\n"))
    ensures Join([a] + ([b] + rest), "\n") == a + "\n" + (b + ("\n" + Join(rest, "\n")))
  {
    JoinCons(b, rest, "\n");
    JoinCons(a, [b] + rest, "\n");
  }

  /** How the line-level pass treats the first pair of three lines or more. */
  lemma JoinWrappedMore(lines: seq<string>)
    requires |lines| > 2
    ensures Joinable(lines[0], lines[1]) ==>
      Join(JoinWrapped(lines), "\n") == lines[0] + " " + TrimStart(lines[1]) + "\n" + Join(JoinWrapped(lines[2..]), "\n")
    ensures !Joinable(lines[0], lines[1]) ==>
      Join(JoinWrapped(lines), "\n") == lines[0] + "\n" + Join(JoinWrapped(lines[1..]), "\n")
  {
    if Joinable(lines[0], lines[1]) {
      JoinCons(lines[0] + " " + TrimStart(lines[1]), JoinWrapped(lines[2..]), "\n");
    } else {
      JoinCons(lines[0], JoinWrapped(lines[1..]), "\n");
    }
  }

  /** The pass over three lines or more, given its result on the lines after the first and after the second. */
  lemma ScanMoreLines(lines: seq<string>)
    requires |lines| > 2
    requires |lines[0]| > 0 && OneLine(lines[0]) && OneLine(lines[1]) && !IsBlank(lines[1])
    requires Scan(Join(lines[1..], "\n"), true) == Join(JoinWrapped(lines[1..]), "\n")
    requires Scan(Join(lines[2..], "\n"), true) == Join(JoinWrapped(lines[2..]), "\n")
    ensures Scan(Join(lines, "\n"), true) == Join(JoinWrapped(lines), "\n")
  {
    assert lines[1..] == [lines[1]] + lines[2..];
    assert lines == [lines[0]] + lines[1..];
    JoinThree(lines[0], lines[1], lines[2..]);
    JoinWrappedMore(lines);
    ScanPairThenMore(lines[0], lines[1], Join(lines[2..], "\n"));
  }

  /** The regex pass over joined non-blank lines is the line-level pass. */
  lemma {:induction false} ScanIsJoinWrapped(lines: seq<string>)
    requires |lines| > 0 && AllNonBlank(lines) && AllOneLine(lines)
    ensures Scan(Join(lines, "\n"), true) == Join(JoinWrapped(lines), "\n")
    decreases |lines|
  {
    assert !IsBlank(lines[0]) && OneLine(lines[0]);
    if |lines| == 1 {
      ScanSingleLine(lines[0]);
    } else {
      assert !IsBlank(lines[1]) && OneLine(lines[1]);
      if |lines| == 2 {
        ScanTwoLines(lines);
      } else {
        ScanIsJoinWrapped(lines[1..]);
        ScanIsJoinWrapped(lines[2..]);
        ScanMoreLines(lines);
      }
    }
  }

  /**
   For lines without embedded line breaks, `normalizeBullets` keeps the
   non-blank lines, joined line by line as JoinWrapped says; with no
   non-blank line at all it returns `[""]` (`"".split("\n")`).
   */
  lemma NormalizeIsJoinWrapped(lines: seq<string>)
    requires AllOneLine(lines)
    ensures NonBlank(lines) == [] ==> NormalizeBullets(lines) == [""]
    ensures NonBlank(lines) != [] ==> NormalizeBullets(lines) == JoinWrapped(NonBlank(lines))
  {
    var nb := NonBlank(lines);
    if nb != [] {
      forall k | 0 <= k < |nb| ensures OneLine(nb[k]) {
        assert nb[k] in lines;
      }
      ScanIsJoinWrapped(nb);
      JoinWrappedLines(nb);
      var jw := JoinWrapped(nb);
      forall k | 0 <= k < |jw| ensures '\n' !in jw[k] {
        assert OneLine(jw[k]);
        assert forall i :: 0 <= i < |jw[k]| ==> jw[k][i] != '\n';
      }
      SplitJoin(jw, '\n');
    }
  }

  /**
   The promises of `normalizeBullets` on line-break-free input: no blank line
   survives, there are never more lines than non-blank inputs (apart from
   the `[""]` of an all-blank input), and without a joinable pair the
   non-blank lines come back unchanged and in order.
   */
  lemma NormalizeProperties(lines: seq<string>)
    requires AllOneLine(lines)
    ensures var r := NormalizeBullets(lines);
      && (NonBlank(lines) != [] ==> AllNonBlank(r) && AllOneLine(r) && |r| <= |NonBlank(lines)|)
      && (NonBlank(lines) == [] ==> r == [""])
      && (NoJoinablePair(NonBlank(lines)) && NonBlank(lines) != [] ==> r == NonBlank(lines))
  {
    NormalizeIsJoinWrapped(lines);
    var nb := NonBlank(lines);
    if nb != [] {
      forall k | 0 <= k < |nb| ensures OneLine(nb[k]) {
        assert nb[k] in lines;
      }
      JoinWrappedLines(nb);
      if NoJoinablePair(nb) {
        JoinWrappedIdentity(nb);
      }
    }
  }

  lemma AbsorbedJoin()
    ensures JoinWrapped(["- a", "b", "c"]) == ["- a b", "c"]
  {
    assert TrimStart("b") == "b";
    assert Joinable("- a", "b");
    assert ["- a", "b", "c"][2..] == ["c"];
    assert JoinWrapped(["c"]) == ["c"];
    assert "- a" + " " + "b" == "- a b";
  }

  lemma AbsorbedLines()
    ensures NonBlank(["- a", "b", "c"]) == ["- a", "b", "c"]
    ensures AllOneLine(["- a", "b", "c"])
  {
    var lines := ["- a", "b", "c"];
    assert !IsBlank("- a") by { assert !IsSpace("- a"[0]); }
    assert !IsBlank("b") by { assert !IsSpace("b"[0]); }
    assert !IsBlank("c") by { assert !IsSpace("c"[0]); }
    assert lines[1..] == ["b", "c"] && lines[1..][1..] == ["c"] && ["c"][1..] == [];
    forall k | 0 <= k < 3
      ensures OneLine(lines[k])
    {
    }
  }

  /** A line that absorbed its follower is not extended again in the same pass. */
  lemma AbsorbedLineNotExtended()
    ensures NormalizeBullets(["- a", "b", "c"]) == ["- a b", "c"]
  {
    AbsorbedJoin();
    AbsorbedLines();
    NormalizeIsJoinWrapped(["- a", "b", "c"]);
  }
}

=== FILE: outline.dfy ===
/**
 The outline of a changelog: the tree read in document order, one node per
 heading and per bullet, each bullet with its nesting depth. A forest is
 determined by its outline, so the outline is the reference both the parser
 (which builds trees from lines) and the renderer (which prints trees as
 lines) are stated against.
 */
module Outline {
  import opened Types

  datatype Node =
    | Head(emoji: string, title: string)
    | Item(description: string, mentions: seq<string>, depth: nat)

  /** Preorder walk of `es`, top-level entries at `depth`. */
  function EntriesOutline(es: seq<Entry>, depth: nat): (r: seq<Node>)
    ensures |r| >= |es|
    decreases es
  {
    if es == [] then []
    else
      [Item(es[0].description, es[0].mentions, depth)]
      + EntriesOutline(es[0].children, depth + 1)
      + EntriesOutline(es[1..], depth)
  }

  /** Each category contributes its heading followed by its entries at depth 0. */
  function ForestOutline(cats: seq<Category>): (r: seq<Node>)
    ensures |r| >= |cats|
  {
    if cats == [] then []
    else [Head(cats[0].emoji, cats[0].title)] + EntriesOutline(cats[0].children, 0) + ForestOutline(cats[1..])
  }

  /** Number of entry nodes in a forest of entries. */
  function Size(es: seq<Entry>): nat
    decreases es
  {
    if es == [] then 0 else 1 + Size(es[0].children) + Size(es[1..])
  }

  /** Number of entry nodes under all categories. */
  function ForestSize(cats: seq<Category>): nat {
    if cats == [] then 0 else Size(cats[0].children) + ForestSize(cats[1..])
  }

  /** Length of the chain of last children: how deep a new entry can go. */
  function Spine(es: seq<Entry>): nat
    decreases es
  {
    if es == [] then 0 else 1 + Spine(es[|es| - 1].children)
  }

  lemma {:induction false} OutlineSize(es: seq<Entry>, depth: nat)
    ensures |EntriesOutline(es, depth)| == Size(es)
    decreases es
  {
    if es != [] {
      OutlineSize(es[0].children, depth + 1);
      OutlineSize(es[1..], depth);
    }
  }

  lemma {:induction false} ForestOutlineSize(cats: seq<Category>)
    ensures |ForestOutline(cats)| == |cats| + ForestSize(cats)
  {
    if cats != [] {
      OutlineSize(cats[0].children, 0);
      ForestOutlineSize(cats[1..]);
    }
  }

  lemma {:induction false} EntriesOutlineAppend(es: seq<Entry>, e: Entry, depth: nat)
    ensures EntriesOutline(es + [e], depth)
         == EntriesOutline(es, depth) + EntriesOutline([e], depth)
    decreases es
  {
    if es != [] {
      assert (es + [e])[0] == es[0];
      assert (es + [e])[1..] == es[1..] + [e];
      EntriesOutlineAppend(es[1..], e, depth);
    }
  }

  lemma {:induction false} ForestOutlineAppend(cats: seq<Category>, c: Category)
    ensures ForestOutline(cats + [c])
         == ForestOutline(cats) + [Head(c.emoji, c.title)] + EntriesOutline(c.children, 0)
  {
    if cats == [] {
      assert [c][1..] == [];
    } else {
      assert (cats + [c])[0] == cats[0];
      assert (cats + [c])[1..] == cats[1..] + [c];
      ForestOutlineAppend(cats[1..], c);
    }
  }

  lemma {:induction false} ForestOutlineConcat(a: seq<Category>, b: seq<Category>)
    ensures ForestOutline(a + b) == ForestOutline(a) + ForestOutline(b)
  {
    if a == [] {
      assert a + b == b;
    } else {
      assert (a + b)[0] == a[0];
      assert (a + b)[1..] == a[1..] + b;
      ForestOutlineConcat(a[1..], b);
    }
  }

  lemma {:induction false} EntriesOutlineConcat(a: seq<Entry>, b: seq<Entry>, depth: nat)
    ensures EntriesOutline(a + b, depth) == EntriesOutline(a, depth) + EntriesOutline(b, depth)
    decreases a
  {
    if a == [] {
      assert a + b == b;
    } else {
      assert (a + b)[0] == a[0];
      assert (a + b)[1..] == a[1..] + b;
      EntriesOutlineConcat(a[1..], b, depth);
    }
  }

  /** A node whose text holds no line break. */
  predicate Unbroken(n: Node) {
    match n
    case Head(emoji, title) => '\n' !in emoji && '\n' !in title
    case Item(description, mentions, _) =>
      '\n' !in description && forall k :: 0 <= k < |mentions| ==> '\n' !in mentions[k]
  }

  predicate AllUnbroken(nodes: seq<Node>) {
    forall k :: 0 <= k < |nodes| ==> Unbroken(nodes[k])
  }

  /** Whether no category or entry text under `cats` holds a line break. */
  predicate ForestUnbroken(cats: seq<Category>) {
    AllUnbroken(ForestOutline(cats))
  }

  lemma AllUnbrokenConcat(a: seq<Node>, b: seq<Node>)
    requires AllUnbroken(a) && AllUnbroken(b)
    ensures AllUnbroken(a + b)
  {
    forall k | |a| <= k < |a + b|
      ensures Unbroken((a + b)[k])
    {
      assert (a + b)[k] == b[k - |a|];
    }
  }
}

=== FILE: parser.dfy ===
/**
 `parsePr`: from a pull-request description to the categories of its
 changelog section. The lines of the section are folded into a forest:
 headings open categories, bullets descend along the last entries to their
 depth (stopping early where the tree is not that deep).
 */
module Parser {
  import opened Text
  import opened Types
  import opened Outline
  import opened Normalize
  import opened Version
  import opened Heading
  import opened Bullet

  function Min(a: nat, b: nat): nat {
    if a < b then a else b
  }

  /**
   Push `e` at `depth`: descend into the last entry `depth` times, stopping
   early at a level without entries, and append there.
   */
  function Insert(es: seq<Entry>, e: Entry, depth: nat): (r: seq<Entry>)
    ensures |r| == |es| || |r| == |es| + 1
    decreases es
  {
    if depth == 0 || es == [] then es + [e]
    else
      var last := es[|es| - 1];
      es[..|es| - 1] + [last.(children := Insert(last.children, e, depth - 1))]
  }

  lemma SingleOutline(x: Entry, k: nat)
    ensures EntriesOutline([x], k) == [Item(x.description, x.mentions, k)] + EntriesOutline(x.children, k + 1)
  {
    assert [x][1..] == [];
  }

  /** Appending at the current level adds the new entry's node last. */
  lemma AppendOutline(es: seq<Entry>, e: Entry, k: nat)
    requires e.children == []
    ensures EntriesOutline(es + [e], k) == EntriesOutline(es, k) + [Item(e.description, e.mentions, k)]
    ensures Spine(es + [e]) == 1
  {
    EntriesOutlineAppend(es, e, k);
    SingleOutline(e, k);
    assert (es + [e])[|es|] == e;
  }

  /** Replacing the last entry changes only the tail of the walk. */
  lemma ReplaceLastOutline(es: seq<Entry>, x: Entry, k: nat)
    requires es != []
    ensures var init := es[..|es| - 1];
      && EntriesOutline(es, k) == EntriesOutline(init, k) + [Item(es[|es| - 1].description, es[|es| - 1].mentions, k)]
           + EntriesOutline(es[|es| - 1].children, k + 1)
      && EntriesOutline(init + [x], k) == EntriesOutline(init, k) + [Item(x.description, x.mentions, k)]
           + EntriesOutline(x.children, k + 1)
      && Spine(init + [x]) == 1 + Spine(x.children)
  {
    var init := es[..|es| - 1];
    assert es == init + [es[|es| - 1]];
    EntriesOutlineAppend(init, es[|es| - 1], k);
    EntriesOutlineAppend(init, x, k);
    SingleOutline(es[|es| - 1], k);
    SingleOutline(x, k);
    assert (init + [x])[|es| - 1] == x;
  }

  /** After inserting, the chain of last entries ends at the new entry. */
  lemma {:induction false} InsertSpine(es: seq<Entry>, e: Entry, depth: nat)
    requires e.children == []
    ensures Spine(Insert(es, e, depth)) == Min(depth, Spine(es)) + 1
    decreases es
  {
    if depth == 0 || es == [] {
      assert (es + [e])[|es|] == e;
    } else {
      var last := es[|es| - 1];
      var last' := last.(children := Insert(last.children, e, depth - 1));
      InsertSpine(last.children, e, depth - 1);
      assert Insert(es, e, depth) == es[..|es| - 1] + [last'];
      assert (es[..|es| - 1] + [last'])[|es| - 1] == last';
    }
  }

  /**
   Inserting adds exactly one node at the end of the walk, at the requested
   depth capped by how deep the last chain of entries goes.
   */
  lemma {:induction false} InsertOutline(es: seq<Entry>, e: Entry, depth: nat, k: nat)
    requires e.children == []
    ensures EntriesOutline(Insert(es, e, depth), k)
         == EntriesOutline(es, k) + [Item(e.description, e.mentions, k + Min(depth, Spine(es)))]
    decreases es
  {
    if depth == 0 || es == [] {
      AppendOutline(es, e, k);
    } else {
      InsertOutline(es[|es| - 1].children, e, depth - 1, k + 1);
      InsertOutlineBelow(es, e, depth, k);
    }
  }

  /** The step of `InsertOutline` below the top level, given its result one level down. */
  lemma InsertOutlineBelow(es: seq<Entry>, e: Entry, depth: nat, k: nat)
    requires depth > 0 && es != []
    requires var cs := es[|es| - 1].children;
      EntriesOutline(Insert(cs, e, depth - 1), k + 1)
      == EntriesOutline(cs, k + 1) + [Item(e.description, e.mentions, k + 1 + Min(depth - 1, Spine(cs)))]
    ensures EntriesOutline(Insert(es, e, depth), k)
         == EntriesOutline(es, k) + [Item(e.description, e.mentions, k + Min(depth, Spine(es)))]
  {
    var last := es[|es| - 1];
    var last' := last.(children := Insert(last.children, e, depth - 1));
    ReplaceLastOutline(es, last', k);
    InsertDescends(es, e, depth);
    var a := EntriesOutline(es[..|es| - 1], k);
    var x := Item(last.description, last.mentions, k);
    var b := EntriesOutline(last.children, k + 1);
    var y := Item(e.description, e.mentions, k + Min(depth, Spine(es)));
    assert Item(last'.description, last'.mentions, k) == x;
    assert last'.children == Insert(last.children, e, depth - 1);
    assert EntriesOutline(last'.children, k + 1) == b + [y];
    Regroup(a, x, b, y);
  }

  /** Inserting below the top level rebuilds the last entry; the spine runs through it. */
  lemma InsertDescends(es: seq<Entry>, e: Entry, depth: nat)
    requires depth > 0 && es != []
    ensures var last := es[|es| - 1];
      && Insert(es, e, depth) == es[..|es| - 1] + [last.(children := Insert(last.children, e, depth - 1))]
      && Spine(es) == 1 + Spine(last.children)
      && Min(depth, Spine(es)) == 1 + Min(depth - 1, Spine(last.children))
  {
  }

  lemma Regroup(a: seq<Node>, x: Node, b: seq<Node>, y: Node)
    ensures a + [x] + (b + [y]) == a + [x] + b + [y]
  {
  }

  /** What one line of the section does to the categories built so far. */
  datatype Step =
    | Skip                          // blank, or a heading without a title
    | Open(cat: Category)           // a heading: a new category
    | Add(entry: Entry, depth: nat) // a bullet at a requested depth
    | Fail(error: ParseError)       // a line `parseEntry` rejects

  /**
   The reducer's reading of a line: the end is trimmed, empty lines are
   skipped, lines starting with `#` are headings, anything else an entry.
   */
  function Classify(line: string): (r: Step)
    ensures r.Open? ==> r.cat.children == []
    ensures r.Add? ==> r.entry.children == []
    ensures r.Fail? ==> r.error == MalformedEntry(TrimEnd(line))
  {
    var t := TrimEnd(line);
    if t == "" then Skip
    else if StartsWith(t, "#") then
      match ParseCategory(t)
      case Some(c) => (ParseCategorySound(t); Open(c))
      case None => Skip
    else
      match ParseEntry(t)
      case Ok((e, d)) => Add(e, d)
      case Err(err) => Fail(err)
  }

  /** The reducer body, on a line already classified. */
  function Apply(cats: seq<Category>, step: Step): (r: Result<seq<Category>>)
    requires cats != []
    ensures r.Ok? ==> r.value != [] && r.value[0].title == cats[0].title
  {
    match step
    case Skip => Ok(cats)
    case Open(c) => Ok(cats + [c])
    case Add(e, d) =>
      var last := cats[|cats| - 1];
      Ok(cats[..|cats| - 1] + [last.(children := Insert(last.children, e, d))])
    case Fail(err) => Err(err)
  }

  /**
   The reduce over classified lines, seeded with the category for entries
   written before any heading; the first rejected line aborts it.
   */
  function Build(steps: seq<Step>): (r: Result<seq<Category>>)
    ensures r.Ok? ==> r.value != [] && r.value[0].title == Uncategorized.title
  {
    if steps == [] then Ok([Uncategorized])
    else
      match Build(steps[..|steps| - 1])
      case Err(e) => Err(e)
      case Ok(cats) => Apply(cats, steps[|steps| - 1])
  }

  /** Each line classified on its own, in order. */
  function Steps(lines: seq<string>): (r: seq<Step>)
    ensures |r| == |lines|
  {
    seq(|lines|, i requires 0 <= i < |lines| => Classify(lines[i]))
  }

  /** The reduce over the section's lines; the only error it raises is a malformed entry. */
  function Fold(lines: seq<string>): (r: Result<seq<Category>>)
    ensures r.Err? ==> r.error.MalformedEntry?
  {
    var steps := Steps(lines);
    BuildFails(steps);
    assert Build(steps).Err? ==> steps[FirstTrue(Failures(steps), 0)] == Classify(lines[FirstTrue(Failures(steps), 0)]);
    Build(steps)
  }

  /**
   The section read as a flat outline, without building trees: a heading
   is a heading node, a bullet an item whose depth is the requested one
   capped at one more than the previous item's (0 after a heading).
   `spine` is how deep the next item may go.
   */
  datatype Flat = Flat(nodes: seq<Node>, spine: nat)

  function FlatStep(f: Flat, step: Step): Flat {
    match step
    case Open(c) => Flat(f.nodes + [Head(c.emoji, c.title)], 0)
    case Add(e, d) =>
      var depth := Min(d, f.spine);
      Flat(f.nodes + [Item(e.description, e.mentions, depth)], depth + 1)
    case _ => f
  }

  function FlatOutline(steps: seq<Step>): Flat {
    if steps == [] then Flat([], 0)
    else FlatStep(FlatOutline(steps[..|steps| - 1]), steps[|steps| - 1])
  }

  /** Which steps are rejections. */
  function Failures(steps: seq<Step>): (m: seq<bool>)
    ensures |m| == |steps|
  {
    seq(|steps|, i requires 0 <= i < |steps| => steps[i].Fail?)
  }

  /** The seed category, as a heading node. */
  const SeedHead := Head(Uncategorized.emoji, Uncategorized.title)

  /** A heading step adds its heading node and resets the chain of last entries. */
  lemma OpenOutline(cats: seq<Category>, f: Flat, cat: Category)
    requires cats != [] && cat.children == []
    requires ForestOutline(cats) == [SeedHead] + f.nodes
    ensures var r := cats + [cat];
      && ForestOutline(r) == [SeedHead] + FlatStep(f, Open(cat)).nodes
      && Spine(r[|r| - 1].children) == FlatStep(f, Open(cat)).spine
  {
    ForestOutlineAppend(cats, cat);
    assert (cats + [cat])[|cats|] == cat;
  }

  /** An entry step adds its item node, at the capped depth, to the last category. */
  lemma AddOutline(cats: seq<Category>, f: Flat, e: Entry, d: nat)
    requires cats != [] && e.children == []
    requires ForestOutline(cats) == [SeedHead] + f.nodes
    requires Spine(cats[|cats| - 1].children) == f.spine
    ensures var last := cats[|cats| - 1];
      var r := cats[..|cats| - 1] + [last.(children := Insert(last.children, e, d))];
      && ForestOutline(r) == [SeedHead] + FlatStep(f, Add(e, d)).nodes
      && Spine(r[|r| - 1].children) == FlatStep(f, Add(e, d)).spine
  {
    var c := |cats|;
    var init := cats[..c - 1];
    var last := cats[c - 1];
    var last' := last.(children := Insert(last.children, e, d));
    ReplaceLastCategory(cats, last');
    InsertOutline(last.children, e, d, 0);
    InsertSpine(last.children, e, d);
    var a := ForestOutline(init);
    var h := Head(last.emoji, last.title);
    var b := EntriesOutline(last.children, 0);
    var item := Item(e.description, e.mentions, Min(d, f.spine));
    assert Head(last'.emoji, last'.title) == h;
    assert EntriesOutline(last'.children, 0) == b + [item];
    Regroup(a, h, b, item);
    assert (init + [last'])[c - 1] == last';
  }

  /** Replacing the last category changes only the tail of the walk. */
  lemma ReplaceLastCategory(cats: seq<Category>, x: Category)
    requires cats != []
    ensures var init := cats[..|cats| - 1];
      var last := cats[|cats| - 1];
      && ForestOutline(cats) == ForestOutline(init) + [Head(last.emoji, last.title)] + EntriesOutline(last.children, 0)
      && ForestOutline(init + [x]) == ForestOutline(init) + [Head(x.emoji, x.title)] + EntriesOutline(x.children, 0)
  {
    var init := cats[..|cats| - 1];
    assert cats == init + [cats[|cats| - 1]];
    ForestOutlineAppend(init, cats[|cats| - 1]);
    ForestOutlineAppend(init, x);
  }

  /** One reducer step keeps the forest's walk equal to the flat outline. */
  lemma ApplyOutline(cats: seq<Category>, f: Flat, step: Step)
    requires cats != [] && Apply(cats, step).Ok?
    requires step.Open? ==> step.cat.children == []
    requires step.Add? ==> step.entry.children == []
    requires ForestOutline(cats) == [SeedHead] + f.nodes
    requires Spine(cats[|cats| - 1].children) == f.spine
    ensures var r := Apply(cats, step).value;
      && ForestOutline(r) == [SeedHead] + FlatStep(f, step).nodes
      && Spine(r[|r| - 1].children) == FlatStep(f, step).spine
  {
    match step
    case Skip =>
    case Open(cat) => OpenOutline(cats, f, cat);
    case Add(e, d) => AddOutline(cats, f, e, d);
  }

  /** Steps as `Classify` produces them: new categories and entries are leaves. */
  predicate Leaves(steps: seq<Step>) {
    forall i :: 0 <= i < |steps| ==>
      (steps[i].Open? ==> steps[i].cat.children == []) && (steps[i].Add? ==> steps[i].entry.children == [])
  }

  /**
   When the fold succeeds, the forest it builds walks, after the seed
   heading, as the flat outline of the lines.
   */
  lemma {:induction false} BuildOutline(steps: seq<Step>)
    requires Leaves(steps) && Build(steps).Ok?
    ensures var cats := Build(steps).value;
      && ForestOutline(cats) == [SeedHead] + FlatOutline(steps).nodes
      && Spine(cats[|cats| - 1].children) == FlatOutline(steps).spine
    decreases |steps|
  {
    if steps == [] {
      assert ForestOutline([Uncategorized]) == [SeedHead];
    } else {
      var init := steps[..|steps| - 1];
      BuildOutline(init);
      ApplyOutline(Build(init).value, FlatOutline(init), steps[|steps| - 1]);
    }
  }

  /**
   The fold fails exactly when some line is rejected, and then with the
   error of the first such line.
   */
  lemma {:induction false} BuildFails(steps: seq<Step>)
    ensures Build(steps).Ok? <==> forall i :: 0 <= i < |steps| ==> !steps[i].Fail?
    ensures Build(steps).Err? ==>
      var i := FirstTrue(Failures(steps), 0);
      i < |steps| && steps[i] == Fail(Build(steps).error)
    decreases |steps|
  {
    if steps != [] {
      var n := |steps|;
      var init := steps[..n - 1];
      BuildFails(init);
      var m := Failures(steps);
      var mi := Failures(init);
      assert forall i :: 0 <= i < n - 1 ==> m[i] == mi[i] && steps[i] == init[i];
      if Build(init).Err? {
        var i := FirstTrue(mi, 0);
        assert forall k :: 0 <= k < i ==> !m[k];
        FirstTrueAt(m, i);
      } else if steps[n - 1].Fail? {
        assert forall k :: 0 <= k < n - 1 ==> !m[k];
        FirstTrueAt(m, n - 1);
      }
    }
  }

  /** `Classify` only produces leaves. */
  lemma StepsAreLeaves(lines: seq<string>)
    ensures Leaves(Steps(lines))
  {
    var st := Steps(lines);
    forall i | 0 <= i < |st|
      ensures (st[i].Open? ==> st[i].cat.children == []) && (st[i].Add? ==> st[i].entry.children == [])
    {
      assert st[i] == Classify(lines[i]);
    }
  }

  // ---------------------------------------------------------------------
  // From a description to its changelog section.

  /** The description with `// -` typed for `- //` fixed, trimmed, split into lines. */
  function PrLines(description: string): seq<string> {
    Split(Trim(ReplaceAll(description, "// -", "- //")), '\n')
  }

  /** Which lines carry a version marker. */
  function VersionMarks(lines: seq<string>): (m: seq<bool>)
    ensures |m| == |lines|
  {
    seq(|lines|, i requires 0 <= i < |lines| => ParseVersion(lines[i]).Some?)
  }

  /** The index of the first line with a version marker; `|lines|` when there is none. */
  function VersionIndex(lines: seq<string>): (i: nat)
    ensures i <= |lines|
  {
    FirstTrue(VersionMarks(lines), 0)
  }

  /** `VersionIndex` is the loop's `versionIndex`: the first line with a marker. */
  lemma VersionIndexFirst(lines: seq<string>)
    ensures var i := VersionIndex(lines);
      && (i < |lines| ==> ParseVersion(lines[i]).Some?)
      && forall j :: 0 <= j < i ==> ParseVersion(lines[j]).None?
  {
    var m := VersionMarks(lines);
    var i := VersionIndex(lines);
    forall j | 0 <= j < i
      ensures ParseVersion(lines[j]).None?
    {
      assert !m[j];
    }
    if i < |lines| {
      assert m[i];
    }
  }

  /** `lines.filter((l) => l !== "")`. */
  function NonEmpty(lines: seq<string>): (r: seq<string>)
    ensures forall k :: 0 <= k < |r| ==> r[k] != ""
    ensures forall l :: l in r <==> l in lines && l != ""
  {
    if lines == [] then []
    else if lines[0] == "" then NonEmpty(lines[1..])
    else [lines[0]] + NonEmpty(lines[1..])
  }

  /**
   The lines after the version marker (all lines when there is none), passed
   through `strip` as one text and split again, without empty lines.
   */
  function Body(lines: seq<string>, strip: string -> string): seq<string> {
    var i := VersionIndex(lines);
    var rest := if i < |lines| then lines[i + 1..] else lines;
    NonEmpty(Split(strip(Join(rest, "\n")), '\n'))
  }

  /** The index of the first line starting with `## Changelog`; `|body|` when there is none. */
  function ChangelogIndex(body: seq<string>): (i: nat)
    ensures i <= |body|
    ensures i < |body| ==> StartsWith(body[i], "## Changelog")
    ensures forall j :: 0 <= j < i ==> !StartsWith(body[j], "## Changelog")
  {
    var m := seq(|body|, j requires 0 <= j < |body| => StartsWith(body[j], "## Changelog"));
    var i := FirstTrue(m, 0);
    forall j | 0 <= j < i
      ensures !StartsWith(body[j], "## Changelog")
    {
      assert !m[j];
    }
    assert i < |body| ==> m[i];
    i
  }

  /** Where the section starting at `start` ends: the next `## ` line, or the end. */
  function SectionEnd(body: seq<string>, start: nat): (e: nat)
    requires start <= |body|
    ensures start <= e <= |body|
    ensures e < |body| ==> StartsWith(body[e], "## ")
    ensures forall j :: start <= j < e ==> !StartsWith(body[j], "## ")
  {
    var m := seq(|body| - start, j requires 0 <= j < |body| - start => StartsWith(body[start + j], "## "));
    var n := FirstTrue(m, 0);
    forall j | start <= j < start + n
      ensures !StartsWith(body[j], "## ")
    {
      assert !m[j - start];
    }
    assert n < |m| ==> m[n];
    start + n
  }

  /** The lines of the changelog section, if the body has one. */
  function Section(body: seq<string>): Option<seq<string>> {
    var i := ChangelogIndex(body);
    if i == |body| then None else Some(body[i + 1..SectionEnd(body, i + 1)])
  }

  /** `.filter((e) => e.children.length > 0)`. */
  function NonEmptyCategories(cats: seq<Category>): (r: seq<Category>)
    ensures |r| <= |cats|
    ensures forall k :: 0 <= k < |r| ==> r[k].children != []
  {
    if cats == [] then []
    else if cats[0].children == [] then NonEmptyCategories(cats[1..])
    else [cats[0]] + NonEmptyCategories(cats[1..])
  }

  /**
   `parsePr(description)`, with `strip` standing for `stripHtmlComments`.
   The version is checked after the lines are stripped, as in the source;
   `strip` has no effects, so the order does not show.
   */
  function ParsePr(description: string, strip: string -> string): (r: Result<seq<Category>>)
    ensures r.Ok? ==> forall k :: 0 <= k < |r.value| ==> r.value[k].children != []
  {
    var lines := PrLines(description);
    match VersionError(lines)
    case Some(e) => Err(e)
    case None => ParseBody(Body(lines, strip))
  }

  /** The version check: no marker at all, or a first marker with a number other than 1. */
  function VersionError(lines: seq<string>): Option<ParseError> {
    var i := VersionIndex(lines);
    if i == |lines| then Some(NoVersionFound)
    else
      var version := ParseVersion(lines[i]).value;
      if version != 1 then Some(UnsupportedVersion(version)) else None
  }

  /** The rest of `parsePr`, once the version is known to be 1. */
  function ParseBody(body: seq<string>): (r: Result<seq<Category>>)
    ensures r.Ok? ==> forall k :: 0 <= k < |r.value| ==> r.value[k].children != []
    ensures r.Err? ==> r.error == NoChangelogSection || r.error.MalformedEntry?
  {
    match Section(body)
    case None => Err(NoChangelogSection)
    case Some(section) =>
      match Fold(NormalizeBullets(section))
      case Err(e) => Err(e)
      case Ok(cats) => Ok(NonEmptyCategories(cats))
  }

  /** The version check fails for want of a marker exactly when no line holds one. */
  lemma VersionErrorMissing(lines: seq<string>)
    ensures VersionError(lines) == Some(NoVersionFound) <==> forall j :: 0 <= j < |lines| ==> ParseVersion(lines[j]).None?
  {
    VersionIndexFirst(lines);
  }

  /** The version check rejects `v` exactly when the first marker holds `v` and `v` is not 1. */
  lemma VersionErrorUnsupported(lines: seq<string>, v: nat)
    ensures VersionError(lines) == Some(UnsupportedVersion(v)) <==>
      exists i :: 0 <= i < |lines| && ParseVersion(lines[i]) == Some(v) && v != 1
        && forall j :: 0 <= j < i ==> ParseVersion(lines[j]).None?
  {
    var i := VersionIndex(lines);
    VersionIndexFirst(lines);
    if exists k :: 0 <= k < |lines| && ParseVersion(lines[k]) == Some(v) && v != 1
         && forall j :: 0 <= j < k ==> ParseVersion(lines[j]).None? {
      var k :| 0 <= k < |lines| && ParseVersion(lines[k]) == Some(v) && v != 1
         && forall j :: 0 <= j < k ==> ParseVersion(lines[j]).None?;
      assert k == i;
    }
  }

  /** `parsePr` fails the version check's way exactly when the check fails; later errors are of other kinds. */
  lemma ParsePrVersionError(description: string, strip: string -> string, e: ParseError)
    requires e == NoVersionFound || e.UnsupportedVersion?
    ensures ParsePr(description, strip) == Err(e) <==> VersionError(PrLines(description)) == Some(e)
  {
  }

  /** `parsePr` reports a missing version exactly when no line holds a marker. */
  lemma ParsePrNoVersion(description: string, strip: string -> string)
    ensures var lines := PrLines(description);
      ParsePr(description, strip) == Err(NoVersionFound) <==>
      forall j :: 0 <= j < |lines| ==> ParseVersion(lines[j]).None?
  {
    ParsePrVersionError(description, strip, NoVersionFound);
    VersionErrorMissing(PrLines(description));
  }

  /** `parsePr` rejects a version exactly when the first marker holds a number other than 1. */
  lemma ParsePrUnsupported(description: string, strip: string -> string, v: nat)
    ensures var lines := PrLines(description);
      ParsePr(description, strip) == Err(UnsupportedVersion(v)) <==>
      exists i :: 0 <= i < |lines| && ParseVersion(lines[i]) == Some(v) && v != 1
        && forall j :: 0 <= j < i ==> ParseVersion(lines[j]).None?
  {
    ParsePrVersionError(description, strip, UnsupportedVersion(v));
    VersionErrorUnsupported(PrLines(description), v);
  }

  /** The version a successful or later-failing parse went on with was 1. */
  predicate VersionOne(description: string) {
    var lines := PrLines(description);
    var i := VersionIndex(lines);
    i < |lines| && ParseVersion(lines[i]) == Some(1)
  }

  /**
   With version 1, `parsePr` reports a missing section exactly when no
   remaining line starts with `## Changelog`.
   */
  lemma ParsePrNoSection(description: string, strip: string -> string)
    ensures ParsePr(description, strip) == Err(NoChangelogSection)
      <==> VersionOne(description)
           && forall l :: l in Body(PrLines(description), strip) ==> !StartsWith(l, "## Changelog")
  {
    var body := Body(PrLines(description), strip);
    var c := ChangelogIndex(body);
    if c < |body| {
      assert body[c] in body;
    }
  }

  /**
   With version 1 and a changelog section, `parsePr` fails exactly when a
   line of the normalized section is a malformed entry, and then with the
   first such line's error.
   */
  lemma ParsePrMalformed(description: string, strip: string -> string)
    requires VersionOne(description)
    requires Section(Body(PrLines(description), strip)).Some?
    ensures var steps := Steps(NormalizeBullets(Section(Body(PrLines(description), strip)).value));
      && (ParsePr(description, strip).Err? <==> exists i :: 0 <= i < |steps| && steps[i].Fail?)
      && (ParsePr(description, strip).Err? ==>
            var i := FirstTrue(Failures(steps), 0);
            i < |steps| && steps[i] == Fail(ParsePr(description, strip).error))
  {
    var steps := Steps(NormalizeBullets(Section(Body(PrLines(description), strip)).value));
    BuildFails(steps);
  }

  /** The outline less every heading that no entry follows. */
  function DropBare(nodes: seq<Node>): (r: seq<Node>)
    ensures |r| <= |nodes|
  {
    if nodes == [] then []
    else if nodes[0].Head? && (|nodes| == 1 || nodes[1].Head?) then DropBare(nodes[1..])
    else [nodes[0]] + DropBare(nodes[1..])
  }

  predicate AllItems(nodes: seq<Node>) {
    forall k :: 0 <= k < |nodes| ==> nodes[k].Item?
  }

  /** A walk of entries holds entry nodes only. */
  lemma {:induction false} EntriesOutlineItems(es: seq<Entry>, depth: nat)
    ensures AllItems(EntriesOutline(es, depth))
    decreases es
  {
    if es != [] {
      EntriesOutlineItems(es[0].children, depth + 1);
      EntriesOutlineItems(es[1..], depth);
    }
  }

  /** Entry nodes are never dropped. */
  lemma {:induction false} DropBareItems(items: seq<Node>, rest: seq<Node>)
    requires AllItems(items)
    ensures DropBare(items + rest) == items + DropBare(rest)
  {
    if items != [] {
      var n := items + rest;
      assert n[0] == items[0] && n[0].Item?;
      assert n[1..] == items[1..] + rest;
      DropBareItems(items[1..], rest);
      assert DropBare(n) == [items[0]] + DropBare(n[1..]);
      assert items == [items[0]] + items[1..];
    } else {
      assert items + rest == rest;
    }
  }

  /** A heading followed by another heading, or by nothing, is dropped. */
  lemma DropBareHead(h: Node, rest: seq<Node>)
    requires h.Head? && (rest == [] || rest[0].Head?)
    ensures DropBare([h] + rest) == DropBare(rest)
  {
    assert ([h] + rest)[1..] == rest;
  }

  /** A heading followed by entries is kept, with them. */
  lemma DropBareKept(h: Node, es: seq<Node>, rest: seq<Node>)
    requires es != [] && AllItems(es)
    ensures DropBare([h] + (es + rest)) == [h] + es + DropBare(rest)
  {
    var n := [h] + (es + rest);
    assert n[1..] == es + rest;
    assert n[1] == es[0];
    DropBareItems(es, rest);
  }

  /** Dropping the categories without entries drops exactly their bare headings. */
  lemma {:induction false} NonEmptyCategoriesOutline(cats: seq<Category>)
    ensures ForestOutline(NonEmptyCategories(cats)) == DropBare(ForestOutline(cats))
  {
    if cats != [] {
      var h := Head(cats[0].emoji, cats[0].title);
      var es := EntriesOutline(cats[0].children, 0);
      var rest := ForestOutline(cats[1..]);
      NonEmptyCategoriesOutline(cats[1..]);
      assert ForestOutline(cats) == [h] + es + rest;
      if cats[0].children == [] {
        assert [h] + es + rest == [h] + rest;
        DropBareHead(h, rest);
      } else {
        EntriesOutlineItems(cats[0].children, 0);
        assert [h] + es + rest == [h] + (es + rest);
        DropBareKept(h, es, rest);
        var r := [cats[0]] + NonEmptyCategories(cats[1..]);
        assert r[0] == cats[0] && r[1..] == NonEmptyCategories(cats[1..]);
      }
    }
  }

  /**
   A successful parse is, in document order, the seed heading followed by
   the normalized section's flat outline — headings in order, each entry at
   its capped depth — less the headings no entry follows.
   */
  lemma ParsePrOutline(description: string, strip: string -> string)
    requires ParsePr(description, strip).Ok?
    ensures Section(Body(PrLines(description), strip)).Some?
    ensures var steps := Steps(NormalizeBullets(Section(Body(PrLines(description), strip)).value));
      ForestOutline(ParsePr(description, strip).value) == DropBare([SeedHead] + FlatOutline(steps).nodes)
  {
    var steps := Steps(NormalizeBullets(Section(Body(PrLines(description), strip)).value));
    StepsAreLeaves(NormalizeBullets(Section(Body(PrLines(description), strip)).value));
    BuildOutline(steps);
    NonEmptyCategoriesOutline(Build(steps).value);
  }

  // ---------------------------------------------------------------------
  // No text of a parsed changelog holds a line break.

  /** The node a step adds to the flat outline holds no line break. */
  predicate StepUnbroken(step: Step) {
    && (step.Open? ==> Unbroken(Head(step.cat.emoji, step.cat.title)))
    && (step.Add? ==> Unbroken(Item(step.entry.description, step.entry.mentions, 0)))
  }

  /** A line without a line break classifies into a step whose texts hold none. */
  lemma ClassifyUnbroken(line: string)
    requires '\n' !in line
    ensures StepUnbroken(Classify(line))
  {
    var t := TrimEnd(line);
    assert '\n' !in t;
    if t != "" {
      if StartsWith(t, "#") {
        if ParseCategory(t).Some? {
          ParseCategoryUnbroken(t);
        }
      } else if ParseEntry(t).Ok? {
        ParseEntryUnbroken(t);
      }
    }
  }

  /** The steps of lines without line breaks all add unbroken nodes. */
  lemma StepsUnbroken(lines: seq<string>)
    requires forall k :: 0 <= k < |lines| ==> '\n' !in lines[k]
    ensures forall i :: 0 <= i < |Steps(lines)| ==> StepUnbroken(Steps(lines)[i])
  {
    forall i | 0 <= i < |lines|
      ensures StepUnbroken(Steps(lines)[i])
    {
      ClassifyUnbroken(lines[i]);
    }
  }

  /** The flat outline of unbroken steps has only unbroken nodes. */
  lemma {:induction false} FlatOutlineUnbroken(steps: seq<Step>)
    requires forall i :: 0 <= i < |steps| ==> StepUnbroken(steps[i])
    ensures AllUnbroken(FlatOutline(steps).nodes)
  {
    if steps != [] {
      var init := steps[..|steps| - 1];
      assert forall i :: 0 <= i < |init| ==> StepUnbroken(init[i]);
      FlatOutlineUnbroken(init);
      assert StepUnbroken(steps[|steps| - 1]);
    }
  }

  /** Dropping headings keeps every node unbroken. */
  lemma {:induction false} DropBareUnbroken(nodes: seq<Node>)
    requires AllUnbroken(nodes)
    ensures AllUnbroken(DropBare(nodes))
  {
    if nodes != [] {
      DropBareUnbroken(nodes[1..]);
    }
  }

  lemma SeedUnbroken()
    ensures Unbroken(SeedHead)
  {
    assert Uncategorized.emoji == "❓" && Uncategorized.title == "Uncategorized";
  }

  /**
   No title, emoji, description or reporter of a successful parse holds a
   line break: each is cut from a line of the split description.
   */
  lemma ParsePrUnbroken(description: string, strip: string -> string)
    requires ParsePr(description, strip).Ok?
    ensures ForestUnbroken(ParsePr(description, strip).value)
  {
    ParsePrOutline(description, strip);
    var lines := NormalizeBullets(Section(Body(PrLines(description), strip)).value);
    StepsUnbroken(lines);
    FlatOutlineUnbroken(Steps(lines));
    SeedUnbroken();
    UnbrokenCons(SeedHead, FlatOutline(Steps(lines)).nodes);
    DropBareUnbroken([SeedHead] + FlatOutline(Steps(lines)).nodes);
  }

  lemma UnbrokenCons(n: Node, nodes: seq<Node>)
    requires Unbroken(n) && AllUnbroken(nodes)
    ensures AllUnbroken([n] + nodes)
  {
    assert forall k :: 1 <= k < |[n] + nodes| ==> ([n] + nodes)[k] == nodes[k - 1];
  }
}

=== FILE: text.dfy ===
/**
 Character classes and string helpers with the semantics of the JavaScript
 built-ins the changelog tool relies on: `\s`, `\w`, `trim`, `trimEnd`,
 `split`, `join`, `startsWith`, `replaceAll` and `parseInt` on digit runs.
 */
module Text {

  datatype Option<+T> = None | Some(value: T)

  /** JavaScript's `\s`, which is also the set `String.prototype.trim` removes. */
  predicate IsSpace(c: char) {
    || c == ' ' || c == '\t' || c == '\n' || c == '\r' || c == '\U{000B}' || c == '\U{000C}'
    || c == '\U{00A0}' || c == '\U{1680}' || ('\U{2000}' <= c <= '\U{200A}')
    || c == '\U{2028}' || c == '\U{2029}' || c == '\U{202F}' || c == '\U{205F}'
    || c == '\U{3000}' || c == '\U{FEFF}'
  }

  /** The characters that end a line for the regex `.`, `^` and `$` (multiline mode). */
  predicate IsLineTerminator(c: char) {
    c == '\n' || c == '\r' || c == '\U{2028}' || c == '\U{2029}'
  }

  /** JavaScript's `\w` without the `u` flag. */
  predicate IsWord(c: char) {
    ('a' <= c <= 'z') || ('A' <= c <= 'Z') || ('0' <= c <= '9') || c == '_'
  }

  /** JavaScript's `\d`. */
  predicate IsDigit(c: char) {
    '0' <= c <= '9'
  }

  /** The character classes the source's regexes are built from. */
  datatype Class =
    | Space            // \s
    | NotLineEnd       // .
    | Digit            // \d
    | Symbol           // [^\w\s]
    | WordOrSpace      // [\w\s]
    | Is(c: char)      // a literal character
    | IsNot(c: char)   // [^c]

  predicate Member(c: char, cl: Class) {
    match cl
    case Space => IsSpace(c)
    case NotLineEnd => !IsLineTerminator(c)
    case Digit => IsDigit(c)
    case Symbol => !IsWord(c) && !IsSpace(c)
    case WordOrSpace => IsWord(c) || IsSpace(c)
    case Is(x) => c == x
    case IsNot(x) => c != x
  }

  /** Every character of `s[i..j]` is in `cl`. */
  predicate All(s: string, i: nat, j: nat, cl: Class)
    requires i <= j <= |s|
  {
    forall k :: i <= k < j ==> Member(s[k], cl)
  }

  /** Whitespace-only strings: those `trim()` maps to "". */
  predicate IsBlank(s: string) {
    All(s, 0, |s|, Space)
  }

  /** No character of `s` ends a line. */
  predicate OneLine(s: string) {
    forall k :: 0 <= k < |s| ==> !IsLineTerminator(s[k])
  }

  /** The end of the longest run of `cl` characters starting at `i`. */
  function SkipWhile(s: string, i: nat, cl: Class): (r: nat)
    requires i <= |s|
    ensures i <= r <= |s|
    ensures All(s, i, r, cl)
    ensures r < |s| ==> !Member(s[r], cl)
    decreases |s| - i
  {
    if i == |s| || !Member(s[i], cl) then i else SkipWhile(s, i + 1, cl)
  }

  /** The end of a maximal run is determined by the run and the character after it. */
  lemma SkipWhileUnique(s: string, i: nat, j: nat, cl: Class)
    requires i <= j <= |s|
    requires All(s, i, j, cl)
    requires j < |s| ==> !Member(s[j], cl)
    ensures SkipWhile(s, i, cl) == j
  {
  }

  function TrimStart(s: string): (r: string)
    ensures |r| <= |s| && r == s[|s| - |r|..]
    ensures IsBlank(s[..|s| - |r|])
    ensures r == [] || !IsSpace(r[0])
  {
    s[SkipWhile(s, 0, Space)..]
  }

  function TrimEnd(s: string): (r: string)
    ensures |r| <= |s| && r == s[..|r|]
    ensures All(s, |r|, |s|, Space)
    ensures r == [] || !IsSpace(r[|r| - 1])
  {
    if |s| > 0 && IsSpace(s[|s| - 1]) then TrimEnd(s[..|s| - 1]) else s
  }

  function Trim(s: string): (r: string)
    ensures |r| <= |s|
    ensures r == [] || (!IsSpace(r[0]) && !IsSpace(r[|r| - 1]))
  {
    TrimEnd(TrimStart(s))
  }

  /** Trimming a blank string gives the empty string, and only then. */
  lemma TrimEmptyIffBlank(s: string)
    ensures Trim(s) == [] <==> IsBlank(s)
  {
    var j := SkipWhile(s, 0, Space);
    if IsBlank(s) {
      SkipWhileUnique(s, 0, |s|, Space);
    } else {
      assert j < |s|;
      var t := TrimStart(s);
      assert t[0] == s[j];
      assert |TrimEnd(t)| > 0;
    }
  }

  /** A string `trim()` leaves alone: empty, or without whitespace at either end. */
  predicate Trimmed(t: string) {
    t == [] || (!IsSpace(t[0]) && !IsSpace(t[|t| - 1]))
  }

  lemma {:induction false} TrimEndPadded(t: string, post: string)
    requires t == [] || !IsSpace(t[|t| - 1])
    requires IsBlank(post)
    ensures TrimEnd(t + post) == t
    decreases |post|
  {
    if post != [] {
      assert (t + post)[..|t + post| - 1] == t + post[..|post| - 1];
      TrimEndPadded(t, post[..|post| - 1]);
    } else {
      assert t + post == t;
    }
  }

  /** Trimming removes whitespace around a trimmed string, and nothing more. */
  lemma TrimPadded(pre: string, t: string, post: string)
    requires IsBlank(pre) && Trimmed(t) && IsBlank(post)
    ensures Trim(pre + t + post) == t
  {
    var s := pre + t + post;
    if t == [] {
      assert IsBlank(s);
      TrimEmptyIffBlank(s);
    } else {
      SkipWhileUnique(s, 0, |pre|, Space);
      assert TrimStart(s) == t + post;
      TrimEndPadded(t, post);
    }
  }

  lemma TrimKeeps(t: string)
    requires Trimmed(t)
    ensures Trim(t) == t
  {
    TrimPadded("", t, "");
    assert "" + t + "" == t;
  }

  lemma TrimTrailing(t: string, p: string)
    requires Trimmed(t) && IsBlank(p)
    ensures Trim(t + p) == t
  {
    TrimPadded("", t, p);
    assert "" + t + p == t + p;
  }

  lemma TrimLeading(t: string)
    requires Trimmed(t)
    ensures Trim(" " + t) == t
  {
    TrimPadded(" ", t, "");
    assert " " + t + "" == " " + t;
  }

  /** Trimming a string free of `c` leaves a trimmed string free of `c`. */
  lemma TrimExcludes(s: string, c: char)
    requires c !in s
    ensures Trimmed(Trim(s)) && c !in Trim(s)
  {
    var t := TrimStart(s);
    assert t == s[|s| - |t|..];
    assert TrimEnd(t) == t[..|TrimEnd(t)|];
  }

  /** Splitting a string free of `x` gives pieces free of `x`. */
  lemma {:induction false} SplitExcludes(s: string, c: char, x: char)
    requires x !in s
    ensures forall k :: 0 <= k < |Split(s, c)| ==> x !in Split(s, c)[k]
  {
    if s != [] {
      assert x !in s[1..];
      SplitExcludes(s[1..], c, x);
    }
  }

  predicate StartsWith(s: string, prefix: string) {
    |prefix| <= |s| && s[..|prefix|] == prefix
  }

  /** `s` holds `p` at position `i`. */
  predicate HasAt(s: string, i: nat, p: string) {
    i + |p| <= |s| && s[i..i + |p|] == p
  }

  /** `ls[0] + sep + ls[1] + ... + sep + ls[n-1]`, "" when `ls` is empty. */
  function Join(ls: seq<string>, sep: string): string {
    if |ls| == 0 then ""
    else if |ls| == 1 then ls[0]
    else ls[0] + sep + Join(ls[1..], sep)
  }

  /** `s.split(c)`: the pieces between occurrences of `c`; "" splits into [""]. */
  function Split(s: string, c: char): (r: seq<string>)
    ensures |r| >= 1
    ensures forall k :: 0 <= k < |r| ==> c !in r[k]
  {
    if s == [] then [""]
    else
      var rest := Split(s[1..], c);
      if s[0] == c then [""] + rest
      else [[s[0]] + rest[0]] + rest[1..]
  }

  lemma {:induction false} SplitNoSeparator(s: string, c: char)
    requires c !in s
    ensures Split(s, c) == [s]
  {
    if s != [] {
      SplitNoSeparator(s[1..], c);
      assert [s[0]] + s[1..] == s;
    }
  }

  lemma {:induction false} SplitAfterSeparator(a: string, c: char, b: string)
    requires c !in a
    ensures Split(a + [c] + b, c) == [a] + Split(b, c)
  {
    if a == [] {
      assert (a + [c] + b)[1..] == b;
    } else {
      assert (a + [c] + b)[1..] == a[1..] + [c] + b;
      SplitAfterSeparator(a[1..], c, b);
      assert [a[0]] + a[1..] == a;
    }
  }

  /** Splitting undoes joining when no piece holds the separator. */
  lemma {:induction false} SplitJoin(ls: seq<string>, c: char)
    requires |ls| >= 1
    requires forall k :: 0 <= k < |ls| ==> c !in ls[k]
    ensures Split(Join(ls, [c]), c) == ls
  {
    if |ls| == 1 {
      SplitNoSeparator(ls[0], c);
    } else {
      SplitJoin(ls[1..], c);
      SplitAfterSeparator(ls[0], c, Join(ls[1..], [c]));
      assert [ls[0]] + ls[1..] == ls;
    }
  }

  /** Joining two non-empty lists puts one separator between their joins. */
  lemma {:induction false} JoinAppend(a: seq<string>, b: seq<string>, sep: string)
    requires |a| >= 1 && |b| >= 1
    ensures Join(a + b, sep) == Join(a, sep) + sep + Join(b, sep)
  {
    if |a| == 1 {
      assert (a + b)[1..] == b;
    } else {
      assert (a + b)[1..] == a[1..] + b;
      JoinAppend(a[1..], b, sep);
    }
  }

  /** A join begins with its first piece. */
  lemma JoinStarts(ls: seq<string>, sep: string)
    requires |ls| >= 1
    ensures StartsWith(Join(ls, sep), ls[0])
  {
  }

  /** A character in neither the pieces nor the separator is not in their join. */
  lemma {:induction false} JoinExcludes(ls: seq<string>, sep: string, c: char)
    requires c !in sep
    requires forall k :: 0 <= k < |ls| ==> c !in ls[k]
    ensures c !in Join(ls, sep)
  {
    if |ls| >= 2 {
      JoinExcludes(ls[1..], sep, c);
    }
  }

  /** `s.replaceAll(pat, rep)`: left-to-right, non-overlapping replacement. */
  function ReplaceAll(s: string, pat: string, rep: string): (r: string)
    requires |pat| > 0
    ensures |pat| == |rep| ==> |r| == |s|
    decreases |s|
  {
    if |s| < |pat| then s
    else if s[..|pat|] == pat then rep + ReplaceAll(s[|pat|..], pat, rep)
    else [s[0]] + ReplaceAll(s[1..], pat, rep)
  }

  /** Replacing a pattern that does not occur changes nothing. */
  lemma {:induction false} ReplaceAllAbsent(s: string, pat: string, rep: string)
    requires |pat| > 0
    requires forall i :: 0 <= i <= |s| - |pat| ==> !HasAt(s, i, pat)
    ensures ReplaceAll(s, pat, rep) == s
    decreases |s|
  {
    if |s| >= |pat| {
      assert !HasAt(s, 0, pat);
      forall i | 0 <= i <= |s[1..]| - |pat|
        ensures !HasAt(s[1..], i, pat)
      {
        assert !HasAt(s, i + 1, pat);
        assert s[1..][i..i + |pat|] == s[i + 1..i + 1 + |pat|];
      }
      ReplaceAllAbsent(s[1..], pat, rep);
      assert [s[0]] + s[1..] == s;
    }
  }

  /** ASCII lower-casing of one character. */
  function LowerChar(c: char): (r: char)
    ensures 'A' <= c <= 'Z' ==> 'a' <= r <= 'z'
    ensures !('A' <= c <= 'Z') ==> r == c
  {
    if 'A' <= c <= 'Z' then (c as int + 32) as char else c
  }

  function Lower(s: string): (r: string)
    ensures |r| == |s|
    ensures forall k :: 0 <= k < |s| ==> r[k] == LowerChar(s[k])
  {
    seq(|s|, k requires 0 <= k < |s| => LowerChar(s[k]))
  }

  function Repeat(s: string, n: nat): (r: string)
    ensures |r| == n * |s|
  {
    if n == 0 then "" else s + Repeat(s, n - 1)
  }

  /** The value of a run of decimal digits (`parseInt` on it). */
  function DecimalValue(ds: string): nat
    requires forall k :: 0 <= k < |ds| ==> IsDigit(ds[k])
  {
    if ds == [] then 0
    else
      assert IsDigit(ds[|ds| - 1]);
      DecimalValue(ds[..|ds| - 1]) * 10 + (ds[|ds| - 1] as int - '0' as int)
  }

  /** The decimal spelling of `n`, as a template literal prints it. */
  function DecimalString(n: nat): (r: string)
    ensures |r| >= 1
    ensures forall k :: 0 <= k < |r| ==> IsDigit(r[k])
  {
    var d := [('0' as int + n % 10) as char];
    if n < 10 then d else DecimalString(n / 10) + d
  }

  /** Printing and re-reading a number gives it back. */
  lemma {:induction false} DecimalRoundTrip(n: nat)
    ensures DecimalValue(DecimalString(n)) == n
  {
    var s := DecimalString(n);
    if n >= 10 {
      DecimalRoundTrip(n / 10);
      assert s[..|s| - 1] == DecimalString(n / 10);
    }
  }

  /** The first `true` at or after `i`; `|m|` when there is none. */
  function FirstTrue(m: seq<bool>, i: nat): (j: nat)
    requires i <= |m|
    ensures i <= j <= |m|
    ensures j < |m| ==> m[j]
    ensures forall k :: i <= k < j ==> !m[k]
    decreases |m| - i
  {
    if i == |m| || m[i] then i else FirstTrue(m, i + 1)
  }

  /** `FirstTrue` from 0 is the one position with no `true` before it and `true` at it (or the end). */
  lemma FirstTrueAt(m: seq<bool>, j: nat)
    requires j <= |m| && (j < |m| ==> m[j]) && forall k :: 0 <= k < j ==> !m[k]
    ensures FirstTrue(m, 0) == j
  {
  }

  /** The last position in `s[lo..hi]` holding `ch`, if any. */
  function LastIndex(s: string, lo: nat, hi: nat, ch: char): (r: Option<nat>)
    requires lo <= hi <= |s|
    ensures r.Some? ==> lo <= r.value < hi && s[r.value] == ch
    ensures r.Some? ==> forall k :: r.value < k < hi ==> s[k] != ch
    ensures r.None? ==> forall k :: lo <= k < hi ==> s[k] != ch
    decreases hi - lo
  {
    if lo == hi then None
    else if s[hi - 1] == ch then Some(hi - 1)
    else LastIndex(s, lo, hi - 1, ch)
  }
}

=== FILE: types.dfy ===
/**
 The changelog tree: categories holding nested entries, and the error a
 pull-request description can fail with.
 */
module Types {
  import opened Text

  /** One bullet: its prose, the reporters it credits and its nested bullets. */
  datatype Entry = Entry(description: string, mentions: seq<string>, children: seq<Entry>)

  /** One changelog section, e.g. "🖼️ Art", with its top-level entries. */
  datatype Category = Category(emoji: string, title: string, children: seq<Entry>)

  /** Why a description could not be parsed; each case carries its message. */
  datatype ParseError =
    | NoVersionFound
    | UnsupportedVersion(version: nat)
    | NoChangelogSection
    | MalformedEntry(line: string)
  {
    /** The text of the `ParseError` the source throws. */
    function Message(): (m: string)
      ensures |m| > 0
    {
      match this
      case NoVersionFound => "No changelog version found"
      case UnsupportedVersion(v) => "Unsupported changelog version: " + DecimalString(v)
      case NoChangelogSection => "No changelog section found"
      case MalformedEntry(line) => "Failed to parse entry: '" + line + "'"
    }
  }

  datatype Result<+T> = Ok(value: T) | Err(error: ParseError)

  /** The category that collects entries written before any heading. */
  const Uncategorized := Category("❓", "Uncategorized", [])
}

=== FILE: version.dfy ===
/**
 `parseVersion`: the leftmost match of
 `<!--\s+es-changelog-version\s+(\d+)\s+-->` anywhere in a line, and the
 decimal value of its digit group.
 */
module Version {
  import opened Text
  import opened Types

  const Tag := "es-changelog-version"

  /**
   The regex anchored at `i`. Each `\s+` and `\d+` is followed by a
   character outside its class (`e`, a digit, a space, `-`), so giving back
   characters never helps: every run is taken whole.
   */
  function VersionAt(s: string, i: nat): Option<nat>
    requires i <= |s|
  {
    if !HasAt(s, i, "<!--") then None
    else
      var a := i + 4;
      var b := SkipWhile(s, a, Space);
      if b == a || !HasAt(s, b, Tag) then None
      else
        var c := b + |Tag|;
        var d := SkipWhile(s, c, Space);
        if d == c then None
        else
          var e := SkipWhile(s, d, Digit);
          if e == d then None
          else
            var f := SkipWhile(s, e, Space);
            if f == e || !HasAt(s, f, "-->") then None
            else Some(DecimalValue(s[d..e]))
  }

  /**
   A version marker occupies `s[i..f + 3]`: `<!--`, spaces up to `b`, the
   tag, spaces up to `d`, digits `s[d..e]`, spaces up to `f`, `-->`.
   */
  predicate MarkerShape(s: string, i: nat, b: nat, d: nat, e: nat, f: nat) {
    && i + 4 < b && b + |Tag| < d < e < f && f + 3 <= |s|
    && HasAt(s, i, "<!--") && All(s, i + 4, b, Space)
    && HasAt(s, b, Tag) && All(s, b + |Tag|, d, Space)
    && All(s, d, e, Digit) && All(s, e, f, Space)
    && HasAt(s, f, "-->")
  }

  /** Whatever the anchored matcher accepts is a marker shape, read for its digits. */
  lemma VersionAtSound(s: string, i: nat)
    requires i <= |s| && VersionAt(s, i).Some?
    ensures exists b: nat, d: nat, e: nat, f: nat ::
      MarkerShape(s, i, b, d, e, f) && VersionAt(s, i) == Some(DecimalValue(s[d..e]))
  {
    var b := SkipWhile(s, i + 4, Space);
    var d := SkipWhile(s, b + |Tag|, Space);
    var e := SkipWhile(s, d, Digit);
    var f := SkipWhile(s, e, Space);
    VersionAtRuns(s, i, b, d, e, f);
    assert MarkerShape(s, i, b, d, e, f);
  }

  /** The anchored matcher, given where each of its runs ends. */
  lemma VersionAtRuns(s: string, i: nat, b: nat, d: nat, e: nat, f: nat)
    requires i + 4 < b && b + |Tag| < d < e < f && f + 3 <= |s|
    requires HasAt(s, i, "<!--") && HasAt(s, b, Tag) && HasAt(s, f, "-->")
    requires SkipWhile(s, i + 4, Space) == b && SkipWhile(s, b + |Tag|, Space) == d
    requires SkipWhile(s, d, Digit) == e && SkipWhile(s, e, Space) == f
    ensures VersionAt(s, i) == Some(DecimalValue(s[d..e]))
  {
  }

  /** A run of spaces ending where a given string starts is skipped whole. */
  lemma SpacesBefore(s: string, a: nat, b: nat, p: string)
    requires HasAt(s, b, p) && a <= b && All(s, a, b, Space) && |p| > 0 && !IsSpace(p[0])
    ensures SkipWhile(s, a, Space) == b
  {
    assert s[b] == p[0] by { assert s[b..b + |p|][0] == s[b]; }
    SkipWhileUnique(s, a, b, Space);
  }

  /** Every marker shape at `i` is accepted by the anchored matcher, with its digits' value. */
  lemma VersionAtComplete(s: string, i: nat, b: nat, d: nat, e: nat, f: nat)
    requires i <= |s| && MarkerShape(s, i, b, d, e, f)
    ensures VersionAt(s, i) == Some(DecimalValue(s[d..e]))
  {
    SpacesBefore(s, i + 4, b, Tag);
    SpacesBefore(s, e, f, "-->");
    assert !IsSpace(s[d]) by { assert Member(s[d], Digit); }
    SkipWhileUnique(s, b + |Tag|, d, Space);
    assert !IsDigit(s[e]) by { assert Member(s[e], Space); }
    SkipWhileUnique(s, d, e, Digit);
    VersionAtRuns(s, i, b, d, e, f);
  }

  /** No marker starts in `s[i..j]`. */
  predicate NoneBetween(s: string, i: nat, j: nat)
    requires i <= j <= |s|
  {
    forall k :: i <= k < j ==> VersionAt(s, k).None?
  }

  /** Which positions of `s` (including `|s|`) start a marker. */
  function Marks(s: string): (m: seq<bool>)
    ensures |m| == |s| + 1
  {
    seq(|s| + 1, k requires 0 <= k <= |s| => VersionAt(s, k).Some?)
  }

  /** Where the leftmost marker starts; `|s| + 1` when there is none. */
  function FirstMarker(s: string): (j: nat)
    ensures j <= |s| + 1
  {
    FirstTrue(Marks(s), 0)
  }

  /** `FirstMarker` finds a marker, and no marker starts before it. */
  lemma FirstMarkerIsLeftmost(s: string)
    ensures var j := FirstMarker(s);
      && (j <= |s| ==> VersionAt(s, j).Some? && NoneBetween(s, 0, j))
      && (j == |s| + 1 ==> NoneBetween(s, 0, |s|) && VersionAt(s, |s|).None?)
  {
    var m := Marks(s);
    var j := FirstMarker(s);
    forall k | 0 <= k < j && k <= |s|
      ensures VersionAt(s, k).None?
    {
      assert !m[k];
    }
    if j <= |s| {
      assert m[j];
    }
  }

  /** `parseVersion(line)`: the number of the leftmost marker, or None. */
  function ParseVersion(line: string): Option<nat> {
    var j := FirstMarker(line);
    if j <= |line| then VersionAt(line, j) else None
  }

  /** A number from `parseVersion` comes from a marker, the leftmost one in the line. */
  lemma ParseVersionSound(line: string)
    requires ParseVersion(line).Some?
    ensures var i := FirstMarker(line);
      && i <= |line| && NoneBetween(line, 0, i)
      && exists b: nat, d: nat, e: nat, f: nat ::
           MarkerShape(line, i, b, d, e, f) && ParseVersion(line) == Some(DecimalValue(line[d..e]))
  {
    FirstMarkerIsLeftmost(line);
    VersionAtSound(line, FirstMarker(line));
  }

  /** Without a marker anywhere in the line, `parseVersion` finds nothing. */
  lemma ParseVersionNone(line: string)
    requires forall i: nat, b: nat, d: nat, e: nat, f: nat :: i <= |line| ==> !MarkerShape(line, i, b, d, e, f)
    ensures ParseVersion(line).None?
  {
    var i := FirstMarker(line);
    if i <= |line| {
      FirstMarkerIsLeftmost(line);
      VersionAtSound(line, i);
    }
  }

  /**
   Any marker in the line makes `parseVersion` answer; if no marker lies to
   its left, the answer is that marker's number.
   */
  lemma ParseVersionComplete(line: string, i: nat, b: nat, d: nat, e: nat, f: nat)
    requires i <= |line| && MarkerShape(line, i, b, d, e, f)
    ensures ParseVersion(line).Some?
    ensures NoneBetween(line, 0, i) ==> ParseVersion(line) == Some(DecimalValue(line[d..e]))
  {
    VersionAtComplete(line, i, b, d, e, f);
    FirstMarkerIsLeftmost(line);
    assert VersionAt(line, i).Some?;
  }

  /** The marker of the description template. */
  const TemplateLine := "<!-- " + Tag + " 1 -->"

  lemma TemplateOpen()
    ensures HasAt(TemplateLine, 0, "<!--") && All(TemplateLine, 4, 5, Space)
  {
    assert TemplateLine[0..4] == "<!--";
    assert TemplateLine[4] == ' ';
  }

  lemma TemplateTag()
    ensures HasAt(TemplateLine, 5, Tag) && All(TemplateLine, 25, 26, Space)
  {
    assert TemplateLine[5..25] == Tag;
    assert TemplateLine[25] == ' ';
  }

  lemma TemplateNumber()
    ensures All(TemplateLine, 26, 27, Digit) && TemplateLine[26..27] == "1" && All(TemplateLine, 27, 28, Space)
  {
    assert TemplateLine[26] == '1';
    assert TemplateLine[27] == ' ';
  }

  lemma TemplateClose()
    ensures HasAt(TemplateLine, 28, "-->") && |TemplateLine| == 31
  {
    assert TemplateLine[28..31] == "-->";
  }

  lemma TemplateShape()
    ensures MarkerShape(TemplateLine, 0, 5, 26, 27, 28)
  {
    TemplateOpen();
    TemplateTag();
    TemplateNumber();
    TemplateClose();
  }

  /** The template's marker reads as version 1. */
  lemma TemplateMarker()
    ensures ParseVersion(TemplateLine) == Some(1)
  {
    TemplateShape();
    TemplateNumber();
    var one := TemplateLine[26..27];
    assert one == "1";
    assert DecimalValue(one) == 1 by {
      assert one[..0] == "";
    }
    ParseVersionComplete(TemplateLine, 0, 5, 26, 27, 28);
  }
}
